=== FILE: README.md ===
# iostruct in Dafny

A model of the core of `iostruct`, a Ruby library that declares binary
records and reads and writes them. A record type is declared in one of two ways:

- **A pack format.** This is a `String#unpack` format such as `"L S C"`, plus member names.
- **A field map.** This is an ordered list of member names to C type names, struct
  types, or option hashes (`offset`, `count`, `type`). The map is turned into a pack
  format.

Either way the record type knows its byte size. It can:

- read an instance from a byte string or a stream;
- pack an instance back to bytes;
- build an instance from positional or keyword arguments;
- tell whether every member is empty.

The model has these modules:

- `Results`: Ruby's nil as `Option` and its raised errors as `Result`.
- `Bytes`: unsigned integers in little- and big-endian order, and two's-complement
  wrap-around.
- `FmtSpec`: the FMTSPEC table, which gives each pack letter a width and a value class.
  It also says what each letter means to the codec: its byte order, signedness and
  string padding.
- `Tokenizer`: the scanner that splits a format into a letter, a digit run and an
  optional `<`/`>` byte-order mark, together with any digits written after the mark.
  It includes its inverse, the rendering of tokens back to text.
- `Layout`: field records (class, size, offset, count, element format), record types,
  and the "tiled" layout invariant.
- `PackFmt`: `parse_pack_format`, the layout engine. It computes the field records and
  the total size of a pack format.
- `Codec`: `String#unpack` and `Array#pack` for the FMTSPEC letters. This covers
  integers of every width and order, floats as bit patterns, the `a`/`A`/`Z` strings,
  the `H`/`h` hex strings and the `x` skips. Each direction comes with its
  round-trip lemmas.
- `HashFmt`: the C type name catalogue, `get_type_size`, and `parse_hash_format`, which
  turns a field map into a pack format, field records and a size.
- `IOStruct`: record types and records, covering `read`, `pack`, `empty?` and
  `initialize`. It also keeps the older size rule of `IOStruct.new`, which sums
  FIELD_SIZES, to compare it with the layout engine.
- `Scenarios`, `StructScenarios`, `RecordScenarios`: the library's documented examples,
  worked through the model.

A record type's `SIZE` is the layout engine's total. For a hex letter the layout
engine advances `n / 2` bytes (rounded down), while `unpack` reads `(n + 1) / 2`.
`Codec.NeedAllIsTotalAdvance` states that the two agree whenever every hex count is
even. The layout engine reads a count only directly after the letter, while `unpack`
also reads a count after a byte-order mark (`S>2` is two shorts). Record types count
it as `unpack` does; see "## Findings".

## Model

| member | source | states |
|---|---|---|
| FmtSpec.DirectiveOf | lib/iostruct/pack_fmt.rb:6-40 | A letter has a codec meaning exactly when FMTSPEC lists it. A scalar directive has FMTSPEC's width. The integer directives are exactly the Integer rows, and the float directives are exactly the Float rows. Byte order, signedness and string kind per letter are the three lemmas below. |
| FmtSpec.IntegerSignedness | lib/iostruct/pack_fmt.rb:7-22 | `C S I L Q n N v V` read unsigned integers. `c s i l q` read two's-complement signed integers. |
| FmtSpec.ScalarOrder | lib/iostruct/pack_fmt.rb:7-37 | `s S i I l L q Q` use the byte-order mark when there is one and native order otherwise. `c C d D f F` use native order. `n N G g` are big-endian, and `v V E e` are little-endian. |
| FmtSpec.ByteLetters | lib/iostruct/pack_fmt.rb:24-39 | `a` is the raw string, `A` the space-padded one, `Z` the NUL-padded one, `H` and `h` the high- and low-nibble-first hex strings, and `x` the skip. Each holds for that letter and no other. |
| Tokenizer.ShowNat | lib/iostruct/hash_fmt.rb:59 | Writing a count in decimal, as string interpolation does, gives digits that read back as that count. |
| Tokenizer.LeadingDigits | lib/iostruct/pack_fmt.rb:46 | The digit run after a letter is the longest digit prefix. The character after it is not a digit. |
| Tokenizer.ScanSkipsNonLetters | lib/iostruct/pack_fmt.rb:46 | Text without letters in front of a format adds no tokens. |
| Tokenizer.ScanRenderOne | lib/iostruct/pack_fmt.rb:46 | A written token, followed by anything that does not continue its digit run, scans as that token and then the rest. |
| Tokenizer.ScanMarked | lib/iostruct/pack_fmt.rb:46 | A letter followed by `<` or `>` scans as one token carrying that order and the digit run after the mark. Scanning resumes after those digits. |
| Tokenizer.ScanRenderMarked | lib/iostruct/pack_fmt.rb:46 | A written token with a mark, followed by anything that does not start with a digit, scans as that token and then the rest. |
| Tokenizer.Normalized | lib/iostruct/pack_fmt.rb:46-48 | Moving the count written after a mark in front of the mark keeps the letter and the byte order. The token's count becomes the number of items `unpack` reads. A token without such a count is unchanged. |
| Tokenizer.NormalizeUnmarked | lib/iostruct/pack_fmt.rb:46-48 | A format with no count after a mark is its own normal form. |
| Tokenizer.ScanRenderAll | lib/iostruct/pack_fmt.rb:46 | Tokens written out and joined by a separator without letters, digits, `<` or `>` scan back to exactly those tokens. |
| Layout.TiledDisjoint | lib/iostruct/pack_fmt.rb:44-64 | In a tiled layout, offsets never decrease and no byte lies in two fields. |
| Layout.TiledConcat | lib/iostruct/pack_fmt.rb:44-64 | Two tiled layouts that meet at a common cursor form one tiled layout. |
| PackFmt.FirstUnknown | lib/iostruct/pack_fmt.rb:47 | Gives the position of the first token whose letter FMTSPEC does not list. Every earlier letter is known. |
| PackFmt.RepeatTiled | lib/iostruct/pack_fmt.rb:58-61 | A number letter with count n lays out n fields of its width back to back, filling exactly n times the width. |
| PackFmt.EmitTiled | lib/iostruct/pack_fmt.rb:49-62 | Each token's fields lie, in order and without overlap, between the cursor and the cursor plus the token's advance. |
| PackFmt.EmitByKind | lib/iostruct/pack_fmt.rb:48-62 | A token with no digits counts 1. `x` emits nothing and skips n bytes. `a`/`A`/`Z` emit one n-byte string. `H`/`h` emit one string of n / 2 bytes and advance n / 2. Any other letter emits n fields of its width at consecutive offsets. |
| PackFmt.NormalizeKnown | lib/iostruct/pack_fmt.rb:47 | Normalizing the tokens keeps every letter known or not, and keeps the position of the first unknown one. |
| PackFmt.ItemLayoutUnmarked | lib/iostruct/pack_fmt.rb:43-65 | Without a count after a mark, the layout that counts such digits and `parse_pack_format` as written agree. |
| PackFmt.ParseTokensSpec | lib/iostruct/pack_fmt.rb:43-65 | Layout succeeds exactly when every letter is in FMTSPEC. Its fields are the tokens' fields in order, and its total is the start plus every token's advance. A failure names the first unknown letter. |
| PackFmt.ParseTokensTiled | lib/iostruct/pack_fmt.rb:44-64 | The fields of a successful layout are in ascending order, disjoint, and inside the total. |
| PackFmt.ParseTokensConcatOk | lib/iostruct/pack_fmt.rb:44-64 | Laying out two formats one after the other equals laying out each in turn, the second starting where the first ended. |
| PackFmt.ParseTokensConcatErr | lib/iostruct/pack_fmt.rb:47 | If the first part is all known, a failure in the second part is the failure of the whole. |
| PackFmt.TotalAdvanceConcat | lib/iostruct/pack_fmt.rb:64 | The total of a joined format is the sum of the parts' totals. |
| PackFmt.EmitAllConcat | lib/iostruct/pack_fmt.rb:45-63 | The fields of a joined format are the first part's fields, then the second part's fields shifted by the first part's total. |
| Bytes.LittleEndianBytesOfValue | lib/iostruct/pack_fmt.rb:21-22 | Writing back the little-endian value of some bytes, at their width, gives the same bytes. |
| Bytes.BigEndianBytesOfValue | lib/iostruct/pack_fmt.rb:19-20 | Writing back the big-endian value of some bytes, at their width, gives the same bytes. |
| Bytes.ToSigned | lib/iostruct/pack_fmt.rb:13-17 | A w-byte pattern read as signed lies in [-2^(8w-1), 2^(8w-1)). It is non-negative exactly when the top bit is clear. |
| Bytes.WrapToSigned | lib/iostruct/pack_fmt.rb:13-17 | Wrapping a signed reading back to w bytes gives the original pattern. |
| Bytes.ToSignedWrap | lib/iostruct/pack_fmt.rb:13-17 | Every in-range signed integer survives wrapping to w bytes and reading back. |
| Bytes.LittleEndianZero | lib/iostruct.rb:80 | A little-endian integer is 0 exactly when all its bytes are zero. |
| Bytes.BigEndianZero | lib/iostruct.rb:80 | A big-endian integer is 0 exactly when all its bytes are zero. |
| Codec.WriteReadUnsigned | lib/iostruct/pack_fmt.rb:7-22 | Writing back an unsigned reading, in either byte order, reproduces the bytes. |
| Codec.DecodeScalar | lib/iostruct/pack_fmt.rb:7-37 | An unsigned letter reads a value in [0, 256^w). A signed letter reads a value in [-2^(8w-1), 2^(8w-1)). A float letter keeps the bytes' bit pattern. |
| Codec.EncodeScalar | lib/iostruct/pack_fmt.rb:7-37 | Packing a number writes exactly the letter's width. It fails with a type mismatch exactly when the value is not an integer (or, for a float letter, a float of that width). |
| Codec.EncodeDecodeScalar | lib/iostruct/pack_fmt.rb:7-37 | Packing the value any w bytes unpack to gives the bytes back. |
| Codec.DecodeEncodeInt | lib/iostruct/pack_fmt.rb:7-22 | Packing an in-range integer and unpacking it gives the integer back. |
| Codec.UnpackScalars | lib/iostruct/pack_fmt.rb:58-61 | A number letter with count n always yields n values. With enough data it consumes exactly n times the width. |
| Codec.TrimEnd | lib/iostruct/pack_fmt.rb:24-26 | Stripping keeps a prefix whose last byte is not strippable, and drops only strippable bytes. |
| Codec.Fit | lib/iostruct/pack_fmt.rb:24-26 | A packed string is exactly n bytes: truncated when longer, padded with the pad byte when shorter. |
| Codec.TrimPadded | lib/iostruct/pack_fmt.rb:24-26 | An `A`/`Z` string that fits, padded and stripped again, is unchanged. |
| Codec.PackUnpackHex | lib/iostruct/pack_fmt.rb:27-28 | Packing all the hex digits of some bytes, in either nibble order, gives the bytes back. |
| Codec.UnpackPackHex | lib/iostruct/pack_fmt.rb:27-28 | For any digit count, even or odd, repacking the digits read and reading again gives the same digits. |
| Codec.UnpackOne | lib/iostruct/pack_fmt.rb:5-39 | Unpacking one directive fails exactly when `x` skips past the end. It yields the directive's number of values and never consumes more than is there. With enough data it consumes exactly the directive's byte need. |
| Codec.PackOne | lib/iostruct/pack_fmt.rb:5-39 | Packing one directive writes exactly its byte need and consumes its number of values. Too few values is an error, and errors are too-few-arguments or type mismatch. A nil string member packs as all pad bytes and a nil hex member as zero bytes, while a nil number is a type mismatch. |
| Codec.UnpackPackOne | lib/iostruct/pack_fmt.rb:5-39 | Per directive, packing what was unpacked and unpacking again gives the same values. For numbers, `a` and even-count hex, the packed bytes are the original bytes. |
| Codec.UnpackPackAll | lib/iostruct.rb:70-77 | For a whole format and enough data, unpacking succeeds, packing the values succeeds with the format's byte need, and unpacking that gives the same values. |
| Codec.PackUnpackAllExact | lib/iostruct.rb:70-77 | For a format of numbers, `a` strings and even hex counts, packing the unpacked values gives back exactly the bytes read. |
| Codec.UnpackAllTotal | lib/iostruct.rb:67-70 | A format without `x` unpacks any data, however short, into one value per item. |
| Codec.NeedAllIsTotalAdvance | lib/iostruct/pack_fmt.rb:53-56 | When every hex count is even, the bytes the codec reads equal the layout engine's total for the tokens with each count after a mark counted. |
| HashFmt.AliasCodeListed | lib/iostruct/hash_fmt.rb:35 | A name found in KNOWN_FIELD_TYPES is listed under the letter it maps to. |
| HashFmt.ListedAliasCode | lib/iostruct/hash_fmt.rb:5-35 | Every name listed under a letter maps back to that letter, so no name is listed twice. |
| HashFmt.AliasCodeIff | lib/iostruct/hash_fmt.rb:5-35 | A name maps to a letter exactly when the catalogue lists the name under that letter. |
| HashFmt.AliasedCodeSpec | lib/iostruct/hash_fmt.rb:85 | Every catalogued letter is a FMTSPEC number letter with a value class, so the raise at that line cannot fire. |
| HashFmt.GetTypeSize | lib/iostruct/hash_fmt.rb:38-42 | A known type's size is 1, 2, 4 or 8. |
| HashFmt.GetTypeSizeIff | lib/iostruct/hash_fmt.rb:38-42 | A type has a size exactly when the catalogue lists it. The size is FMTSPEC's width for its letter. |
| HashFmt.ParseField | lib/iostruct/hash_fmt.rb:51-105 | A field lays out exactly when its offset is not behind the cursor and its type is known. An earlier offset is an overlap error naming the struct and field. Unknown names, option hashes as types and other classes give their errors. The record has the offset, the element size times the count, and the count. A struct-typed field records the struct as its class and element format. A named type records its FMTSPEC class, and its element format is none for a count of 1 and `<letter><count>` otherwise. |
| HashFmt.StepLayout | lib/iostruct/hash_fmt.rb:56-102 | A field's pack-format pieces, laid out from the cursor, read one value at the field's offset and size, and end where the field ends. |
| HashFmt.StepTokens | lib/iostruct/hash_fmt.rb:56-102 | A field adds an optional `x` gap and one value piece. The piece is a catalogued letter or an `a<size>`. No piece carries a byte-order mark. |
| HashFmt.ParseHashFormat | lib/iostruct/hash_fmt.rb:101-109 | The members are the map's names in order. |
| HashFmt.ParseFieldsLayout | lib/iostruct/hash_fmt.rb:51-106 | The joined pieces of a field walk are a format the layout engine accepts. It places each value where the field records say and ends at the walk's final cursor. The records tile the bytes. |
| HashFmt.ParseFieldsSizes | lib/iostruct/hash_fmt.rb:63-99 | Each field's size is its element size times its count, and its count is recorded. |
| HashFmt.ParseFieldsPlacement | lib/iostruct/hash_fmt.rb:51-106 | Each field starts at its explicit offset or else where the previous field ended, and never before that. The walk ends where the last field ends. |
| HashFmt.HashFormatLayout | lib/iostruct/hash_fmt.rb:101-109 | A struct's pack format is accepted by the layout engine and stays within the struct's size. It reads each member at its record's offset and size. The records tile the struct. |
| HashFmt.ForcedSize | lib/iostruct/hash_fmt.rb:107-109 | A forced size is accepted exactly when it holds the fields, and then it is the size. Otherwise the error gives both sizes. Without one, the size is the fields' extent. |
| HashFmt.DefaultPlacement | lib/iostruct/hash_fmt.rb:51-106 | A map of known types without offsets always lays out, back to back from the cursor. Its size is the sum of the field sizes. |
| HashFmt.ParseFieldsErrors | lib/iostruct/hash_fmt.rb:56-83 | A field walk fails only by overlap, an unknown type name, or an unexpected descriptor. |
| IOStruct.FieldSizeInSpec | lib/iostruct.rb:6-34 | Every FIELD_SIZES letter is in FMTSPEC with the same width, and none is a hex letter. |
| IOStruct.OldSizeOf | lib/iostruct.rb:36-43 | The older size rule gives nil exactly for a format without tokens. Its only error is an unknown letter. |
| IOStruct.OldSizeVersusTotal | lib/iostruct.rb:37-43 | For letters in the older table, the older size is the layout engine's total plus one width per zero-count token. |
| IOStruct.OldSizeAgrees | lib/iostruct.rb:37-43 | When no count is zero, the older size and the layout engine's total agree. |
| IOStruct.NewPositional | lib/iostruct.rb:95 | Positional construction succeeds exactly when there are no more arguments than members. It keeps the arguments in order and leaves the rest nil. More arguments is the struct-size error. |
| IOStruct.MemberIndex | lib/iostruct.rb:92 | Finds a member's position exactly when the name is a member, and that position holds the name. |
| IOStruct.AssignSpec | lib/iostruct.rb:91-93 | Keyword assignment succeeds exactly when every key is a member. Each member gets the value of the last pair naming it, and every other member is unchanged. |
| IOStruct.KeywordInit | lib/iostruct.rb:88-97 | A hash argument gives a record whose named members hold the last value given for them and whose other members are nil. It fails exactly when a key names no member. |
| IOStruct.Take | lib/iostruct.rb:61 | A stream read of n bytes yields at most n bytes, fewer only at the end, taken from the current position. |
| IOStruct.Read | lib/iostruct.rb:57-71 | A source that is neither a stream nor a string is an error. A read gives a record of the type with one value per member. It is short exactly when fewer than the wanted bytes arrived. A stream moves by the bytes taken. |
| IOStruct.FromPackFormatSpec | lib/iostruct/pack_fmt.rb:43-65 | A pack-format record type exists exactly when every letter is known. Its size is the layout total and its fields are the layout's fields, with each count after a mark counted. Otherwise the error names the first unknown letter. |
| IOStruct.ReadFromReader | lib/iostruct.rb:58-61 | A stream holding enough bytes gives exactly the wanted bytes from its position, is not short, and moves by that many. |
| IOStruct.ReadTolerant | lib/iostruct.rb:67-70 | Reading a format without `x` never fails on short data. The shortfall is only reported. |
| IOStruct.ReadText | lib/iostruct.rb:63-70 | Reading a string gives the unpacked values, with nil for the missing members. |
| IOStruct.ReadPackRead | lib/iostruct.rb:70-77 | Packing a record read from enough data gives the format's byte need. Reading those bytes gives the same record. |
| IOStruct.PackReadExact | lib/iostruct.rb:70-77 | For a lossless format and data of exactly the record size, the read is not short and packing gives the data back. |
| IOStruct.FullReadPackRead | lib/iostruct.rb:70-77 | When the format yields one value per member, the record holds exactly the unpacked values, and packing then reading gives it back. |
| IOStruct.OneZero | lib/iostruct.rb:80 | For integer, `a` and `Z` items, the values read are all empty exactly when the bytes read are all zero. For `Z` this rests on the trailing-NUL strip (see "## Left out"). |
| IOStruct.UnpackZero | lib/iostruct.rb:80 | For a format of integers, `a` and `Z` strings, the unpacked values are all empty exactly when the bytes read are all zero. For `Z` this rests on the trailing-NUL strip (see "## Left out"). |
| IOStruct.EmptyIffZero | lib/iostruct.rb:79-81 | A record read from such a format is `empty?` exactly when the bytes it covers are all zero. For `Z` this rests on the trailing-NUL strip (see "## Left out"). |
| IOStruct.FreshRecordEmpty | lib/iostruct.rb:79-81 | A record built with no arguments is `empty?`. |
| IOStruct.HashFormatArity | lib/iostruct/hash_fmt.rb:101-109 | The pack format built from a field map yields exactly one value per member, and has no hex letters. |
| IOStruct.HashFormatNeed | lib/iostruct/hash_fmt.rb:107-109 | The bytes that format reads fit in the struct's size. |
| IOStruct.HashReadPackRead | lib/iostruct.rb:70-77 | A struct from a field map, read from at least its size, holds the unpacked values. Packing and reading again gives the same record. |
| Scenarios.LayoutCSL | spec/iostruct_spec.rb:91-95 | `C S L` places fields at 0, 1 and 3 in seven bytes. |
| Scenarios.LayoutSkip | spec/iostruct_spec.rb:275-280 | `x4L` places its one field at offset 4 in eight bytes. |
| Scenarios.LayoutZeroLength | spec/iostruct_spec.rb:255-261 | `C a0 C` is two bytes, with an empty string field between the two bytes. |
| Scenarios.LayoutHex | spec/iostruct_spec.rb:282-287 | `H8` is one four-byte string field. |
| Scenarios.LayoutByteOrderMark | spec/iostruct_spec.rb:297-305 | `S>` lays out like `n`: one two-byte integer. |
| Scenarios.LayoutUnknown | spec/iostruct_spec.rb:318-320 | `K` fails naming `K`. |
| Scenarios.UnpackMinShort | spec/iostruct_spec.rb:151-154 | `s` over 00 80 reads -32768. |
| Scenarios.HexHighScenario | spec/iostruct_spec.rb:282-287 | `H8` reads "1234" as "31323334" and packs it back. |
| Scenarios.HexLowScenario | spec/iostruct_spec.rb:289-294 | `h8` reads "1234" as "13233343" and packs it back. |
| Scenarios.SpacePaddedScenario | spec/iostruct_spec.rb:168-172 | `A8` reads "hello   " as "hello". |
| Scenarios.NulPaddedScenario | spec/iostruct_spec.rb:174-178 | `Z8` reads "hello" plus three NULs as "hello". |
| Scenarios.RawScenario | spec/iostruct_spec.rb:180-184 | `a8` keeps the three NULs. |
| Scenarios.ByteOrderScenario | spec/iostruct_spec.rb:297-315 | 12345 packs to 30 39 as a big-endian short and to 39 30 as a little-endian short. The per-letter cases are the RecordScenarios rows below. |
| StructScenarios.IntegerTypeSizes | spec/hash_fmt_spec.rb:6-9 | int, char and short are 4, 1 and 2 bytes. |
| StructScenarios.WideTypeSizes | spec/hash_fmt_spec.rb:10-12 | long long, double and float are 8, 8 and 4 bytes. |
| StructScenarios.UnknownTypeSize | spec/hash_fmt_spec.rb:19-21 | An unknown type name has no size. |
| StructScenarios.PointStruct | spec/hash_fmt_spec.rb:24-37 | Three ints make a twelve-byte struct with format `iii` and members x, y, z. |
| StructScenarios.OffsetStruct | spec/hash_fmt_spec.rb:51-67 | z at 0x10 gives format `iix8i`, a 0x14-byte struct, and z's record at 16. |
| StructScenarios.OverlapRejected | spec/hash_fmt_spec.rb:69-81 | Two fields at offset 0 fail with an overlap error on the second. |
| StructScenarios.PointForcedLarger | spec/hash_fmt_spec.rb:83-93 | A forced size of 0x100 becomes the struct's size. |
| StructScenarios.ArrayStruct | spec/hash_fmt_spec.rb:95-104 | An int, three ints and an int make twenty bytes, with the array read as one 12-byte piece. |
| StructScenarios.PairStruct | spec/hash_fmt_spec.rb:113 | Two ints make the eight-byte point type `ii`. |
| StructScenarios.RectStruct | spec/hash_fmt_spec.rb:112-130 | Two points make a sixteen-byte struct, each point read as an eight-byte piece. |
| StructScenarios.PolygonStruct | spec/hash_fmt_spec.rb:146-154 | A count and three points make 4 + 8 * 3 bytes. |
| StructScenarios.UnknownTypeRejected | spec/hash_fmt_spec.rb:193-197 | An unknown type name fails naming the field and the type. |
| StructScenarios.IntegerDescRejected | spec/hash_fmt_spec.rb:199-203 | A number as a descriptor fails as an unexpected descriptor. |
| StructScenarios.PointForcedSmaller | spec/hash_fmt_spec.rb:205-212 | A forced size of 4 cannot hold twelve bytes. |
| StructScenarios.FourTypedSize | spec/hash_fmt_spec.rb:215-234 | Four known types without offsets make a struct whose size is the sum of their sizes. |
| StructScenarios.UintStruct | spec/hash_fmt_spec.rb:216-224 | uint8_t through uint64_t make 15 bytes. |
| StructScenarios.IntStruct | spec/hash_fmt_spec.rb:226-234 | int8_t through int64_t make 15 bytes. |
| StructScenarios.ByteStruct | spec/hash_fmt_spec.rb:236-240 | `_BYTE` is one unsigned byte, `C`. |
| RecordScenarios.ZeroLengthType | spec/iostruct_spec.rb:255-257 | `C a0 C` with members a, b, c is a two-byte record type. |
| RecordScenarios.OldSizeZeroLength | lib/iostruct.rb:39 | The older size rule gives `C a0 C` three bytes. |
| RecordScenarios.OldSizeOverstates | lib/iostruct.rb:37-43 | On `C a0 C` the older rule gives 3 and the layout engine gives 2. |
| RecordScenarios.ZeroLengthRead | spec/iostruct_spec.rb:248-253 | Reading 01 02 gives a = 1, b = "", c = 2, and the read is not short. |
| RecordScenarios.ZeroLengthReadBytes | spec/iostruct_spec.rb:248-253 | Any two bytes x y read as a = x, b = "", c = y. |
| RecordScenarios.ZeroLengthPack | spec/iostruct_spec.rb:269-272 | That record packs back to 01 02. |
| RecordScenarios.ZeroLengthStream | spec/iostruct_spec.rb:263-267 | Reading from a four-byte stream leaves it at position 2. |
| RecordScenarios.ZeroLengthFromReader | spec/iostruct_spec.rb:263-267 | Any stream of at least two bytes moves by two. |
| RecordScenarios.SkipRead | spec/iostruct_spec.rb:275-280 | `x4L` over 12345 and 56789 reads y = 56789. |
| RecordScenarios.LscRoundTrip | spec/iostruct_spec.rb:12-17 | The bytes of 123, 456 and 78 read as those values and pack back to the same bytes. |
| RecordScenarios.PackScenario | spec/iostruct_spec.rb:6-10 | A record built by name from 0x12345678, 0xABCD and 0xEF packs to their little-endian bytes. |
| RecordScenarios.WideRead | spec/iostruct_spec.rb:6-10 | Those bytes read back as the same record. |
| RecordScenarios.KeywordScenario | spec/iostruct_spec.rb:80-89 | `new(a: 100, c: 50)` sets a and c and leaves b nil. |
| RecordScenarios.UnknownKeyScenario | lib/iostruct.rb:91-93 | A key that names no member is refused. |
| RecordScenarios.EmptyScenarios | spec/iostruct_spec.rb:20-33 | Zeros and nils are empty, and a 1 is not. |
| RecordScenarios.EmptyStringScenarios | spec/iostruct_spec.rb:35-43 | Four NULs are empty, and "test" is not. |
| RecordScenarios.ReadEmptyLS | lib/iostruct.rb:79-81 | An `L S` record read from six bytes is empty exactly when the six bytes are zero. |
| RecordScenarios.UnsignedOne | lib/iostruct/pack_fmt.rb:7-22 | One unsigned item reads its bytes as their value in the item's order, and packing that value writes the bytes back. |
| RecordScenarios.UnsignedRecord | lib/iostruct.rb:57-77 | A one-member struct type on a format of one unsigned item packs the bytes' value to those bytes. Reading the bytes gives the value, and packing the record gives the bytes again. |
| RecordScenarios.BigN | spec/iostruct_spec.rb:297-305 | With `n`, 12345 packs to 30 39 and reads back. |
| RecordScenarios.BigNN | spec/iostruct_spec.rb:297-305 | With `N`, 12345 packs to 00 00 30 39 and reads back. |
| RecordScenarios.BigS | spec/iostruct_spec.rb:297-305 | With `S>`, 12345 packs to 30 39 and reads back. |
| RecordScenarios.BigL | spec/iostruct_spec.rb:297-305 | With `L>`, 12345 packs to 00 00 30 39 and reads back. |
| RecordScenarios.BigI | spec/iostruct_spec.rb:297-305 | With `I>`, 12345 packs to 00 00 30 39 and reads back. |
| RecordScenarios.LittleV | spec/iostruct_spec.rb:307-315 | With `v`, 12345 packs to 39 30 and reads back. |
| RecordScenarios.LittleVV | spec/iostruct_spec.rb:307-315 | With `V`, 12345 packs to 39 30 00 00 and reads back. |
| RecordScenarios.LittleS | spec/iostruct_spec.rb:307-315 | With `S<`, 12345 packs to 39 30 and reads back. |
| RecordScenarios.LittleL | spec/iostruct_spec.rb:307-315 | With `L<`, 12345 packs to 39 30 00 00 and reads back. |
| RecordScenarios.LittleI | spec/iostruct_spec.rb:307-315 | With `I<`, 12345 packs to 39 30 00 00 and reads back. |
| RecordScenarios.PackNilName | lib/iostruct.rb:75-77 | `a4 L` packs nil and 5 as four NULs, then 05 00 00 00. |
| RecordScenarios.NilNamePacks | lib/iostruct.rb:88-97 | An `a4 L` record built by name with only n = 5 leaves name nil, and packs as four NULs, then 05 00 00 00. |
| RecordScenarios.MarkedPairFacts | lib/iostruct/pack_fmt.rb:46 | `S>2` scans as one big-endian `S` whose two items are counted after the mark. |
| RecordScenarios.MarkCountSkipped | lib/iostruct/pack_fmt.rb:46-61 | `parse_pack_format` as written lays out `S>2` as one 2-byte field in 2 bytes. `unpack` reads four bytes as two values. |
| RecordScenarios.MarkCountLaidOut | lib/iostruct/pack_fmt.rb:46-61 | Counting the digits after the mark, `S>2` with members a and b is four bytes with fields at 0 and 2. Reading 00 01 00 02 gives a = 1 and b = 2 and is not short, and packing gives the bytes back. |

## Left out

- Native byte order is fixed to little-endian, in `FmtSpec.Native`.
- The `<`/`>` marks are honoured only on `sSiIlLqQ`. After other letters the model ignores them, where Ruby raises.
- Record types built from a pack format take their letters and their size from `parse_pack_format` (lib/iostruct/pack_fmt.rb:43-65), corrected to count the digits after a byte-order mark (PackFmt.ParseItemLayout; see "## Findings"), not from the FIELD_SIZES sum of the `IOStruct.new` in lib/iostruct.rb:36-53. That table lacks `I`, `i`, `Z`, `H` and `h`, which the library's own examples use (`i`, `Z8`, `H8`, `h8`), and it counts `a0` as one byte. The older rule is kept as IOStruct.OldSizeOf, to compare with the layout engine.
- An empty pack format has SIZE nil under the older rule (IOStruct.OldSizeOf gives None), and `read` then fails comparing with nil at lib/iostruct.rb:67. IOStruct.FromPackFormat gives it size 0.
- Tokenizer.IsLetter: only ASCII letters count. Ruby's case-insensitive `[a-z]` also matches U+212A (Kelvin sign) and U+017F (long s), for which Ruby raises "Unknown field type" while the model skips them.
- HashFmt.ParseField: an explicit `count` is a natural number. A negative `count`, which lib/iostruct/hash_fmt.rb:63 does not reject, is not modelled. An explicit `offset: nil` or `count: nil` is taken as an absent key, where Ruby's `fetch` returns nil: the comparison at lib/iostruct/hash_fmt.rb:58 then raises NoMethodError, and the size computation at lines 88-97 raises TypeError.
- Codec.DecodeScalar: a float letter's value is the raw bit pattern, so that clause only says which bits are kept. Its meaning is pinned by Codec.EncodeDecodeScalar.
- The `*` count and the `_`/`!` modifiers are not modelled.
- IOStruct.ReadTolerant / Codec.UnpackAll: `@` (absolute position) and every other character that is neither a letter, a digit, a `<`/`>` mark nor whitespace are skipped by the scanner, as `parse_pack_format`'s pattern skips them. Ruby's unpack honours `@` (`C@4C` over 01 02 03 04 05 reads 1 and 5; over 01 02 it raises "@ outside of string") and rejects unknown directive characters. So "short data never fails" and the values read hold only for formats without such characters.
- A `<`/`>` written after a count (`S2>`) is dropped by the scanner, so `S2>` reads two native-order shorts; Ruby's unpack warns or raises on it. `#` comments inside a format are not modelled: their letters are scanned as directives, where Ruby's unpack skips to the end of the line.
- Codec.UnpackOne: a `Z` string drops every trailing NUL, as the FMTSPEC comment says. Ruby's unpack stops at the first NUL. The two differ only when a NUL is followed by other bytes.
- IOStruct.EmptyIffZero / IOStruct.UnpackZero / IOStruct.OneZero: the `Z` case of "empty exactly when the bytes are zero" holds only under the modelled trailing-NUL strip. Under Ruby's first-NUL stop, `Z2` over 00 41 reads "", which lib/iostruct.rb:80 counts as empty although the bytes are not all zero. There only "all zero bytes give an empty record" holds for `Z`.
- Codec.EncodeScalar: floats are carried as raw bit patterns, with no IEEE 754 arithmetic. Ruby converts an Integer packed with a float letter, and a Float packed with an integer letter. The model reports a type mismatch for both.
- Arrays and nested structs from a field map are read as one `a<size>` string each. That is what the format `parse_hash_format` builds says. The conversion of that string into an Array or into nested records is not part of this model.
- The `IOStruct.new` wrapper is not modelled: the `fields:` keyword, the "no fmt and no :fields" error, auto-generated member names, renames, `__offset`, `inspect`, `to_table` and the struct name. That code is not part of this model. The record types built from a field map are connected to `read` and `pack` directly (`IOStruct.HashReadPackRead`).
- Ruby's metaprogramming is not modelled: `Struct.new`, `const_set`, `class_eval` and subclass identity. A record type is a value.
- `read` takes the stream as bytes plus a position, and a source that is neither a stream nor a string as `Unreadable`. The `$stderr` warning becomes the `short` flag of the outcome. A String source is taken as binary bytes: lib/iostruct.rb:67 compares `data.size`, which for a UTF-8 string counts characters, so Ruby also warns when multi-byte characters make the character count fall short while the model's `short` stays false.
- Symbol and String type names are treated alike, because `get_type_size` calls `to_s`.
- Class descriptors are limited to iostruct struct types. The `size` of other classes is not modelled.
- IOStruct.AssignSpec: an unknown key is the `UnknownMember` error, where Ruby raises NoMethodError from the setter. The contract also assumes distinct member names, as Ruby's Struct enforces.

## Findings

| source | as written | input that shows it | evidently intended | confidence | as-written member | corrected member |
|---|---|---|---|---|---|---|
| lib/iostruct/pack_fmt.rb:46-48 | the pattern `([a-z])(\d*)` reads a count only right after the letter, so the `2` of `S>2` is skipped and the count is 1 | `S>2` gives SIZE 2 and one field, while `unpack` reads two shorts from four bytes | count the digits after a byte-order mark, as `unpack` does | not executed | PackFmt.ParsePackFormat, shown by RecordScenarios.MarkCountSkipped | IOStruct.FromPackFormat (through PackFmt.ParseItemLayout), shown by RecordScenarios.MarkCountLaidOut |
| lib/iostruct.rb:37-43 | SIZE sums max(count, 1) times the FIELD_SIZES width, so a zero count still adds one width | `C a0 C` gives SIZE 3, while spec/iostruct_spec.rb:255-257 expects 2 and `unpack` reads 2 bytes | a zero count adds no bytes, as `parse_pack_format` does (lib/iostruct/pack_fmt.rb:48-52) | not executed | IOStruct.OldSizeOf, shown by RecordScenarios.OldSizeOverstates | IOStruct.FromPackFormat, shown by RecordScenarios.ZeroLengthType |

=== FILE: bytes.dfy ===
/** Bytes, fixed-width unsigned encodings in both byte orders, and two's complement. */
module Bytes {

  type byte = b: int | 0 <= b < 256

  function Pow256(n: nat): (r: nat)
    ensures r >= 1
  {
    if n == 0 then 1 else 256 * Pow256(n - 1)
  }

  /** Unsigned value of `bs`, least significant byte first. */
  function LittleEndian(bs: seq<byte>): (r: nat)
    ensures r < Pow256(|bs|)
  {
    if |bs| == 0 then 0 else bs[0] + 256 * LittleEndian(bs[1..])
  }

  /** Unsigned value of `bs`, most significant byte first. */
  function BigEndian(bs: seq<byte>): (r: nat)
    ensures r < Pow256(|bs|)
  {
    if |bs| == 0 then 0 else 256 * BigEndian(bs[..|bs| - 1]) + bs[|bs| - 1]
  }

  /** The `w` bytes of `n`, least significant first. */
  function LittleEndianBytes(n: nat, w: nat): (r: seq<byte>)
    requires n < Pow256(w)
    ensures |r| == w
    ensures LittleEndian(r) == n
  {
    if w == 0 then []
    else
      var r := [n % 256] + LittleEndianBytes(n / 256, w - 1);
      assert r[1..] == LittleEndianBytes(n / 256, w - 1);
      r
  }

  /** The `w` bytes of `n`, most significant first. */
  function BigEndianBytes(n: nat, w: nat): (r: seq<byte>)
    requires n < Pow256(w)
    ensures |r| == w
    ensures BigEndian(r) == n
  {
    if w == 0 then []
    else
      var r := BigEndianBytes(n / 256, w - 1) + [n % 256];
      assert r[..|r| - 1] == BigEndianBytes(n / 256, w - 1);
      r
  }

  lemma {:induction false} LittleEndianBytesOfValue(bs: seq<byte>)
    ensures LittleEndianBytes(LittleEndian(bs), |bs|) == bs
  {
    if |bs| > 0 {
      var v, tail := LittleEndian(bs), LittleEndian(bs[1..]);
      assert v == bs[0] + 256 * tail;
      ModUnique(v, 256, tail, bs[0]);
      LittleEndianBytesOfValue(bs[1..]);
      assert LittleEndianBytes(v, |bs|) == [bs[0]] + LittleEndianBytes(tail, |bs| - 1);
      assert bs == [bs[0]] + bs[1..];
    }
  }

  lemma {:induction false} BigEndianBytesOfValue(bs: seq<byte>)
    ensures BigEndianBytes(BigEndian(bs), |bs|) == bs
  {
    if |bs| > 0 {
      var v, init := BigEndian(bs), BigEndian(bs[..|bs| - 1]);
      assert v == 256 * init + bs[|bs| - 1];
      ModUnique(v, 256, init, bs[|bs| - 1]);
      BigEndianBytesOfValue(bs[..|bs| - 1]);
      assert BigEndianBytes(v, |bs|) == BigEndianBytes(init, |bs| - 1) + [bs[|bs| - 1]];
      assert bs == bs[..|bs| - 1] + [bs[|bs| - 1]];
    }
  }

  /** Half the range of a `w`-byte integer: the least value whose sign bit is set. */
  function Half(w: nat): int
    requires w > 0
  {
    128 * Pow256(w - 1)
  }

  /** Two's complement reading of the unsigned `w`-byte value `u`. */
  function ToSigned(u: nat, w: nat): (r: int)
    requires w > 0 && u < Pow256(w)
    ensures -Half(w) <= r < Half(w)
    ensures r >= 0 <==> u < Half(w)
  {
    if u < Half(w) then u else u - Pow256(w)
  }

  /** Truncation of `i` to `w` bytes, as Ruby's pack does for every integer letter. */
  function Wrap(i: int, w: nat): (r: nat)
    ensures r < Pow256(w)
  {
    i % Pow256(w)
  }

  lemma ModUnique(x: int, m: int, q: int, r: int)
    requires m > 0 && x == m * q + r && 0 <= r < m
    ensures x % m == r && x / m == q
  {
    var q', r' := x / m, x % m;
    assert x == m * q' + r';
    if q' > q {
      assert m * q' >= m * (q + 1) by { MulMono(m, q + 1, q'); }
    } else if q' < q {
      assert m * q >= m * (q' + 1) by { MulMono(m, q' + 1, q); }
    }
  }

  lemma MulMono(m: int, a: int, b: int)
    requires m > 0 && a <= b
    ensures m * a <= m * b
  {
    assert m * b - m * a == m * (b - a);
  }

  /** Reading back a truncated two's complement value gives the unsigned bytes' value. */
  lemma WrapToSigned(u: nat, w: nat)
    requires w > 0 && u < Pow256(w)
    ensures Wrap(ToSigned(u, w), w) == u
  {
    if u >= Half(w) {
      ModUnique(u - Pow256(w), Pow256(w), -1, u);
    } else {
      ModUnique(u, Pow256(w), 0, u);
    }
  }

  /** Every value in the signed range survives truncation and two's complement reading. */
  lemma ToSignedWrap(i: int, w: nat)
    requires w > 0 && -Half(w) <= i < Half(w)
    ensures ToSigned(Wrap(i, w), w) == i
  {
    if i >= 0 {
      ModUnique(i, Pow256(w), 0, i);
    } else {
      ModUnique(i, Pow256(w), -1, i + Pow256(w));
    }
  }

  function Zeros(n: nat): (r: seq<byte>)
    ensures |r| == n
    ensures forall k :: 0 <= k < n ==> r[k] == 0
  {
    seq(n, _ => 0)
  }

  lemma {:induction false} LittleEndianZero(bs: seq<byte>)
    ensures LittleEndian(bs) == 0 <==> forall k :: 0 <= k < |bs| ==> bs[k] == 0
  {
    if |bs| > 0 {
      LittleEndianZero(bs[1..]);
      assert forall k :: 1 <= k < |bs| ==> bs[k] == bs[1..][k - 1];
    }
  }

  lemma {:induction false} BigEndianZero(bs: seq<byte>)
    ensures BigEndian(bs) == 0 <==> forall k :: 0 <= k < |bs| ==> bs[k] == 0
  {
    if |bs| > 0 {
      BigEndianZero(bs[..|bs| - 1]);
      assert forall k :: 0 <= k < |bs| - 1 ==> bs[k] == bs[..|bs| - 1][k];
    }
  }
}

=== FILE: codec.dfy ===
/**
 * The byte meaning of each pack letter: how Ruby's String#unpack turns bytes
 * into values and Array#pack turns values back into bytes, for the letters of
 * the FMTSPEC table. Native byte order is little-endian; floats are carried
 * as their raw bit pattern.
 */
module Codec {

  import opened Results
  import opened Errors
  import opened Bytes
  import opened FmtSpec
  import opened Tokenizer
  import opened PackFmt

  /**
   * A Ruby value a record member can hold. Strings are byte strings; a hex
   * string is the byte string of its ASCII digits.
   */
  datatype Value =
    | Nil
    | Int(i: int)
    | Float(width: nat, bits: nat)
    | Str(bytes: seq<byte>)

  /** What one directive read: its values and how many bytes it consumed. */
  datatype Unpacked = Unpacked(values: seq<Value>, used: nat)

  /** What one directive wrote: its bytes and how many values it consumed. */
  datatype Packed = Packed(bytes: seq<byte>, used: nat)

  // ---------------------------------------------------------------- scalars

  function ReadUnsigned(o: ByteOrder, bs: seq<byte>): (r: nat)
    ensures r < Pow256(|bs|)
  {
    if o == LittleOrder then LittleEndian(bs) else BigEndian(bs)
  }

  function WriteUnsigned(o: ByteOrder, n: nat, w: nat): (r: seq<byte>)
    requires n < Pow256(w)
    ensures |r| == w
    ensures ReadUnsigned(o, r) == n
  {
    if o == LittleOrder then LittleEndianBytes(n, w) else BigEndianBytes(n, w)
  }

  /** Writing back the value read from `bs` reproduces `bs`. */
  lemma WriteReadUnsigned(o: ByteOrder, bs: seq<byte>)
    ensures WriteUnsigned(o, ReadUnsigned(o, bs), |bs|) == bs
  {
    if o == LittleOrder {
      LittleEndianBytesOfValue(bs);
    } else {
      BigEndianBytesOfValue(bs);
    }
  }

  /** The value of one integer or float item occupying exactly `bs`. */
  function DecodeScalar(d: Directive, bs: seq<byte>): (v: Value)
    requires d.IsScalar() && |bs| == d.width > 0
    ensures d.UnsignedInt? ==> v.Int? && 0 <= v.i < Pow256(d.width)
    ensures d.SignedInt? ==> v.Int? && -Half(d.width) <= v.i < Half(d.width)
    ensures d.FloatBits? ==> v == Float(d.width, ReadUnsigned(d.order, bs))
  {
    var u := ReadUnsigned(d.order, bs);
    match d
    case UnsignedInt(_, _) => Int(u)
    case SignedInt(w, _) => Int(ToSigned(u, w))
    case FloatBits(w, _) => Float(w, u)
  }

  /**
   * The bytes of one integer or float item. Integers are truncated to the
   * directive's width; anything but an Integer for an integer letter, or a
   * float of another width for a float letter, is a type error.
   */
  function EncodeScalar(d: Directive, v: Value): (r: Result<seq<byte>, Error>)
    requires d.IsScalar() && d.width > 0
    ensures r.Ok? ==> |r.value| == d.width
    ensures r.Err? <==> (if d.FloatBits? then !(v.Float? && v.width == d.width) else !v.Int?)
    ensures r.Err? ==> r.error == TypeMismatch
  {
    match d
    case UnsignedInt(w, o) => if v.Int? then Ok(WriteUnsigned(o, Wrap(v.i, w), w)) else Err(TypeMismatch)
    case SignedInt(w, o) => if v.Int? then Ok(WriteUnsigned(o, Wrap(v.i, w), w)) else Err(TypeMismatch)
    case FloatBits(w, o) =>
      if v.Float? && v.width == w then Ok(WriteUnsigned(o, Wrap(v.bits, w), w)) else Err(TypeMismatch)
  }

  /** Encoding a decoded item gives back its bytes. */
  lemma EncodeDecodeScalar(d: Directive, bs: seq<byte>)
    requires d.IsScalar() && |bs| == d.width > 0
    ensures EncodeScalar(d, DecodeScalar(d, bs)) == Ok(bs)
  {
    var u := ReadUnsigned(d.order, bs);
    WriteReadUnsigned(d.order, bs);
    if d.SignedInt? {
      WrapToSigned(u, d.width);
    } else {
      ModUnique(u, Pow256(d.width), 0, u);
    }
  }

  /** Every integer in the letter's range survives encoding and decoding. */
  lemma DecodeEncodeInt(d: Directive, i: int)
    requires d.UnsignedInt? || d.SignedInt?
    requires d.width > 0
    requires if d.SignedInt? then -Half(d.width) <= i < Half(d.width) else 0 <= i < Pow256(d.width)
    ensures EncodeScalar(d, Int(i)).Ok?
    ensures DecodeScalar(d, EncodeScalar(d, Int(i)).value) == Int(i)
  {
    if d.SignedInt? {
      ToSignedWrap(i, d.width);
    } else {
      ModUnique(i, Pow256(d.width), 0, i);
    }
  }

  /**
   * `n` items of width `w`: each whole item left in `data` is decoded; once
   * too few bytes remain, every further item is nil and nothing more is consumed.
   */
  function UnpackScalars(d: Directive, n: nat, data: seq<byte>): (r: Unpacked)
    requires d.IsScalar() && d.width > 0
    ensures |r.values| == n && r.used <= |data|
    ensures |data| >= n * d.width ==> r.used == n * d.width
    decreases n
  {
    if n == 0 then Unpacked([], 0)
    else if |data| < d.width then Unpacked(seq(n, _ => Nil), 0)
    else
      var rest := UnpackScalars(d, n - 1, data[d.width..]);
      assert (n - 1) * d.width + d.width == n * d.width;
      Unpacked([DecodeScalar(d, data[..d.width])] + rest.values, d.width + rest.used)
  }

  /** `n` items taken from the front of `vals`, in order. */
  function PackScalars(d: Directive, n: nat, vals: seq<Value>): (r: Result<seq<byte>, Error>)
    requires d.IsScalar() && d.width > 0
    ensures r.Ok? ==> |vals| >= n && |r.value| == n * d.width
    ensures r.Err? ==> r.error == TooFewArguments || r.error == TypeMismatch
    decreases n
  {
    if n == 0 then Ok([])
    else if |vals| == 0 then Err(TooFewArguments)
    else
      var head :- EncodeScalar(d, vals[0]);
      var tail :- PackScalars(d, n - 1, vals[1..]);
      Ok(head + tail)
  }

  // ---------------------------------------------------------------- strings

  /** `bs` without its trailing bytes from `drop`. */
  function TrimEnd(bs: seq<byte>, drop: set<byte>): (r: seq<byte>)
    ensures r <= bs
    ensures |r| > 0 ==> r[|r| - 1] !in drop
    ensures forall k | |r| <= k < |bs| :: bs[k] in drop
  {
    if |bs| > 0 && bs[|bs| - 1] in drop then TrimEnd(bs[..|bs| - 1], drop) else bs
  }

  /** `bs` cut or padded with `pad` to exactly `n` bytes. */
  function Fit(bs: seq<byte>, n: nat, pad: byte): (r: seq<byte>)
    ensures |r| == n
    ensures |bs| >= n ==> r == bs[..n]
    ensures |bs| < n ==> r[..|bs|] == bs && forall k | |bs| <= k < n :: r[k] == pad
  {
    if |bs| >= n then bs[..n] else bs + seq(n - |bs|, _ => pad)
  }

  const NUL: byte := 0
  const SPACE: byte := 32

  /** The bytes `A` strips on unpack, or `Z` strips; `a` strips none. */
  function Stripped(d: Directive): set<byte>
    requires d.IsText()
  {
    if d.SpacePadded? then {NUL, SPACE} else if d.NulPadded? then {NUL} else {}
  }

  /** The byte `A` pads with on pack, or `a` and `Z` pad with. */
  function Padding(d: Directive): (b: byte)
    requires d.IsText()
    ensures d.RawString? || b in Stripped(d)
  {
    if d.SpacePadded? then SPACE else NUL
  }

  /** Trimming again after trimming, padding with a trimmed byte, and cutting to at least the trimmed length changes nothing. */
  lemma {:induction false} TrimPadded(bs: seq<byte>, n: nat, drop: set<byte>, pad: byte)
    requires pad in drop && |TrimEnd(bs, drop)| <= n
    ensures TrimEnd(Fit(TrimEnd(bs, drop), n, pad), drop) == TrimEnd(bs, drop)
  {
    var t := TrimEnd(bs, drop);
    var f := Fit(t, n, pad);
    TrimSuffix(t, f[|t|..], drop);
    assert t + f[|t|..] == f;
  }

  /** Appending bytes from `drop` to a trimmed string trims back to it. */
  lemma {:induction false} TrimSuffix(t: seq<byte>, tail: seq<byte>, drop: set<byte>)
    requires |t| > 0 ==> t[|t| - 1] !in drop
    requires forall k | 0 <= k < |tail| :: tail[k] in drop
    ensures TrimEnd(t + tail, drop) == t
  {
    if |tail| > 0 {
      var s := t + tail;
      assert s[|s| - 1] == tail[|tail| - 1];
      assert s[..|s| - 1] == t + tail[..|tail| - 1];
      TrimSuffix(t, tail[..|tail| - 1], drop);
    } else {
      assert t + tail == t;
    }
  }

  // ---------------------------------------------------------------- hex

  /** The lower-case ASCII digit for nibble `k`, as unpack writes it. */
  function HexDigit(k: nat): (c: byte)
    requires k < 16
  {
    if k < 10 then 48 + k else 87 + k
  }

  predicate IsAsciiLetter(c: byte) {
    65 <= c <= 90 || 97 <= c <= 122
  }

  /** The nibble pack takes from one character: letters count from 10 at `a`/`A`, anything else by its low four bits. */
  function Nibble(c: byte): (k: nat)
    ensures k < 16
  {
    if IsAsciiLetter(c) then (c % 16 + 9) % 16 else c % 16
  }

  lemma NibbleOfDigit(k: nat)
    requires k < 16
    ensures Nibble(HexDigit(k)) == k
  {
  }

  /** The nibble of `b` that hex character `i` shows: with `high`, even characters show the high nibble. */
  function NibbleOf(high: bool, b: byte, i: nat): nat {
    if (i % 2 == 0) == high then b / 16 else b % 16
  }

  /** `len` hex characters read from `bs`, two per byte. */
  function UnpackHex(high: bool, bs: seq<byte>, len: nat): (r: seq<byte>)
    requires len <= 2 * |bs|
    ensures |r| == len
  {
    seq(len, i requires 0 <= i < len => HexDigit(NibbleOf(high, bs[i / 2], i)))
  }

  /** The nibble of character `i` of `s`, or 0 past the first `len` characters. */
  function NibbleAt(s: seq<byte>, i: nat, len: nat): nat
    requires len <= |s|
  {
    if i < len then Nibble(s[i]) else 0
  }

  /**
   * `n` hex characters written from `s` as (n + 1) / 2 bytes; a short string
   * is padded with zero nibbles.
   */
  function PackHex(high: bool, s: seq<byte>, n: nat): (r: seq<byte>)
    ensures |r| == (n + 1) / 2
  {
    var len := if n < |s| then n else |s|;
    seq((n + 1) / 2, j requires 0 <= j =>
      var first, second := NibbleAt(s, 2 * j, len), NibbleAt(s, 2 * j + 1, len);
      if high then 16 * first + second else first + 16 * second)
  }

  lemma NibblesOfByte(b: byte)
    ensures 16 * (b / 16) + b % 16 == b && b / 16 < 16
  {
  }

  /** Writing back every digit read from `bs` reproduces `bs`. */
  lemma PackUnpackHex(high: bool, bs: seq<byte>)
    ensures PackHex(high, UnpackHex(high, bs, 2 * |bs|), 2 * |bs|) == bs
  {
    var n := 2 * |bs|;
    var s := UnpackHex(high, bs, n);
    var r := PackHex(high, s, n);
    assert |r| == |bs|;
    forall j | 0 <= j < |bs|
      ensures r[j] == bs[j]
    {
      var b := bs[j];
      NibblesOfByte(b);
      assert (2 * j) / 2 == j && (2 * j + 1) / 2 == j;
      assert (2 * j) % 2 == 0 && (2 * j + 1) % 2 == 1;
      NibbleOfDigit(b / 16);
      NibbleOfDigit(b % 16);
    }
  }

  /** The two nibbles packed into one byte read back as they went in. */
  lemma HexByteNibbles(high: bool, first: nat, second: nat)
    requires first < 16 && second < 16
    ensures var p := if high then 16 * first + second else first + 16 * second;
            && (if high then p / 16 else p % 16) == first
            && (if high then p % 16 else p / 16) == second
  {
  }

  /** Reading `len` digits back from what they were packed to gives the same digits, an odd count included. */
  lemma UnpackPackHex(high: bool, bs: seq<byte>, len: nat)
    requires len <= 2 * |bs| && |bs| == (len + 1) / 2
    ensures UnpackHex(high, PackHex(high, UnpackHex(high, bs, len), len), len) == UnpackHex(high, bs, len)
  {
    var s := UnpackHex(high, bs, len);
    var p := PackHex(high, s, len);
    forall i | 0 <= i < len
      ensures NibbleOf(high, p[i / 2], i) == NibbleOf(high, bs[i / 2], i)
    {
      UnpackPackHexAt(high, bs, len, i / 2);
      assert i == 2 * (i / 2) || i == 2 * (i / 2) + 1;
    }
  }

  /** The byte packed for digits 2j and 2j+1 repacks both of them. */
  lemma UnpackPackHexAt(high: bool, bs: seq<byte>, len: nat, j: nat)
    requires len <= 2 * |bs| && |bs| == (len + 1) / 2 && 2 * j < len
    ensures var p := PackHex(high, UnpackHex(high, bs, len), len);
            && NibbleOf(high, p[j], 2 * j) == NibbleOf(high, bs[j], 2 * j)
            && (2 * j + 1 < len ==> NibbleOf(high, p[j], 2 * j + 1) == NibbleOf(high, bs[j], 2 * j + 1))
  {
    var s := UnpackHex(high, bs, len);
    var b := bs[j];
    NibblesOfByte(b);
    assert (2 * j) / 2 == j && (2 * j) % 2 == 0;
    assert (2 * j + 1) / 2 == j && (2 * j + 1) % 2 == 1;
    NibbleOfDigit(NibbleOf(high, b, 2 * j));
    if 2 * j + 1 < len {
      NibbleOfDigit(NibbleOf(high, b, 2 * j + 1));
    }
    HexByteNibbles(high, NibbleAt(s, 2 * j, len), NibbleAt(s, 2 * j + 1, len));
  }

  // ---------------------------------------------------------------- one directive

  /** Bytes a directive with count `n` reads when the data is long enough, and writes. */
  function Need(d: Directive, n: nat): nat {
    if d.IsScalar() then n * d.width
    else if d.IsHex() then (n + 1) / 2
    else n
  }

  /** Values a directive with count `n` yields on unpack and takes on pack. */
  function Arity(d: Directive, n: nat): nat {
    if d.IsScalar() then n else if d.Skip? then 0 else 1
  }

  function Min(a: nat, b: nat): nat {
    if a < b then a else b
  }

  /**
   * String#unpack for one directive at the front of `data`. A string letter
   * takes at most what is left; hex reads at most two digits per byte left;
   * skipping past the end is an error.
   */
  function UnpackOne(d: Directive, n: nat, data: seq<byte>): (r: Result<Unpacked, Error>)
    requires d.IsScalar() ==> d.width > 0
    ensures r.Err? <==> d.Skip? && |data| < n
    ensures r.Err? ==> r.error == SkipOutsideString
    ensures r.Ok? ==> |r.value.values| == Arity(d, n) && r.value.used <= |data|
    ensures |data| >= Need(d, n) ==> r.Ok? && r.value.used == Need(d, n)
  {
    if d.IsScalar() then Ok(UnpackScalars(d, n, data))
    else if d.IsText() then
      var len := Min(n, |data|);
      Ok(Unpacked([Str(TrimEnd(data[..len], Stripped(d)))], len))
    else if d.IsHex() then
      var len := Min(n, 2 * |data|);
      var k := (len + 1) / 2;
      Ok(Unpacked([Str(UnpackHex(d.HexHigh?, data[..k], len))], k))
    else if |data| < n then Err(SkipOutsideString)
    else Ok(Unpacked([], n))
  }

  /**
   * Array#pack for one directive, taking values from the front of `vals`.
   * A string letter writes exactly `n` bytes, cut or padded; hex writes
   * (n + 1) / 2 bytes; a skip writes NULs and takes no value. A string or
   * hex letter packs nil as the empty string; an integer or float letter
   * rejects it.
   */
  function PackOne(d: Directive, n: nat, vals: seq<Value>): (r: Result<Packed, Error>)
    requires d.IsScalar() ==> d.width > 0
    ensures r.Ok? ==> |r.value.bytes| == Need(d, n) && r.value.used == Arity(d, n) <= |vals|
    ensures |vals| < Arity(d, n) ==> r.Err?
    ensures r.Err? ==> r.error == TooFewArguments || r.error == TypeMismatch
    ensures |vals| > 0 && vals[0].Nil? && d.IsText() ==>
              r.Ok? && forall k | 0 <= k < |r.value.bytes| :: r.value.bytes[k] == Padding(d)
    ensures |vals| > 0 && vals[0].Nil? && d.IsHex() ==>
              r.Ok? && forall k | 0 <= k < |r.value.bytes| :: r.value.bytes[k] == 0
    ensures |vals| > 0 && vals[0].Nil? && d.IsScalar() && n > 0 ==> r == Err(TypeMismatch)
  {
    if d.IsScalar() then
      var bytes :- PackScalars(d, n, vals);
      Ok(Packed(bytes, n))
    else if d.Skip? then Ok(Packed(Zeros(n), 0))
    else if |vals| == 0 then Err(TooFewArguments)
    else if !(vals[0].Str? || vals[0].Nil?) then Err(TypeMismatch)
    else
      var s := if vals[0].Str? then vals[0].bytes else [];
      if d.IsText() then Ok(Packed(Fit(s, n, Padding(d)), 1))
      else Ok(Packed(PackHex(d.HexHigh?, s, n), 1))
  }

  /** Unpacking scalars reads nothing past the first `m` bytes when they hold all `n` items. */
  lemma {:induction false} UnpackScalarsPrefix(d: Directive, n: nat, data: seq<byte>, m: nat)
    requires d.IsScalar() && d.width > 0
    requires n * d.width <= m <= |data|
    ensures UnpackScalars(d, n, data) == UnpackScalars(d, n, data[..m])
  {
    if n > 0 {
      var w := d.width;
      assert (n - 1) * w + w == n * w;
      assert data[..m][..w] == data[..w];
      assert data[..m][w..] == data[w..][..m - w];
      UnpackScalarsPrefix(d, n - 1, data[w..], m - w);
    }
  }

  lemma UnpackScalarsCons(d: Directive, n: nat, data: seq<byte>, more: seq<Value>)
    requires d.IsScalar() && d.width > 0
    requires n > 0 && |data| >= d.width
    ensures var vals := UnpackScalars(d, n, data).values + more;
            vals[0] == DecodeScalar(d, data[..d.width]) && vals[1..] == UnpackScalars(d, n - 1, data[d.width..]).values + more
  {
  }

  lemma PackScalarsCons(d: Directive, n: nat, vals: seq<Value>, head: seq<byte>, tail: seq<byte>)
    requires d.IsScalar() && d.width > 0
    requires n > 0 && |vals| > 0
    requires EncodeScalar(d, vals[0]) == Ok(head) && PackScalars(d, n - 1, vals[1..]) == Ok(tail)
    ensures PackScalars(d, n, vals) == Ok(head + tail)
  {
  }

  lemma SplitPrefix<T>(s: seq<T>, k: nat, m: nat)
    requires k <= m <= |s|
    ensures s[..k] + s[k..][..m - k] == s[..m]
  {
  }

  /** Scalars decoded from enough bytes pack back to exactly those bytes, whatever values follow. */
  lemma {:induction false} PackUnpackScalars(d: Directive, n: nat, data: seq<byte>, more: seq<Value>)
    requires d.IsScalar() && d.width > 0
    requires |data| >= n * d.width
    ensures PackScalars(d, n, UnpackScalars(d, n, data).values + more) == Ok(data[..n * d.width])
  {
    var w := d.width;
    if n > 0 {
      assert (n - 1) * w + w == n * w;
      UnpackScalarsCons(d, n, data, more);
      EncodeDecodeScalar(d, data[..w]);
      PackUnpackScalars(d, n - 1, data[w..], more);
      PackScalarsCons(d, n, UnpackScalars(d, n, data).values + more, data[..w], data[w..][..(n - 1) * w]);
      SplitPrefix(data, w, n * w);
    }
  }

  /** Directives whose pack reproduces the very bytes unpack read: no stripping, no skipped bytes, whole hex bytes. */
  predicate Lossless(d: Directive, n: nat) {
    d.IsScalar() || d.RawString? || (d.IsHex() && n % 2 == 0)
  }

  /** A directive reads nothing past its own bytes. */
  lemma UnpackOnePrefix(d: Directive, n: nat, data: seq<byte>)
    requires d.IsScalar() ==> d.width > 0
    requires |data| >= Need(d, n)
    ensures UnpackOne(d, n, data) == UnpackOne(d, n, data[..Need(d, n)])
  {
    if d.IsScalar() {
      UnpackScalarsPrefix(d, n, data, Need(d, n));
    } else if d.IsText() {
      assert data[..Need(d, n)][..n] == data[..n];
    } else if d.IsHex() {
      assert data[..Need(d, n)][..Need(d, n)] == data[..Need(d, n)];
    }
  }

  lemma UnpackOneText(d: Directive, n: nat, data: seq<byte>)
    requires d.IsText() && |data| >= n
    ensures UnpackOne(d, n, data) == Ok(Unpacked([Str(TrimEnd(data[..n], Stripped(d)))], n))
  {
  }

  lemma UnpackOneHex(d: Directive, n: nat, data: seq<byte>)
    requires d.IsHex() && |data| >= (n + 1) / 2
    ensures UnpackOne(d, n, data) == Ok(Unpacked([Str(UnpackHex(d.HexHigh?, data[..(n + 1) / 2], n))], (n + 1) / 2))
  {
  }

  lemma PackOneStr(d: Directive, n: nat, s: seq<byte>, more: seq<Value>)
    requires d.IsText() || d.IsHex()
    ensures PackOne(d, n, [Str(s)] + more) ==
              Ok(Packed(if d.IsText() then Fit(s, n, Padding(d)) else PackHex(d.HexHigh?, s, n), 1))
  {
    assert ([Str(s)] + more)[0] == Str(s);
  }

  lemma UnpackPackText(d: Directive, n: nat, data: seq<byte>, more: seq<Value>)
    requires d.IsText() && |data| >= n
    ensures var u := UnpackOne(d, n, data).value;
            var p := PackOne(d, n, u.values + more);
            && p.Ok? && p.value.used == 1
            && UnpackOne(d, n, p.value.bytes) == Ok(u)
            && (d.RawString? ==> p.value.bytes == data[..n])
  {
    var t := TrimEnd(data[..n], Stripped(d));
    var f := Fit(t, n, Padding(d));
    UnpackOneText(d, n, data);
    PackOneStr(d, n, t, more);
    UnpackOneText(d, n, f);
    assert f[..n] == f;
    if d.RawString? {
      assert Stripped(d) == {};
      assert t == data[..n] && f == t;
    } else {
      TrimPadded(data[..n], n, Stripped(d), Padding(d));
    }
  }

  lemma UnpackPackHexOne(d: Directive, n: nat, data: seq<byte>, more: seq<Value>)
    requires d.IsHex() && |data| >= (n + 1) / 2
    ensures var u := UnpackOne(d, n, data).value;
            var p := PackOne(d, n, u.values + more);
            && p.Ok? && p.value.used == 1
            && UnpackOne(d, n, p.value.bytes) == Ok(u)
  {
    var k := (n + 1) / 2;
    var bs := data[..k];
    var digits := UnpackHex(d.HexHigh?, bs, n);
    var pb := PackHex(d.HexHigh?, digits, n);
    UnpackOneHex(d, n, data);
    PackOneStr(d, n, digits, more);
    UnpackOneHex(d, n, pb);
    assert pb[..k] == pb;
    UnpackPackHex(d.HexHigh?, bs, n);
  }

  lemma PackUnpackHexEven(d: Directive, n: nat, data: seq<byte>, more: seq<Value>)
    requires d.IsHex() && n % 2 == 0 && |data| >= n / 2
    ensures PackOne(d, n, UnpackOne(d, n, data).value.values + more) == Ok(Packed(data[..n / 2], 1))
  {
    var k := n / 2;
    assert (n + 1) / 2 == k;
    var bs := data[..k];
    UnpackOneHex(d, n, data);
    PackOneStr(d, n, UnpackHex(d.HexHigh?, bs, n), more);
    assert 2 * |bs| == n;
    PackUnpackHex(d.HexHigh?, bs);
  }

  lemma UnpackPackScalarsOne(d: Directive, n: nat, data: seq<byte>, more: seq<Value>)
    requires d.IsScalar() && d.width > 0 && |data| >= n * d.width
    ensures var u := UnpackOne(d, n, data).value;
            var p := PackOne(d, n, u.values + more);
            && p.Ok? && p.value.used == n
            && p.value.bytes == data[..n * d.width]
            && UnpackOne(d, n, p.value.bytes) == Ok(u)
  {
    PackUnpackScalars(d, n, data, more);
    UnpackOnePrefix(d, n, data);
  }

  /**
   * The per-directive round trip: the values unpacked from enough bytes pack
   * to bytes that unpack to the same values, consuming as much; for lossless
   * directives the bytes are the very ones read.
   */
  lemma UnpackPackOne(d: Directive, n: nat, data: seq<byte>, more: seq<Value>)
    requires d.IsScalar() ==> d.width > 0
    requires |data| >= Need(d, n)
    ensures var u := UnpackOne(d, n, data).value;
            var p := PackOne(d, n, u.values + more);
            && p.Ok? && p.value.used == |u.values|
            && UnpackOne(d, n, p.value.bytes) == Ok(u)
            && (Lossless(d, n) ==> p.value.bytes == data[..Need(d, n)])
  {
    if d.IsScalar() {
      UnpackPackScalarsOne(d, n, data, more);
    } else if d.IsText() {
      UnpackPackText(d, n, data, more);
    } else if d.IsHex() {
      UnpackPackHexOne(d, n, data, more);
      if n % 2 == 0 {
        PackUnpackHexEven(d, n, data, more);
      }
    } else {
      assert Zeros(n)[..n] == Zeros(n);
    }
  }

  // ---------------------------------------------------------------- whole formats

  /** The directive a known token stands for. */
  function TokenDirective(t: Token): (d: Directive)
    requires Known(t)
    ensures d.IsScalar() ==> d.width > 0
  {
    DirectiveOf(t.letter, Order(t)).value
  }

  /** String#unpack: every directive in turn, each reading where the previous one stopped. */
  function UnpackAll(toks: seq<Token>, data: seq<byte>): Result<seq<Value>, Error>
    decreases |toks|
  {
    if |toks| == 0 then Ok([])
    else if !Known(toks[0]) then Err(UnknownDirective(toks[0].letter))
    else
      var one :- UnpackOne(TokenDirective(toks[0]), ItemCount(toks[0]), data);
      var rest :- UnpackAll(toks[1..], data[one.used..]);
      Ok(one.values + rest)
  }

  /** Array#pack: every directive in turn, each taking values where the previous one stopped. */
  function PackAll(toks: seq<Token>, vals: seq<Value>): Result<seq<byte>, Error>
    decreases |toks|
  {
    if |toks| == 0 then Ok([])
    else if !Known(toks[0]) then Err(UnknownDirective(toks[0].letter))
    else
      var one :- PackOne(TokenDirective(toks[0]), ItemCount(toks[0]), vals);
      var rest :- PackAll(toks[1..], vals[one.used..]);
      Ok(one.bytes + rest)
  }

  /** Bytes a whole format reads from long enough data, and writes. */
  function NeedAll(toks: seq<Token>): nat
    requires AllKnown(toks)
  {
    if |toks| == 0 then 0
    else
      AllKnownCons(toks);
      Need(TokenDirective(toks[0]), ItemCount(toks[0])) + NeedAll(toks[1..])
  }

  /** Values a whole format yields and takes. */
  function ArityAll(toks: seq<Token>): nat
    requires AllKnown(toks)
  {
    if |toks| == 0 then 0
    else
      AllKnownCons(toks);
      Arity(TokenDirective(toks[0]), ItemCount(toks[0])) + ArityAll(toks[1..])
  }

  predicate AllLossless(toks: seq<Token>)
    requires AllKnown(toks)
  {
    forall i | 0 <= i < |toks| :: Lossless(TokenDirective(toks[i]), ItemCount(toks[i]))
  }

  lemma NeedAllCons(toks: seq<Token>)
    requires AllKnown(toks) && |toks| > 0
    ensures Known(toks[0]) && AllKnown(toks[1..])
    ensures NeedAll(toks) == Need(TokenDirective(toks[0]), ItemCount(toks[0])) + NeedAll(toks[1..])
  {
    AllKnownCons(toks);
  }

  lemma UnpackAllCons(toks: seq<Token>, data: seq<byte>, one: Unpacked, rest: seq<Value>)
    requires |toks| > 0 && Known(toks[0])
    requires UnpackOne(TokenDirective(toks[0]), ItemCount(toks[0]), data) == Ok(one)
    requires one.used <= |data| && UnpackAll(toks[1..], data[one.used..]) == Ok(rest)
    ensures UnpackAll(toks, data) == Ok(one.values + rest)
  {
  }

  lemma PackAllCons(toks: seq<Token>, vals: seq<Value>, one: Packed, rest: seq<byte>)
    requires |toks| > 0 && Known(toks[0])
    requires PackOne(TokenDirective(toks[0]), ItemCount(toks[0]), vals) == Ok(one)
    requires one.used <= |vals| && PackAll(toks[1..], vals[one.used..]) == Ok(rest)
    ensures PackAll(toks, vals) == Ok(one.bytes + rest)
  {
  }

  /**
   * The format round trip: values unpacked from enough bytes, followed by any
   * further values, pack to NeedAll bytes that unpack to the same values.
   */
  lemma {:induction false} UnpackPackAll(toks: seq<Token>, data: seq<byte>, more: seq<Value>)
    requires AllKnown(toks) && |data| >= NeedAll(toks)
    ensures var u := UnpackAll(toks, data);
            && u.Ok?
            && var p := PackAll(toks, u.value + more);
            && p.Ok? && |p.value| == NeedAll(toks)
            && UnpackAll(toks, p.value) == u
  {
    if |toks| > 0 {
      AllKnownCons(toks);
      var t := toks[0];
      var d, n := TokenDirective(t), ItemCount(t);
      var need := Need(d, n);
      var one := UnpackOne(d, n, data).value;
      UnpackPackAll(toks[1..], data[need..], more);
      var rest := UnpackAll(toks[1..], data[need..]).value;
      UnpackAllCons(toks, data, one, rest);
      UnpackPackOne(d, n, data, rest + more);
      var p1 := PackOne(d, n, one.values + (rest + more)).value;
      var p2 := PackAll(toks[1..], rest + more).value;
      ConcatAssoc(one.values, rest, more);
      assert (one.values + (rest + more))[|one.values|..] == rest + more;
      PackAllCons(toks, one.values + (rest + more), p1, p2);
      var b := p1.bytes + p2;
      UnpackOnePrefix(d, n, b);
      assert b[..need] == p1.bytes && b[need..] == p2;
      UnpackAllCons(toks, b, one, rest);
    }
  }

  lemma AllLosslessCons(toks: seq<Token>)
    requires |toks| > 0 && AllKnown(toks)
    ensures AllKnown(toks[1..])
    ensures AllLossless(toks) <==> Lossless(TokenDirective(toks[0]), ItemCount(toks[0])) && AllLossless(toks[1..])
  {
    AllKnownCons(toks);
    assert forall j | 1 <= j < |toks| :: toks[j] == toks[1..][j - 1];
  }

  /** For lossless formats, packing what was unpacked gives back exactly the bytes read. */
  lemma {:induction false} PackUnpackAllExact(toks: seq<Token>, data: seq<byte>, more: seq<Value>)
    requires AllKnown(toks) && AllLossless(toks) && |data| >= NeedAll(toks)
    ensures UnpackAll(toks, data).Ok?
    ensures PackAll(toks, UnpackAll(toks, data).value + more) == Ok(data[..NeedAll(toks)])
  {
    UnpackPackAll(toks, data, more);
    if |toks| > 0 {
      AllLosslessCons(toks);
      var t := toks[0];
      var d, n := TokenDirective(t), ItemCount(t);
      var need := Need(d, n);
      var one := UnpackOne(d, n, data).value;
      PackUnpackAllExact(toks[1..], data[need..], more);
      var rest := UnpackAll(toks[1..], data[need..]).value;
      UnpackAllCons(toks, data, one, rest);
      UnpackPackOne(d, n, data, rest + more);
      var p1 := PackOne(d, n, one.values + (rest + more)).value;
      ConcatAssoc(one.values, rest, more);
      assert (one.values + (rest + more))[|one.values|..] == rest + more;
      PackAllCons(toks, one.values + (rest + more), p1, data[need..][..NeedAll(toks[1..])]);
      SplitPrefix(data, need, NeedAll(toks));
    }
  }

  /**
   * Short input is not an error: without skips, every known format unpacks
   * any data, one value per integer or float item and one per string.
   */
  lemma {:induction false} UnpackAllTotal(toks: seq<Token>, data: seq<byte>)
    requires AllKnown(toks)
    requires forall i | 0 <= i < |toks| :: toks[i].letter != 'x'
    ensures UnpackAll(toks, data).Ok?
    ensures |UnpackAll(toks, data).value| == ArityAll(toks)
  {
    if |toks| > 0 {
      AllKnownCons(toks);
      var d, n := TokenDirective(toks[0]), ItemCount(toks[0]);
      var one := UnpackOne(d, n, data).value;
      assert forall j | 1 <= j < |toks| :: toks[j] == toks[1..][j - 1];
      UnpackAllTotal(toks[1..], data[one.used..]);
      UnpackAllCons(toks, data, one, UnpackAll(toks[1..], data[one.used..]).value);
    }
  }

  /**
   * The bytes the codec reads equal the total advance of the normalized
   * tokens once every hex count is even: the layout agrees with unpack when
   * it counts the digits after a byte-order mark.
   */
  lemma {:induction false} NeedAllIsTotalAdvance(toks: seq<Token>)
    requires AllKnown(toks)
    requires forall i | 0 <= i < |toks| :: IsHexLetter(toks[i].letter) ==> ItemCount(toks[i]) % 2 == 0
    ensures AllKnown(Normalize(toks)) && NeedAll(toks) == TotalAdvance(Normalize(toks))
  {
    NormalizeKnown(toks);
    if |toks| > 0 {
      AllKnownCons(toks);
      NormalizeCons(toks);
      assert forall j | 1 <= j < |toks| :: toks[j] == toks[1..][j - 1];
      NeedAllIsTotalAdvance(toks[1..]);
      NeedIsAdvance(toks[0]);
    }
  }

  lemma NeedIsAdvance(t: Token)
    requires Known(t)
    requires IsHexLetter(t.letter) ==> ItemCount(t) % 2 == 0
    ensures Known(Normalized(t)) && Need(TokenDirective(t), ItemCount(t)) == Advance(Normalized(t))
  {
  }
}

=== FILE: errors.dfy ===
/** The exceptions the library raises, one constructor per raise site. */
module Errors {

  import opened Results

  datatype Error =
      /** A pack letter with no table entry (lib/iostruct/pack_fmt.rb:47). */
    | UnknownFieldType(letter: char)
      /** A letter missing from the older FIELD_SIZES table (lib/iostruct.rb:41). */
    | UnknownFmt(letter: char)
      /** An explicit field-map offset below the cursor (lib/iostruct/hash_fmt.rb:61). */
    | OverlapsPreviousField(structName: Option<string>, field: string)
      /** A field-map descriptor that is not a String, Symbol or Class (lib/iostruct/hash_fmt.rb:78). */
    | UnexpectedFieldDescType(field: string, descClass: string)
      /** A field-map type alias with no catalogue entry (lib/iostruct/hash_fmt.rb:83). */
    | UnknownAlias(field: string, typeName: string)
      /** A forced struct size smaller than the laid-out extent (lib/iostruct/hash_fmt.rb:107). */
    | SizeExceedsForced(actual: nat, forced: nat)
      /** `read` given something that is neither a reader nor a string (lib/iostruct.rb:65). */
    | UnsupportedSource
      /** Ruby's unpack: an `x` directive that runs past the end of the data. */
    | SkipOutsideString
      /** Ruby's pack/unpack: a directive letter it does not know. */
    | UnknownDirective(letter: char)
      /** Ruby's pack: fewer values than the format consumes. */
    | TooFewArguments
      /** Ruby's pack: a value of the wrong class for its directive (nil for an integer, ...). */
    | TypeMismatch
      /** Ruby's Struct: more positional values than members. */
    | StructSizeDiffers
      /** Keyword construction naming a member the struct does not have. */
    | UnknownMember(name: string)
}

=== FILE: fmt_spec.dfy ===
/**
 * The pack-letter table: the byte width and value class of every letter
 * (FMTSPEC), and the byte meaning each letter has for Ruby's pack/unpack.
 */
module FmtSpec {

  import opened Results

  /** The Ruby class a letter's values belong to; the skip letter `x` has none. */
  datatype ValueClass = IntegerClass | StringClass | FloatClass

  datatype Spec = Spec(width: nat, klass: Option<ValueClass>)

  /** FMTSPEC: width in bytes and value class of each known letter. */
  function Lookup(c: char): Option<Spec> {
    match c
    case 'C' => Some(Spec(1, Some(IntegerClass)))
    case 'S' => Some(Spec(2, Some(IntegerClass)))
    case 'I' => Some(Spec(4, Some(IntegerClass)))
    case 'L' => Some(Spec(4, Some(IntegerClass)))
    case 'Q' => Some(Spec(8, Some(IntegerClass)))
    case 'c' => Some(Spec(1, Some(IntegerClass)))
    case 's' => Some(Spec(2, Some(IntegerClass)))
    case 'i' => Some(Spec(4, Some(IntegerClass)))
    case 'l' => Some(Spec(4, Some(IntegerClass)))
    case 'q' => Some(Spec(8, Some(IntegerClass)))
    case 'n' => Some(Spec(2, Some(IntegerClass)))
    case 'N' => Some(Spec(4, Some(IntegerClass)))
    case 'v' => Some(Spec(2, Some(IntegerClass)))
    case 'V' => Some(Spec(4, Some(IntegerClass)))
    case 'A' => Some(Spec(1, Some(StringClass)))
    case 'a' => Some(Spec(1, Some(StringClass)))
    case 'Z' => Some(Spec(1, Some(StringClass)))
    case 'H' => Some(Spec(1, Some(StringClass)))
    case 'h' => Some(Spec(1, Some(StringClass)))
    case 'D' => Some(Spec(8, Some(FloatClass)))
    case 'd' => Some(Spec(8, Some(FloatClass)))
    case 'F' => Some(Spec(4, Some(FloatClass)))
    case 'f' => Some(Spec(4, Some(FloatClass)))
    case 'E' => Some(Spec(8, Some(FloatClass)))
    case 'e' => Some(Spec(4, Some(FloatClass)))
    case 'G' => Some(Spec(8, Some(FloatClass)))
    case 'g' => Some(Spec(4, Some(FloatClass)))
    case 'x' => Some(Spec(1, None))
    case _ => None
  }

  datatype ByteOrder = LittleOrder | BigOrder

  /** The platform's native order, fixed to little-endian. */
  const Native: ByteOrder := LittleOrder

  /** What a letter means to the codec. */
  datatype Directive =
    | UnsignedInt(width: nat, order: ByteOrder)
    | SignedInt(width: nat, order: ByteOrder)
    | FloatBits(width: nat, order: ByteOrder)
    | RawString      // a: bytes as they are
    | SpacePadded    // A: trailing NULs and spaces removed
    | NulPadded      // Z: trailing NULs removed
    | HexHigh        // H: hex digits, high nibble first
    | HexLow         // h: hex digits, low nibble first
    | Skip           // x: bytes passed over
  {
    predicate IsScalar() {
      UnsignedInt? || SignedInt? || FloatBits?
    }

    predicate IsHex() {
      HexHigh? || HexLow?
    }

    predicate IsText() {
      RawString? || SpacePadded? || NulPadded?
    }
  }

  /**
   * The directive a letter stands for, as Ruby's pack documents it;
   * `modifier` is the byte order of a `<` or `>` written after the letter,
   * which only the native-order letters `sSiIlLqQ` honour.
   */
  function DirectiveOf(c: char, modifier: Option<ByteOrder>): (r: Option<Directive>)
    ensures r.Some? <==> Lookup(c).Some?
    ensures r.Some? && r.value.IsScalar() ==> r.value.width == Lookup(c).value.width > 0
    ensures r.Some? ==> (r.value.UnsignedInt? || r.value.SignedInt? <==> Lookup(c).value.klass == Some(IntegerClass))
    ensures r.Some? ==> (r.value.FloatBits? <==> Lookup(c).value.klass == Some(FloatClass))
    ensures r.Some? ==> (r.value.IsText() || r.value.IsHex() <==> Lookup(c).value.klass == Some(StringClass))
    ensures r.Some? ==> (r.value.Skip? <==> Lookup(c).value.klass.None?)
  {
    var native := modifier.GetOr(Native);
    match c
    case 'C' => Some(UnsignedInt(1, Native))
    case 'S' => Some(UnsignedInt(2, native))
    case 'I' => Some(UnsignedInt(4, native))
    case 'L' => Some(UnsignedInt(4, native))
    case 'Q' => Some(UnsignedInt(8, native))
    case 'c' => Some(SignedInt(1, Native))
    case 's' => Some(SignedInt(2, native))
    case 'i' => Some(SignedInt(4, native))
    case 'l' => Some(SignedInt(4, native))
    case 'q' => Some(SignedInt(8, native))
    case 'n' => Some(UnsignedInt(2, BigOrder))
    case 'N' => Some(UnsignedInt(4, BigOrder))
    case 'v' => Some(UnsignedInt(2, LittleOrder))
    case 'V' => Some(UnsignedInt(4, LittleOrder))
    case 'A' => Some(SpacePadded)
    case 'a' => Some(RawString)
    case 'Z' => Some(NulPadded)
    case 'H' => Some(HexHigh)
    case 'h' => Some(HexLow)
    case 'D' => Some(FloatBits(8, Native))
    case 'd' => Some(FloatBits(8, Native))
    case 'F' => Some(FloatBits(4, Native))
    case 'f' => Some(FloatBits(4, Native))
    case 'E' => Some(FloatBits(8, LittleOrder))
    case 'e' => Some(FloatBits(4, LittleOrder))
    case 'G' => Some(FloatBits(8, BigOrder))
    case 'g' => Some(FloatBits(4, BigOrder))
    case 'x' => Some(Skip)
    case _ => None
  }

  /** Which integer letters are unsigned and which signed. */
  lemma IntegerSignedness(c: char, modifier: Option<ByteOrder>)
    ensures c in "CSILQnNvV" ==> DirectiveOf(c, modifier).Some? && DirectiveOf(c, modifier).value.UnsignedInt?
    ensures c in "csilq" ==> DirectiveOf(c, modifier).Some? && DirectiveOf(c, modifier).value.SignedInt?
  {
  }

  /**
   * The byte order of every integer and float letter: `sSiIlLqQ` follow
   * their mark, or native order without one; `cCdDfF` are native; `nNGg`
   * are big-endian and `vVEe` little-endian whatever follows them.
   */
  lemma ScalarOrder(c: char, modifier: Option<ByteOrder>)
    ensures var r := DirectiveOf(c, modifier);
            && (c in "sSiIlLqQ" ==> r.Some? && r.value.IsScalar() && r.value.order == modifier.GetOr(Native))
            && (c in "cCdDfF" ==> r.Some? && r.value.IsScalar() && r.value.order == Native)
            && (c in "nNGg" ==> r.Some? && r.value.IsScalar() && r.value.order == BigOrder)
            && (c in "vVEe" ==> r.Some? && r.value.IsScalar() && r.value.order == LittleOrder)
  {
  }

  /** Each string, hex and skip directive belongs to exactly one letter. */
  lemma ByteLetters(c: char, modifier: Option<ByteOrder>)
    ensures var r := DirectiveOf(c, modifier);
            && (r == Some(RawString) <==> c == 'a')
            && (r == Some(SpacePadded) <==> c == 'A')
            && (r == Some(NulPadded) <==> c == 'Z')
            && (r == Some(HexHigh) <==> c == 'H')
            && (r == Some(HexLow) <==> c == 'h')
            && (r == Some(Skip) <==> c == 'x')
  {
  }
}

=== FILE: hash_fmt.dfy ===
/**
 * The field-map layout engine: an ordered map from member names to C-style
 * type descriptors becomes a pack format, member names, FieldInfo records
 * and a struct size.
 */
module HashFmt {

  import opened Results
  import opened Errors
  import opened FmtSpec
  import opened Tokenizer
  import opened Layout
  import opened PackFmt

  /** The pack letters that have C type aliases, in catalogue order. */
  const AliasedCodes: seq<char> := "CSILQcsilqnNvVdfEeGg"

  /** KNOWN_FIELD_TYPES_REVERSED: the C type names of each pack letter. */
  function Aliases(code: char): seq<string> {
    match code
    case 'C' => ["uint8_t", "unsigned char", "_BYTE"]
    case 'S' => ["uint16_t", "unsigned short"]
    case 'I' => ["uint32_t", "unsigned", "unsigned int"]
    case 'L' => ["unsigned long"]
    case 'Q' => ["uint64_t", "unsigned long long"]
    case 'c' => ["int8_t", "char", "signed char"]
    case 's' => ["int16_t", "short", "signed short"]
    case 'i' => ["int32_t", "int", "signed", "signed int"]
    case 'l' => ["long", "signed long"]
    case 'q' => ["int64_t", "long long", "signed long long"]
    case 'n' => ["uint16_be", "uint16_t_be", "be16"]
    case 'N' => ["uint32_be", "uint32_t_be", "be32"]
    case 'v' => ["uint16_le", "uint16_t_le", "le16"]
    case 'V' => ["uint32_le", "uint32_t_le", "le32"]
    case 'd' => ["double"]
    case 'f' => ["float"]
    case 'E' => ["double_le"]
    case 'e' => ["float_le"]
    case 'G' => ["double_be"]
    case 'g' => ["float_be"]
    case _ => []
  }

  /** KNOWN_FIELD_TYPES: the pack letter a C type name stands for. */
  function AliasCode(name: string): (r: Option<char>)
  {
    match name
    case "uint8_t" => Some('C')
    case "unsigned char" => Some('C')
    case "_BYTE" => Some('C')
    case "uint16_t" => Some('S')
    case "unsigned short" => Some('S')
    case "uint32_t" => Some('I')
    case "unsigned" => Some('I')
    case "unsigned int" => Some('I')
    case "unsigned long" => Some('L')
    case "uint64_t" => Some('Q')
    case "unsigned long long" => Some('Q')
    case "int8_t" => Some('c')
    case "char" => Some('c')
    case "signed char" => Some('c')
    case "int16_t" => Some('s')
    case "short" => Some('s')
    case "signed short" => Some('s')
    case "int32_t" => Some('i')
    case "int" => Some('i')
    case "signed" => Some('i')
    case "signed int" => Some('i')
    case "long" => Some('l')
    case "signed long" => Some('l')
    case "int64_t" => Some('q')
    case "long long" => Some('q')
    case "signed long long" => Some('q')
    case "uint16_be" => Some('n')
    case "uint16_t_be" => Some('n')
    case "be16" => Some('n')
    case "uint32_be" => Some('N')
    case "uint32_t_be" => Some('N')
    case "be32" => Some('N')
    case "uint16_le" => Some('v')
    case "uint16_t_le" => Some('v')
    case "le16" => Some('v')
    case "uint32_le" => Some('V')
    case "uint32_t_le" => Some('V')
    case "le32" => Some('V')
    case "double" => Some('d')
    case "float" => Some('f')
    case "double_le" => Some('E')
    case "float_le" => Some('e')
    case "double_be" => Some('G')
    case "float_be" => Some('g')
    case _ => None
  }

  /** A name the lookup maps to `code` is listed under `code`. */
  lemma AliasCodeListedAt(code: char, name: string)
    requires AliasCode(name) == Some(code)
    ensures name in Aliases(code)
  {
  }

  /** Every name the lookup knows is listed under the letter it gives. */
  lemma {:induction false} AliasCodeListed(name: string)
    requires AliasCode(name).Some?
    ensures AliasCode(name).value in AliasedCodes
    ensures name in Aliases(AliasCode(name).value)
  {
    match AliasCode(name).value
    case 'C' => AliasCodeListedAt('C', name);
    case 'S' => AliasCodeListedAt('S', name);
    case 'I' => AliasCodeListedAt('I', name);
    case 'L' => AliasCodeListedAt('L', name);
    case 'Q' => AliasCodeListedAt('Q', name);
    case 'c' => AliasCodeListedAt('c', name);
    case 's' => AliasCodeListedAt('s', name);
    case 'i' => AliasCodeListedAt('i', name);
    case 'l' => AliasCodeListedAt('l', name);
    case 'q' => AliasCodeListedAt('q', name);
    case 'n' => AliasCodeListedAt('n', name);
    case 'N' => AliasCodeListedAt('N', name);
    case 'v' => AliasCodeListedAt('v', name);
    case 'V' => AliasCodeListedAt('V', name);
    case 'd' => AliasCodeListedAt('d', name);
    case 'f' => AliasCodeListedAt('f', name);
    case 'E' => AliasCodeListedAt('E', name);
    case 'e' => AliasCodeListedAt('e', name);
    case 'G' => AliasCodeListedAt('G', name);
    case 'g' => AliasCodeListedAt('g', name);
  }

  /** A name listed under `code` gives back `code`. */
  lemma ListedAliasCode(code: char, name: string)
    requires name in Aliases(code)
    ensures AliasCode(name) == Some(code)
  {
    if code in "CSILQ" {
      ListedUnsigned(code, name);
    } else if code in "csilq" {
      ListedSigned(code, name);
    } else if code in "nNvV" {
      ListedFixedOrder(code, name);
    } else {
      ListedFloat(code, name);
    }
  }

  /** ListedAliasCode for the letters of unsigned integers. */
  lemma ListedUnsigned(code: char, name: string)
    requires code in "CSILQ" && name in Aliases(code)
    ensures AliasCode(name) == Some(code)
  {
  }

  /** ListedAliasCode for the letters of signed integers. */
  lemma ListedSigned(code: char, name: string)
    requires code in "csilq" && name in Aliases(code)
    ensures AliasCode(name) == Some(code)
  {
  }

  /** ListedAliasCode for the letters of integers of fixed byte order. */
  lemma ListedFixedOrder(code: char, name: string)
    requires code in "nNvV" && name in Aliases(code)
    ensures AliasCode(name) == Some(code)
  {
  }

  /** ListedAliasCode for the letters of floating point. */
  lemma ListedFloat(code: char, name: string)
    requires code in "dfEeGg" && name in Aliases(code)
    ensures AliasCode(name) == Some(code)
  {
  }

  /**
   * The flat lookup and the per-letter catalogue describe the same relation:
   * no name is listed under two letters, so building one from the other
   * loses nothing.
   */
  lemma {:induction false} AliasCodeIff(code: char, name: string)
    ensures AliasCode(name) == Some(code) <==> code in AliasedCodes && name in Aliases(code)
  {
    if AliasCode(name) == Some(code) {
      AliasCodeListed(name);
    } else if code in AliasedCodes && name in Aliases(code) {
      ListedAliasCode(code, name);
    }
  }

  /** Ruby's get_type_size: the byte width of a catalogued C type name, nil otherwise. */
  function GetTypeSize(name: string): (r: Option<nat>)
    ensures r.Some? ==> r.value in {1, 2, 4, 8}
  {
    match AliasCode(name)
    case None => None
    case Some(code) =>
      AliasCodeListed(name);
      Some(Lookup(code).value.width)
  }

  /** get_type_size answers exactly for the catalogued names, with their letter's FMTSPEC width. */
  lemma GetTypeSizeIff(name: string)
    ensures GetTypeSize(name).Some? <==> exists code :: code in AliasedCodes && name in Aliases(code)
    ensures forall code | code in AliasedCodes && name in Aliases(code) ::
              Lookup(code).Some? && GetTypeSize(name) == Some(Lookup(code).value.width)
  {
    forall code | code in AliasedCodes && name in Aliases(code)
      ensures Lookup(code).Some? && GetTypeSize(name) == Some(Lookup(code).value.width)
    {
      AliasedCodeSpec(code);
      ListedAliasCode(code, name);
    }
    if GetTypeSize(name).Some? {
      AliasCodeListed(name);
    }
  }

  /** A field descriptor, as the field map gives it. */
  datatype Desc =
      /** A C type name, given as a String or a Symbol (the two are treated alike). */
    | Named(name: string)
      /** A struct class: the field holds one or more records of that type. */
    | StructClass(t: StructType)
      /** A Hash with optional :offset and :count and the wrapped :type descriptor. */
    | Options(offset: Option<int>, count: Option<nat>, inner: Desc)
      /** Any other object, by its Ruby class name (a missing :type is NilClass). */
    | Other(className: string)

  /** The explicit :offset of a descriptor, when it is a Hash that gives one. */
  function DescOffset(d: Desc): Option<int> {
    if d.Options? then d.offset else None
  }

  /** The :count of a descriptor; 1 unless a Hash gives one. */
  function DescCount(d: Desc): nat {
    if d.Options? then d.count.GetOr(1) else 1
  }

  /** The type part of a descriptor: the :type of a Hash, the descriptor itself otherwise. */
  function DescType(d: Desc): Desc {
    if d.Options? then d.inner else d
  }

  /** The byte size of one element of a type descriptor, when it names a known type. */
  function ElemSize(d: Desc): Option<nat> {
    match d
    case Named(name) => GetTypeSize(name)
    case StructClass(t) => Some(t.size)
    case _ => None
  }

  /** What one field contributes: its pack-format tokens (a gap, then the field) and its record. */
  datatype FieldStep = FieldStep(toks: seq<Token>, info: FieldInfo)

  /** A token of count `n` for `letter`, written with its digits. */
  function Sized(letter: char, n: nat): Token {
    Token(letter, ShowNat(n), None)
  }

  /**
   * One field of the map, laid out at cursor `at`: the overlap check, the
   * gap before an explicit offset, then the type.
   */
  function ParseField(fname: string, d: Desc, at: nat, structName: Option<string>): (r: Result<FieldStep, Error>)
    ensures r.Ok? <==> DescOffset(d).GetOr(at) >= at && ElemSize(DescType(d)).Some?
    ensures DescOffset(d).GetOr(at) < at ==> r == Err(OverlapsPreviousField(structName, fname))
    ensures DescOffset(d).GetOr(at) >= at ==>
              match DescType(d)
              case Named(name) => AliasCode(name).None? ==> r == Err(UnknownAlias(fname, name))
              case StructClass(_) => r.Ok?
              case Options(_, _, _) => r == Err(UnexpectedFieldDescType(fname, "Hash"))
              case Other(cls) => r == Err(UnexpectedFieldDescType(fname, cls))
    ensures r.Ok? ==>
              var f := r.value.info;
              && f.offset == DescOffset(d).GetOr(at)
              && f.size == ElemSize(DescType(d)).value * DescCount(d)
              && f.count == Some(DescCount(d))
    ensures r.Ok? && DescType(d).StructClass? ==>
              r.value.info.klass == Nested(DescType(d).t) && r.value.info.fmt == StructFmt(DescType(d).t)
    ensures r.Ok? && DescType(d).Named? ==>
              var code := AliasCode(DescType(d).name);
              && code.Some? && Lookup(code.value).Some? && Lookup(code.value).value.klass.Some?
              && r.value.info.klass == Scalar(Lookup(code.value).value.klass.value)
              && r.value.info.fmt == (if DescCount(d) == 1 then NoFmt else Elements(code.value, DescCount(d)))
  {
    var off := DescOffset(d).GetOr(at);
    if off < at then Err(OverlapsPreviousField(structName, fname))
    else
      var gap := if off > at then [Sized('x', off - at)] else [];
      var n := DescCount(d);
      match DescType(d)
      case Named(name) =>
        (match AliasCode(name)
         case None => Err(UnknownAlias(fname, name))
         case Some(code) =>
           var spec := Lookup(code).value;
           if n == 1 then
             Ok(FieldStep(gap + [Token(code, "", None)], FieldInfo(Scalar(spec.klass.value), spec.width, off, Some(1), NoFmt)))
           else
             Ok(FieldStep(gap + [Sized('a', spec.width * n)],
                          FieldInfo(Scalar(spec.klass.value), spec.width * n, off, Some(n), Elements(code, n))))
        )
      case StructClass(t) =>
        Ok(FieldStep(gap + [Sized('a', t.size * n)], FieldInfo(Nested(t), t.size * n, off, Some(n), StructFmt(t))))
      case Options(_, _, _) => Err(UnexpectedFieldDescType(fname, "Hash"))
      case Other(cls) => Err(UnexpectedFieldDescType(fname, cls))
  }

  /** Two field lists place their fields at the same offsets with the same sizes. */
  predicate SamePlacement(pf: seq<FieldInfo>, fs: seq<FieldInfo>) {
    |pf| == |fs| && forall i | 0 <= i < |fs| :: pf[i].offset == fs[i].offset && pf[i].size == fs[i].size
  }

  /** Every catalogued letter is a FMTSPEC number letter: a scalar with a value class. */
  lemma AliasedCodeSpec(code: char)
    requires code in AliasedCodes
    ensures IsLetter(code) && !IsExtent(code) && !IsHexLetter(code)
    ensures Lookup(code).Some? && Lookup(code).value.klass.Some?
  {
    AliasedCodeKnown(code);
  }

  lemma AliasedCodeKnown(code: char)
    requires code in AliasedCodes
    ensures Lookup(code).Some? && Lookup(code).value.klass.Some?
  {
  }

  /** A number letter alone reads one scalar of its width. */
  lemma LetterToken(code: char, at: nat)
    requires IsLetter(code) && Lookup(code).Some? && Lookup(code).value.klass.Some?
    requires !IsExtent(code) && !IsHexLetter(code)
    ensures var t := Token(code, "", None);
            var spec := Lookup(code).value;
            && Known(t) && Renderable(t) && Lookup(code).value.klass.Some?
            && ParseTokens([t], at) == Ok(PackLayout([FieldInfo(Scalar(spec.klass.value), spec.width, at, None, NoFmt)], at + spec.width))
  {
    var t := Token(code, "", None);
    var spec := Lookup(code).value;
    OneToken(t, at);
    assert Count(t) == 1;
    var fs := Emit(t, at);
    assert fs == Repeat(spec.klass.value, spec.width, 1, at);
    assert fs[0] == FieldInfo(Scalar(spec.klass.value), spec.width, at, None, NoFmt);
    assert fs == [fs[0]];
  }

  /** `a<n>` reads one string of n bytes. */
  lemma ExtentToken(n: nat, at: nat)
    ensures var t := Sized('a', n);
            && Known(t) && Renderable(t)
            && ParseTokens([t], at) == Ok(PackLayout([FieldInfo(Scalar(StringClass), n, at, None, NoFmt)], at + n))
  {
    var t := Sized('a', n);
    assert Count(t) == n;
    OneToken(t, at);
  }

  /** `x<n>` reads nothing and moves the cursor n bytes. */
  lemma GapToken(n: nat)
    ensures var t := Sized('x', n);
            && Known(t) && Renderable(t) && Advance(t) == n
            && forall at: nat :: Emit(t, at) == []
  {
    assert Count(Sized('x', n)) == n;
  }

  /** Tokens a format string can carry and the layout engine knows. */
  predicate Writable(toks: seq<Token>) {
    AllKnown(toks) && forall i | 0 <= i < |toks| :: Renderable(toks[i])
  }

  /**
   * The tokens one field contributes read, from the cursor, exactly one
   * value placed where the field's record says, and end where the field ends.
   */
  lemma StepLayout(fname: string, d: Desc, at: nat, structName: Option<string>)
    requires ParseField(fname, d, at, structName).Ok?
    ensures var step := ParseField(fname, d, at, structName).value;
            var r := ParseTokens(step.toks, at);
            && Writable(step.toks)
            && r.Ok? && r.value.total == End(step.info)
            && SamePlacement(r.value.fields, [step.info])
  {
    var step := ParseField(fname, d, at, structName).value;
    StepPiece(fname, d, at, structName);
    GapThenPiece(step.toks[|step.toks| - 1], step.info, at);
  }

  /** The skip a field walk inserts between the cursor and a later field start. */
  function Gap(at: nat, off: nat): seq<Token> {
    if off > at then [Sized('x', off - at)] else []
  }

  /**
   * A field's pieces are the gap from the cursor and one last piece that,
   * laid out from the field's offset, reads one value of the field's size.
   */
  lemma StepPiece(fname: string, d: Desc, at: nat, structName: Option<string>)
    requires ParseField(fname, d, at, structName).Ok?
    ensures var step := ParseField(fname, d, at, structName).value;
            var f := step.info;
            var c := step.toks[|step.toks| - 1];
            var r := ParseTokens([c], f.offset);
            && at <= f.offset
            && step.toks == Gap(at, f.offset) + [c]
            && Known(c) && Renderable(c)
            && r.Ok? && r.value.total == End(f)
            && SamePlacement(r.value.fields, [f])
  {
    StepShape(fname, d, at, structName);
    var step := ParseField(fname, d, at, structName).value;
    var f := step.info;
    var off := f.offset;
    if DescType(d).Named? {
      var code := AliasCode(DescType(d).name).value;
      AliasCodeListed(DescType(d).name);
      AliasedCodeSpec(code);
      if DescCount(d) == 1 {
        LetterToken(code, off);
      } else {
        ExtentToken(f.size, off);
      }
    } else {
      ExtentToken(f.size, off);
    }
  }

  /** What the last piece of a field is: the bare letter, or `a` with the field's size. */
  lemma StepShape(fname: string, d: Desc, at: nat, structName: Option<string>)
    requires ParseField(fname, d, at, structName).Ok?
    ensures var step := ParseField(fname, d, at, structName).value;
            var f := step.info;
            && at <= f.offset
            && |step.toks| >= 1
            && step.toks == Gap(at, f.offset) + [step.toks[|step.toks| - 1]]
            && step.toks[|step.toks| - 1] ==
                 if DescType(d).Named? && DescCount(d) == 1 then Token(AliasCode(DescType(d).name).value, "", None)
                 else Sized('a', f.size)
  {
  }

  /** A gap and then a piece lay out like the piece alone, from the cursor. */
  lemma GapThenPiece(c: Token, f: FieldInfo, at: nat)
    requires at <= f.offset && Known(c) && Renderable(c)
    requires ParseTokens([c], f.offset).Ok? && ParseTokens([c], f.offset).value.total == End(f)
    requires SamePlacement(ParseTokens([c], f.offset).value.fields, [f])
    ensures var toks := Gap(at, f.offset) + [c];
            var r := ParseTokens(toks, at);
            && Writable(toks)
            && r.Ok? && r.value.total == End(f)
            && SamePlacement(r.value.fields, [f])
  {
    var off := f.offset;
    if off > at {
      var g := Sized('x', off - at);
      GapToken(off - at);
      assert Gap(at, off) + [c] == [g] + [c];
      ParseTokensStep(g, [c], at);
      assert Emit(g, at) + ParseTokens([c], off).value.fields == ParseTokens([c], off).value.fields;
    } else {
      assert Gap(at, off) + [c] == [c];
    }
  }

  /**
   * One field contributes an optional skip over the gap before it, then one
   * piece: a bare number letter, or an `a` with a byte count.
   */
  lemma StepTokens(fname: string, d: Desc, at: nat, structName: Option<string>)
    requires ParseField(fname, d, at, structName).Ok?
    ensures var toks := ParseField(fname, d, at, structName).value.toks;
            var c := toks[|toks| - 1];
            && 1 <= |toks| <= 2
            && (|toks| == 2 ==> toks[0].letter == 'x')
            && c.letter != 'x'
            && (c.letter == 'a' || (|c.digits| == 0 && c.letter in AliasedCodes))
            && forall i | 0 <= i < |toks| :: toks[i].mark.None?
  {
    if DescType(d).Named? && DescCount(d) == 1 {
      AliasCodeListed(DescType(d).name);
    }
  }

  /** The state parse_hash_format carries across fields: cursor, format pieces, names, records. */
  datatype Acc = Acc(offset: nat, toks: seq<Token>, names: seq<string>, fields: seq<FieldInfo>)

  /** The fields of the map in order from cursor `at`; the first field that fails stops the walk. */
  function ParseFields(fs: seq<(string, Desc)>, at: nat, structName: Option<string>): (r: Result<Acc, Error>)
    ensures r.Ok? ==> |r.value.names| == |r.value.fields| == |fs| && r.value.offset >= at
    ensures r.Ok? ==> forall i | 0 <= i < |fs| :: r.value.names[i] == fs[i].0
  {
    if |fs| == 0 then Ok(Acc(at, [], [], []))
    else
      match ParseField(fs[0].0, fs[0].1, at, structName)
      case Err(e) => Err(e)
      case Ok(step) =>
        match ParseFields(fs[1..], End(step.info), structName)
        case Err(e) => Err(e)
        case Ok(rest) =>
          Ok(Acc(rest.offset, step.toks + rest.toks, [fs[0].0] + rest.names, [step.info] + rest.fields))
  }

  /**
   * parse_hash_format: the pack format (all pieces joined with nothing
   * between them), member names, field records and struct size. A forced
   * size smaller than the laid-out extent is an error; otherwise it wins.
   */
  function ParseHashFormat(fs: seq<(string, Desc)>, size: Option<nat>, name: Option<string>): (r: Result<StructType, Error>)
    ensures r.Ok? ==> |r.value.members| == |fs| && forall i | 0 <= i < |fs| :: r.value.members[i] == fs[i].0
  {
    var acc :- ParseFields(fs, 0, name);
    if size.Some? && acc.offset > size.value then Err(SizeExceedsForced(acc.offset, size.value))
    else Ok(StructType(RenderAll(acc.toks, ""), acc.names, acc.fields, size.GetOr(acc.offset)))
  }

  /**
   * The format pieces of a field walk read one value per field, placed where
   * the records say, and reach the walk's final cursor; the records tile the
   * bytes between the start and that cursor.
   */
  lemma {:induction false} ParseFieldsLayout(fs: seq<(string, Desc)>, at: nat, structName: Option<string>)
    requires ParseFields(fs, at, structName).Ok?
    ensures var acc := ParseFields(fs, at, structName).value;
            var r := ParseTokens(acc.toks, at);
            && Writable(acc.toks)
            && r.Ok? && r.value.total == acc.offset
            && SamePlacement(r.value.fields, acc.fields)
            && Tiled(acc.fields, at, acc.offset)
  {
    if |fs| > 0 {
      ParseFieldsCons(fs, at, structName);
      var step := ParseField(fs[0].0, fs[0].1, at, structName).value;
      var mid := End(step.info);
      var rest := ParseFields(fs[1..], mid, structName).value;
      StepLayout(fs[0].0, fs[0].1, at, structName);
      ParseFieldsLayout(fs[1..], mid, structName);
      FieldsLayoutStep(step.toks, rest.toks, step.info, rest.fields, at, rest.offset);
    }
  }

  /** One step of a field walk: the accumulator is the first field's step followed by the rest's. */
  lemma ParseFieldsCons(fs: seq<(string, Desc)>, at: nat, structName: Option<string>)
    requires ParseFields(fs, at, structName).Ok? && |fs| > 0
    ensures ParseField(fs[0].0, fs[0].1, at, structName).Ok?
    ensures var step := ParseField(fs[0].0, fs[0].1, at, structName).value;
            && at <= step.info.offset
            && ParseFields(fs[1..], End(step.info), structName).Ok?
            && var rest := ParseFields(fs[1..], End(step.info), structName).value;
               ParseFields(fs, at, structName).value
                 == Acc(rest.offset, step.toks + rest.toks, [fs[0].0] + rest.names, [step.info] + rest.fields)
  {
  }

  /**
   * The layout facts of ParseFieldsLayout carry over from a field's pieces
   * and the rest of the walk to their concatenation.
   */
  lemma FieldsLayoutStep(st: seq<Token>, rt: seq<Token>, info: FieldInfo, rf: seq<FieldInfo>, at: nat, end: nat)
    requires at <= info.offset
    requires Writable(st) && ParseTokens(st, at).Ok?
    requires ParseTokens(st, at).value.total == End(info) && SamePlacement(ParseTokens(st, at).value.fields, [info])
    requires Writable(rt) && ParseTokens(rt, End(info)).Ok?
    requires ParseTokens(rt, End(info)).value.total == end
    requires SamePlacement(ParseTokens(rt, End(info)).value.fields, rf) && Tiled(rf, End(info), end)
    ensures Writable(st + rt)
    ensures ParseTokens(st + rt, at).Ok?
    ensures ParseTokens(st + rt, at).value.total == end
    ensures SamePlacement(ParseTokens(st + rt, at).value.fields, [info] + rf)
    ensures Tiled([info] + rf, at, end)
  {
    var mid := End(info);
    var first := ParseTokens(st, at).value;
    var second := ParseTokens(rt, mid).value;
    ParseTokensSpec(st, at);
    ParseTokensSpec(rt, mid);
    ParseTokensConcatOk(st, rt, at);
    WritableConcat(st, rt);
    SamePlacementConcat(first.fields, [info], second.fields, rf);
    TiledConcat([info], rf, at, mid, end);
  }

  lemma WritableConcat(a: seq<Token>, b: seq<Token>)
    requires Writable(a) && Writable(b)
    ensures Writable(a + b)
  {
    assert forall i | 0 <= i < |a + b| :: (a + b)[i] == if i < |a| then a[i] else b[i - |a|];
  }

  lemma SamePlacementConcat(p1: seq<FieldInfo>, f1: seq<FieldInfo>, p2: seq<FieldInfo>, f2: seq<FieldInfo>)
    requires SamePlacement(p1, f1) && SamePlacement(p2, f2)
    ensures SamePlacement(p1 + p2, f1 + f2)
  {
    assert forall i | 0 <= i < |p1 + p2| :: (p1 + p2)[i] == if i < |p1| then p1[i] else p2[i - |p1|];
    assert forall i | 0 <= i < |f1 + f2| :: (f1 + f2)[i] == if i < |f1| then f1[i] else f2[i - |f1|];
  }

  /** A field record sized from its description: element size times :count, with the count recorded. */
  predicate SizedFrom(f: FieldInfo, d: Desc) {
    && ElemSize(DescType(d)).Some?
    && f.size == ElemSize(DescType(d)).value * DescCount(d)
    && f.count == Some(DescCount(d))
  }

  /** Each field's size is its element size times its :count, and its count is recorded. */
  lemma {:induction false} ParseFieldsSizes(fs: seq<(string, Desc)>, at: nat, structName: Option<string>)
    requires ParseFields(fs, at, structName).Ok?
    ensures var acc := ParseFields(fs, at, structName).value;
            forall i | 0 <= i < |fs| :: SizedFrom(acc.fields[i], fs[i].1)
  {
    if |fs| > 0 {
      ParseFieldsCons(fs, at, structName);
      var step := ParseField(fs[0].0, fs[0].1, at, structName).value;
      var rest := ParseFields(fs[1..], End(step.info), structName).value;
      ParseFieldsSizes(fs[1..], End(step.info), structName);
      SizedCons(step.info, rest.fields, fs);
    }
  }

  lemma SizedCons(f: FieldInfo, rest: seq<FieldInfo>, fs: seq<(string, Desc)>)
    requires |fs| == |rest| + 1 && SizedFrom(f, fs[0].1)
    requires forall i | 0 <= i < |fs[1..]| :: SizedFrom(rest[i], fs[1..][i].1)
    ensures forall i | 0 <= i < |fs| :: SizedFrom(([f] + rest)[i], fs[i].1)
  {
    forall i | 1 <= i < |fs|
      ensures SizedFrom(([f] + rest)[i], fs[i].1)
    {
      assert ([f] + rest)[i] == rest[i - 1] && fs[i] == fs[1..][i - 1];
    }
  }

  /**
   * The placement rules of the field map: each field starts at its explicit
   * :offset or else where the previous one ended (the first: at the start),
   * never before that point, and the walk ends where the last field ends.
   */
  lemma {:induction false} ParseFieldsPlacement(fs: seq<(string, Desc)>, at: nat, structName: Option<string>)
    requires ParseFields(fs, at, structName).Ok?
    ensures var acc := ParseFields(fs, at, structName).value;
            && acc.offset == (if |fs| == 0 then at else End(acc.fields[|fs| - 1]))
            && (|fs| > 0 ==> PlacedAfter(acc.fields[0], fs[0].1, at))
            && forall i | 1 <= i < |fs| :: PlacedAfter(acc.fields[i], fs[i].1, End(acc.fields[i - 1]))
  {
    if |fs| > 0 {
      ParseFieldsCons(fs, at, structName);
      var step := ParseField(fs[0].0, fs[0].1, at, structName).value;
      var rest := ParseFields(fs[1..], End(step.info), structName).value;
      ParseFieldsPlacement(fs[1..], End(step.info), structName);
      PlacedCons(step.info, rest.fields, fs);
    }
  }

  /** A field placed at its explicit :offset, or else at `prev`, and never before `prev`. */
  predicate PlacedAfter(f: FieldInfo, d: Desc, prev: nat) {
    f.offset == DescOffset(d).GetOr(prev) >= prev
  }

  lemma PlacedCons(f: FieldInfo, rest: seq<FieldInfo>, fs: seq<(string, Desc)>)
    requires |fs| == |rest| + 1
    requires |rest| > 0 ==> PlacedAfter(rest[0], fs[1..][0].1, End(f))
    requires forall i | 1 <= i < |fs[1..]| :: PlacedAfter(rest[i], fs[1..][i].1, End(rest[i - 1]))
    ensures forall i | 1 <= i < |fs| :: PlacedAfter(([f] + rest)[i], fs[i].1, End(([f] + rest)[i - 1]))
  {
    forall i | 1 <= i < |fs|
      ensures PlacedAfter(([f] + rest)[i], fs[i].1, End(([f] + rest)[i - 1]))
    {
      assert ([f] + rest)[i] == rest[i - 1] && fs[i] == fs[1..][i - 1];
      assert ([f] + rest)[i - 1] == if i == 1 then f else rest[i - 2];
    }
  }

  /** The extent of a field walk from 0: where its last field ends. */
  function Extent(fields: seq<FieldInfo>): nat {
    if |fields| == 0 then 0 else End(fields[|fields| - 1])
  }

  /**
   * The pack format of a laid-out struct is one the layout engine accepts,
   * reads one value per member at that member's offset and size, and stays
   * inside the struct; the members tile the struct's bytes.
   */
  lemma HashFormatLayout(fs: seq<(string, Desc)>, size: Option<nat>, name: Option<string>)
    requires ParseHashFormat(fs, size, name).Ok?
    ensures var st := ParseHashFormat(fs, size, name).value;
            var r := ParsePackFormat(st.format);
            && r.Ok? && r.value.total <= st.size
            && SamePlacement(r.value.fields, st.fields)
            && Tiled(st.fields, 0, st.size)
  {
    var acc := ParseFields(fs, 0, name).value;
    ParseFieldsLayout(fs, 0, name);
    ScanRenderAll(acc.toks, "");
  }

  /**
   * A forced size is accepted exactly when the fields fit in it, and then
   * becomes the struct size; without one the size is the extent.
   */
  lemma ForcedSize(fs: seq<(string, Desc)>, size: Option<nat>, name: Option<string>)
    requires ParseFields(fs, 0, name).Ok?
    ensures var ext := Extent(ParseFields(fs, 0, name).value.fields);
            var r := ParseHashFormat(fs, size, name);
            && (r.Ok? <==> size.None? || ext <= size.value)
            && (r.Ok? ==> r.value.size == size.GetOr(ext))
            && (r.Err? ==> r.error == SizeExceedsForced(ext, size.value))
  {
    ParseFieldsPlacement(fs, 0, name);
  }

  /** No descriptor gives an explicit :offset. */
  predicate NoOffsets(fs: seq<(string, Desc)>) {
    forall i | 0 <= i < |fs| :: DescOffset(fs[i].1).None?
  }

  /** Every descriptor names a known type. */
  predicate AllTyped(fs: seq<(string, Desc)>) {
    forall i | 0 <= i < |fs| :: ElemSize(DescType(fs[i].1)).Some?
  }

  function SumSizes(fields: seq<FieldInfo>): nat {
    if |fields| == 0 then 0 else fields[0].size + SumSizes(fields[1..])
  }

  /**
   * Without explicit offsets a map of known types always lays out, with the
   * fields packed back to back from the cursor: the walk ends at the cursor
   * plus the sum of the field sizes.
   */
  lemma {:induction false} DefaultPlacement(fs: seq<(string, Desc)>, at: nat, structName: Option<string>)
    requires NoOffsets(fs) && AllTyped(fs)
    ensures var r := ParseFields(fs, at, structName);
            && r.Ok?
            && r.value.offset == at + SumSizes(r.value.fields)
            && (|fs| > 0 ==> r.value.fields[0].offset == at)
            && forall i | 1 <= i < |fs| :: r.value.fields[i].offset == End(r.value.fields[i - 1])
  {
    if |fs| > 0 {
      var step := ParseField(fs[0].0, fs[0].1, at, structName);
      assert step.Ok?;
      assert NoOffsets(fs[1..]) && AllTyped(fs[1..]) by {
        assert forall i | 0 <= i < |fs| - 1 :: fs[1..][i] == fs[i + 1];
      }
      DefaultPlacement(fs[1..], End(step.value.info), structName);
      ParseFieldsPlacement(fs, at, structName);
    }
  }

  /** A field walk fails only with one of the three field errors. */
  lemma {:induction false} ParseFieldsErrors(fs: seq<(string, Desc)>, at: nat, structName: Option<string>)
    requires ParseFields(fs, at, structName).Err?
    ensures var e := ParseFields(fs, at, structName).error;
            e.OverlapsPreviousField? || e.UnknownAlias? || e.UnexpectedFieldDescType?
  {
    var step := ParseField(fs[0].0, fs[0].1, at, structName);
    if step.Ok? {
      ParseFieldsErrors(fs[1..], End(step.value.info), structName);
    }
  }
}

=== FILE: iostruct.dfy ===
/**
 * Record operations: the size of a struct type, reading a record from a
 * byte source, packing it back, the emptiness test and construction from
 * positional or keyword arguments.
 */
module IOStruct {

  import opened Results
  import opened Errors
  import opened Bytes
  import opened FmtSpec
  import opened Tokenizer
  import opened Layout
  import opened PackFmt
  import opened Codec
  import HashFmt

  // ---------------------------------------------------------------- the older size rule

  /** FIELD_SIZES: the older width table; it has no `I`, `i`, `Z`, `H` or `h`. */
  function FieldSize(c: char): Option<nat> {
    match c
    case 'C' => Some(1)
    case 'S' => Some(2)
    case 'L' => Some(4)
    case 'Q' => Some(8)
    case 'c' => Some(1)
    case 's' => Some(2)
    case 'l' => Some(4)
    case 'q' => Some(8)
    case 'n' => Some(2)
    case 'N' => Some(4)
    case 'v' => Some(2)
    case 'V' => Some(4)
    case 'A' => Some(1)
    case 'a' => Some(1)
    case 'D' => Some(8)
    case 'd' => Some(8)
    case 'F' => Some(4)
    case 'f' => Some(4)
    case 'E' => Some(8)
    case 'e' => Some(4)
    case 'G' => Some(8)
    case 'g' => Some(4)
    case 'x' => Some(1)
    case _ => None
  }

  /** Every letter of the older table is in FMTSPEC with the same width, and none is a hex letter. */
  lemma FieldSizeInSpec(c: char)
    requires FieldSize(c).Some?
    ensures Lookup(c).Some? && Lookup(c).value.width == FieldSize(c).value
    ensures !IsHexLetter(c)
  {
  }

  /** The older count rule: the digits' value, but never less than 1. */
  function OldCount(t: Token): nat {
    if Count(t) == 0 then 1 else Count(t)
  }

  /**
   * The older size sum of IOStruct.new: max(count, 1) times the table width
   * per token; the first letter missing from the table is an error, and a
   * format with no tokens has no size at all (nil).
   */
  function OldSizeOf(toks: seq<Token>): (r: Result<Option<nat>, Error>)
    ensures r.Ok? ==> (r.value.None? <==> |toks| == 0)
    ensures r.Err? ==> r.error.UnknownFmt?
  {
    if |toks| == 0 then Ok(None)
    else
      match FieldSize(toks[0].letter)
      case None => Err(UnknownFmt(toks[0].letter))
      case Some(w) =>
        var rest :- OldSizeOf(toks[1..]);
        Ok(Some(OldCount(toks[0]) * w + rest.GetOr(0)))
  }

  function OldSize(fmt: string): Result<Option<nat>, Error> {
    OldSizeOf(Scan(fmt))
  }

  /** Every letter is in the older table. */
  predicate InOldTable(toks: seq<Token>) {
    forall i | 0 <= i < |toks| :: FieldSize(toks[i].letter).Some?
  }

  /** What the older rule counts that the layout engine does not: one width per zero-count token. */
  function ZeroCountSlack(toks: seq<Token>): nat
    requires InOldTable(toks)
  {
    if |toks| == 0 then 0
    else
      assert FieldSize(toks[0].letter).Some?;
      assert InOldTable(toks[1..]) by {
        assert forall j | 1 <= j < |toks| :: toks[j] == toks[1..][j - 1];
      }
      (if Count(toks[0]) == 0 then FieldSize(toks[0].letter).value else 0) + ZeroCountSlack(toks[1..])
  }

  /**
   * The older size and the layout engine's total differ by exactly the
   * widths of the zero-count tokens: the older rule sizes `a0` as one byte.
   */
  lemma {:induction false} OldSizeVersusTotal(toks: seq<Token>)
    requires |toks| > 0 && InOldTable(toks)
    ensures AllKnown(toks)
    ensures OldSizeOf(toks) == Ok(Some(TotalAdvance(toks) + ZeroCountSlack(toks)))
  {
    var t := toks[0];
    assert InOldTable(toks[1..]) by {
      assert forall j | 1 <= j < |toks| :: toks[j] == toks[1..][j - 1];
    }
    TokenSlack(t);
    if |toks| > 1 {
      OldSizeVersusTotal(toks[1..]);
    } else {
      assert toks[1..] == [];
    }
    AllKnownCons(toks);
  }

  /** One token: the older rule's bytes are the layout advance plus the zero-count slack. */
  lemma TokenSlack(t: Token)
    requires FieldSize(t.letter).Some?
    ensures Known(t)
    ensures OldCount(t) * FieldSize(t.letter).value == Advance(t) + (if Count(t) == 0 then FieldSize(t.letter).value else 0)
  {
    FieldSizeInSpec(t.letter);
  }

  /** With every count at least 1, the older size is the layout engine's total. */
  lemma {:induction false} OldSizeAgrees(toks: seq<Token>)
    requires |toks| > 0 && InOldTable(toks)
    requires forall i | 0 <= i < |toks| :: Count(toks[i]) >= 1
    ensures AllKnown(toks)
    ensures OldSizeOf(toks) == Ok(Some(TotalAdvance(toks)))
  {
    OldSizeVersusTotal(toks);
    NoSlack(toks);
  }

  lemma {:induction false} NoSlack(toks: seq<Token>)
    requires InOldTable(toks)
    requires forall i | 0 <= i < |toks| :: Count(toks[i]) >= 1
    ensures ZeroCountSlack(toks) == 0
  {
    if |toks| > 0 {
      assert forall j | 1 <= j < |toks| :: toks[j] == toks[1..][j - 1];
      NoSlack(toks[1..]);
    }
  }

  // ---------------------------------------------------------------- struct types and records

  /**
   * A struct type from a pack format and member names, sized by the layout
   * engine with each count after a byte-order mark counted.
   */
  function FromPackFormat(fmt: string, names: seq<string>): (r: Result<StructType, Error>)
    ensures r.Ok? ==> r.value.format == fmt && r.value.members == names
  {
    var layout :- ParseItemLayout(fmt);
    Ok(StructType(fmt, names, layout.fields, layout.total))
  }

  /** A record: a struct type and one value per member, in member order. */
  datatype Record = Record(t: StructType, values: seq<Value>)

  function Nils(n: nat): (r: seq<Value>)
    ensures |r| == n && forall k | 0 <= k < n :: r[k] == Nil
  {
    seq(n, _ => Nil)
  }

  /** Struct#initialize with positional values: at most one per member, the rest nil. */
  function NewPositional(t: StructType, args: seq<Value>): (r: Result<Record, Error>)
    ensures r.Ok? <==> |args| <= |t.members|
    ensures r.Err? ==> r.error == StructSizeDiffers
    ensures r.Ok? ==> && r.value.t == t
                      && |r.value.values| == |t.members|
                      && r.value.values[..|args|] == args
                      && forall k | |args| <= k < |t.members| :: r.value.values[k] == Nil
  {
    if |args| > |t.members| then Err(StructSizeDiffers)
    else
      var vs := args + Nils(|t.members| - |args|);
      assert vs[..|args|] == args;
      Ok(Record(t, vs))
  }

  /** The position of the first member called `name`. */
  function MemberIndex(members: seq<string>, name: string): (r: Option<nat>)
    ensures r.Some? ==> r.value < |members| && members[r.value] == name
    ensures r.None? <==> name !in members
  {
    if |members| == 0 then None
    else if members[0] == name then Some(0)
    else
      match MemberIndex(members[1..], name)
      case None => None
      case Some(i) => Some(i + 1)
  }

  /** Assigning the keyword pairs one after another, each through the member's setter. */
  function Assign(rec: Record, pairs: seq<(string, Value)>): (r: Result<Record, Error>)
    requires |rec.values| == |rec.t.members|
    ensures r.Ok? ==> r.value.t == rec.t && |r.value.values| == |rec.values|
    decreases |pairs|
  {
    if |pairs| == 0 then Ok(rec)
    else
      var before :- Assign(rec, pairs[..|pairs| - 1]);
      var (name, v) := pairs[|pairs| - 1];
      match MemberIndex(rec.t.members, name)
      case None => Err(UnknownMember(name))
      case Some(i) => Ok(Record(rec.t, before.values[i := v]))
  }

  /** The arguments of a construction: one Hash of member values, or positional values. */
  datatype Args = Keywords(pairs: seq<(string, Value)>) | Positional(vals: seq<Value>)

  /**
   * Struct#initialize as IOStruct overrides it: a single Hash argument sets
   * the members it names, starting from all nil; anything else is positional.
   */
  function Initialize(t: StructType, args: Args): Result<Record, Error> {
    match args
    case Keywords(pairs) => Assign(Record(t, Nils(|t.members|)), pairs)
    case Positional(vals) => NewPositional(t, vals)
  }

  /** Member names are distinct, as Ruby's Struct requires. */
  predicate DistinctMembers(t: StructType) {
    forall i, j | 0 <= i < j < |t.members| :: t.members[i] != t.members[j]
  }

  /** The value the last pair naming `name` gives, if any does. */
  function LastGiven(pairs: seq<(string, Value)>, name: string): Option<Value> {
    if |pairs| == 0 then None
    else if pairs[|pairs| - 1].0 == name then Some(pairs[|pairs| - 1].1)
    else LastGiven(pairs[..|pairs| - 1], name)
  }

  /**
   * Keyword construction succeeds exactly when every key is a member; it
   * gives each member the last value a pair names for it and leaves every
   * other member as it was.
   */
  lemma {:induction false} AssignSpec(rec: Record, pairs: seq<(string, Value)>)
    requires |rec.values| == |rec.t.members| && DistinctMembers(rec.t)
    ensures var r := Assign(rec, pairs);
            && (r.Ok? <==> forall p | 0 <= p < |pairs| :: pairs[p].0 in rec.t.members)
            && (r.Ok? ==> forall k | 0 <= k < |rec.values| ::
                  r.value.values[k] == LastGiven(pairs, rec.t.members[k]).GetOr(rec.values[k]))
  {
    if |pairs| > 0 {
      var init := pairs[..|pairs| - 1];
      AssignSpec(rec, init);
      assert forall p | 0 <= p < |init| :: init[p] == pairs[p];
      var (name, v) := pairs[|pairs| - 1];
      if Assign(rec, init).Ok? && name in rec.t.members {
        var i := MemberIndex(rec.t.members, name).value;
        forall k | 0 <= k < |rec.values| && k != i
          ensures rec.t.members[k] != name
        {
        }
      }
    }
  }

  /** Hash-style construction sets exactly the named members and leaves the others nil. */
  lemma KeywordInit(t: StructType, pairs: seq<(string, Value)>)
    requires DistinctMembers(t)
    ensures var r := Initialize(t, Keywords(pairs));
            && (r.Ok? <==> forall p | 0 <= p < |pairs| :: pairs[p].0 in t.members)
            && (r.Ok? ==> |r.value.values| == |t.members|)
            && (r.Ok? ==> forall k | 0 <= k < |t.members| ::
                  r.value.values[k] == LastGiven(pairs, t.members[k]).GetOr(Nil))
  {
    AssignSpec(Record(t, Nils(|t.members|)), pairs);
  }

  // ---------------------------------------------------------------- read and pack

  /** Where a record is read from: a reader with a position, a string, or neither. */
  datatype Source = Reader(bytes: seq<byte>, pos: nat) | Text(bytes: seq<byte>) | Unreadable

  /** A read record, whether fewer bytes than wanted were available, and the source afterwards. */
  datatype ReadOutcome = ReadOutcome(rec: Record, short: bool, after: Source)

  /** `read(n)` on a reader: up to n bytes from the position on, and the position after them. */
  function Take(bs: seq<byte>, pos: nat, n: nat): (r: seq<byte>)
    ensures |r| == if pos >= |bs| then 0 else Min(n, |bs| - pos)
    ensures pos < |bs| ==> r == bs[pos..pos + |r|]
  {
    if pos >= |bs| then [] else bs[pos..pos + Min(n, |bs| - pos)]
  }

  /** The bytes a read sees: `size` bytes (SIZE by default) from a reader, a string whole. */
  function ReadData(src: Source, want: nat): seq<byte>
    requires !src.Unreadable?
  {
    match src
    case Reader(bs, pos) => Take(bs, pos, want)
    case Text(bs) => bs
  }

  /**
   * ClassMethods#read: fetch the data, unpack it with the struct's format
   * and build a record from the values positionally. Fewer bytes than wanted
   * only raise the `short` flag (the library warns on stderr).
   */
  function Read(t: StructType, src: Source, size: Option<nat>): (r: Result<ReadOutcome, Error>)
    ensures src.Unreadable? ==> r == Err(UnsupportedSource)
    ensures r.Ok? ==> r.value.rec.t == t && |r.value.rec.values| == |t.members|
    ensures r.Ok? ==> (r.value.short <==> |ReadData(src, size.GetOr(t.size))| < size.GetOr(t.size))
    ensures r.Ok? && src.Reader? ==>
              r.value.after == Reader(src.bytes, src.pos + |ReadData(src, size.GetOr(t.size))|)
    ensures r.Ok? && src.Text? ==> r.value.after == src
  {
    if src.Unreadable? then Err(UnsupportedSource)
    else
      var want := size.GetOr(t.size);
      var data := ReadData(src, want);
      match UnpackAll(Scan(t.format), data)
      case Err(e) => Err(e)
      case Ok(vals) =>
        match NewPositional(t, vals)
        case Err(e) => Err(e)
        case Ok(rec) => Ok(ReadOutcome(rec, |data| < want, After(src, |data|)))
  }

  /** The source after a read of `n` bytes: a reader's position moves, a string stays. */
  function After(src: Source, n: nat): Source {
    if src.Reader? then Reader(src.bytes, src.pos + n) else src
  }

  /** InstanceMethods#pack: the member values packed with the struct's format. */
  function Pack(rec: Record): Result<seq<byte>, Error> {
    PackAll(Scan(rec.t.format), rec.values)
  }

  /** Every value list a format unpacks has one value per item: ArityAll of them. */
  lemma {:induction false} UnpackArity(toks: seq<Token>, data: seq<byte>)
    requires AllKnown(toks) && UnpackAll(toks, data).Ok?
    ensures |UnpackAll(toks, data).value| == ArityAll(toks)
  {
    if |toks| > 0 {
      AllKnownCons(toks);
      var one := UnpackOne(TokenDirective(toks[0]), ItemCount(toks[0]), data).value;
      UnpackArity(toks[1..], data[one.used..]);
    }
  }

  /** The layout of a struct type built from a pack format. */
  lemma FromPackFormatSpec(fmt: string, names: seq<string>)
    ensures var r := FromPackFormat(fmt, names);
            && (r.Ok? <==> AllKnown(Scan(fmt)))
            && (r.Ok? ==> && AllKnown(Normalize(Scan(fmt)))
                          && r.value.size == TotalAdvance(Normalize(Scan(fmt)))
                          && r.value.fields == EmitAll(Normalize(Scan(fmt)), 0))
            && (r.Err? ==> r.error == UnknownFieldType(Scan(fmt)[FirstUnknown(Scan(fmt))].letter))
  {
    NormalizeKnown(Scan(fmt));
    ParseTokensSpec(Normalize(Scan(fmt)), 0);
  }

  /**
   * Reading, packing and reading again gives the same record, for any data
   * holding at least the bytes the format reads: pack inverts read on values.
   */
  lemma ReadPackRead(t: StructType, data: seq<byte>)
    requires AllKnown(Scan(t.format)) && ArityAll(Scan(t.format)) <= |t.members|
    requires |data| >= NeedAll(Scan(t.format))
    ensures var r := Read(t, Text(data), None);
            && r.Ok?
            && var p := Pack(r.value.rec);
            && p.Ok? && |p.value| == NeedAll(Scan(t.format))
            && Read(t, Text(p.value), None).Ok?
            && Read(t, Text(p.value), None).value.rec == r.value.rec
  {
    var toks := Scan(t.format);
    var pad := Nils(|t.members| - ArityAll(toks));
    UnpackPackAll(toks, data, pad);
    var vals := UnpackAll(toks, data).value;
    UnpackArity(toks, data);
    ReadText(t, data, vals);
    var rec := Record(t, vals + pad);
    assert Pack(rec) == PackAll(toks, vals + pad);
    var p := PackAll(toks, vals + pad).value;
    ReadText(t, p, vals);
    ReadPackGlue(Read(t, Text(data), None), Pack(rec), Read(t, Text(p), None), rec, NeedAll(toks));
  }

  lemma ReadPackGlue(r: Result<ReadOutcome, Error>, p: Result<seq<byte>, Error>, r2: Result<ReadOutcome, Error>, rec: Record, n: nat)
    requires r.Ok? && r.value.rec == rec
    requires p.Ok? && |p.value| == n
    requires r2.Ok? && r2.value.rec == rec
    ensures r.Ok? && p.Ok? && |p.value| == n && r2.Ok? && r2.value.rec == r.value.rec
  {
  }

  /** Reading a string builds the record from the unpacked values, padded with nil. */
  lemma ReadText(t: StructType, data: seq<byte>, vals: seq<Value>)
    requires UnpackAll(Scan(t.format), data) == Ok(vals) && |vals| <= |t.members|
    ensures Read(t, Text(data), None).Ok?
    ensures Read(t, Text(data), None).value.rec == Record(t, vals + Nils(|t.members| - |vals|))
  {
  }

  /**
   * For a lossless format whose values fill the members, packing a record
   * read from exactly SIZE bytes gives back those bytes, and the read is not short.
   */
  lemma PackReadExact(fmt: string, names: seq<string>, data: seq<byte>)
    requires AllKnown(Scan(fmt)) && ArityAll(Scan(fmt)) <= |names| && AllLossless(Scan(fmt))
    requires FromPackFormat(fmt, names).Ok? && |data| == FromPackFormat(fmt, names).value.size
    ensures var t := FromPackFormat(fmt, names).value;
            var r := Read(t, Text(data), None);
            && r.Ok? && !r.value.short
            && Pack(r.value.rec) == Ok(data)
  {
    FromPackFormatSpec(fmt, names);
    var t := FromPackFormat(fmt, names).value;
    var toks := Scan(fmt);
    LosslessEvenHex(toks);
    NeedAllIsTotalAdvance(toks);
    var pad := Nils(|names| - ArityAll(toks));
    PackUnpackAllExact(toks, data, pad);
    UnpackArity(toks, data);
    assert data[..NeedAll(toks)] == data;
    var vals := UnpackAll(toks, data).value;
    ReadText(t, data, vals);
    var r := Read(t, Text(data), None);
    assert r.value.rec == Record(t, vals + pad);
    assert Pack(Record(t, vals + pad)) == Ok(data);
  }

  lemma LosslessEvenHex(toks: seq<Token>)
    requires AllKnown(toks) && AllLossless(toks)
    ensures forall i | 0 <= i < |toks| :: IsHexLetter(toks[i].letter) ==> ItemCount(toks[i]) % 2 == 0
  {
    forall i | 0 <= i < |toks| && IsHexLetter(toks[i].letter)
      ensures ItemCount(toks[i]) % 2 == 0
    {
      assert Lossless(TokenDirective(toks[i]), ItemCount(toks[i]));
    }
  }

  /**
   * Short input is tolerated: without skips, a format whose values fit the
   * members reads a record from any reader or string, however few bytes it has.
   */
  lemma ReadTolerant(t: StructType, src: Source, size: Option<nat>)
    requires !src.Unreadable?
    requires AllKnown(Scan(t.format)) && ArityAll(Scan(t.format)) <= |t.members|
    requires forall i | 0 <= i < |Scan(t.format)| :: Scan(t.format)[i].letter != 'x'
    ensures Read(t, src, size).Ok?
  {
    var data := ReadData(src, size.GetOr(t.size));
    UnpackAllTotal(Scan(t.format), data);
  }

  /**
   * A reader with enough bytes left hands over exactly `size` of them (SIZE
   * by default), the read is not short, and its position moves by that much.
   */
  lemma ReadFromReader(t: StructType, bs: seq<byte>, pos: nat, size: Option<nat>)
    requires pos + size.GetOr(t.size) <= |bs|
    requires Read(t, Reader(bs, pos), size).Ok?
    ensures var want := size.GetOr(t.size);
            var o := Read(t, Reader(bs, pos), size).value;
            && !o.short
            && o.after == Reader(bs, pos + want)
            && ReadData(Reader(bs, pos), want) == bs[pos..pos + want]
  {
    var want := size.GetOr(t.size);
    if want == 0 {
      assert ReadData(Reader(bs, pos), want) == [];
    }
  }

  // ---------------------------------------------------------------- emptiness

  /**
   * One member value as `empty?` sees it: equal to 0 (an integer zero or a
   * float zero of either sign), nil, or a string with nothing but NULs.
   */
  predicate IsEmptyValue(v: Value) {
    match v
    case Nil => true
    case Int(i) => i == 0
    case Float(w, bits) => w > 0 && (bits == 0 || bits == Half(w))
    case Str(bs) => forall k | 0 <= k < |bs| :: bs[k] == NUL
  }

  predicate AllEmpty(vs: seq<Value>) {
    forall k | 0 <= k < |vs| :: IsEmptyValue(vs[k])
  }

  /** InstanceMethods#empty?: every member value is empty. */
  predicate IsEmpty(rec: Record) {
    AllEmpty(rec.values)
  }

  predicate AllZero(bs: seq<byte>) {
    forall k | 0 <= k < |bs| :: bs[k] == 0
  }

  /** Letters whose values are empty exactly when their bytes are zero: integers, `a` and `Z`. */
  predicate ZeroTestable(t: Token) {
    Known(t) && (Lookup(t.letter).value.klass == Some(IntegerClass) || t.letter == 'a' || t.letter == 'Z')
  }

  lemma AllEmptyConcat(a: seq<Value>, b: seq<Value>)
    ensures AllEmpty(a + b) <==> AllEmpty(a) && AllEmpty(b)
  {
    var ab := a + b;
    if AllEmpty(ab) {
      forall k | 0 <= k < |a| ensures IsEmptyValue(a[k]) {
        assert ab[k] == a[k];
      }
      forall k | 0 <= k < |b| ensures IsEmptyValue(b[k]) {
        assert ab[|a| + k] == b[k];
      }
    }
    if AllEmpty(a) && AllEmpty(b) {
      forall k | 0 <= k < |ab| ensures IsEmptyValue(ab[k]) {
        if k < |a| {
          assert ab[k] == a[k];
        } else {
          assert ab[k] == b[k - |a|];
        }
      }
    }
  }

  /** The first m bytes are zero exactly when the first k are and the next m - k are. */
  lemma AllZeroSplit(s: seq<byte>, k: nat, m: nat)
    requires k <= m <= |s|
    ensures AllZero(s[..m]) <==> AllZero(s[..k]) && AllZero(s[k..][..m - k])
  {
    assert forall j | 0 <= j < k :: s[..k][j] == s[..m][j];
    assert forall j | k <= j < m :: s[..m][j] == s[k..][..m - k][j - k];
  }

  /** An integer item decodes to 0 exactly when all its bytes are zero. */
  lemma DecodeZero(d: Directive, bs: seq<byte>)
    requires (d.UnsignedInt? || d.SignedInt?) && |bs| == d.width > 0
    ensures IsEmptyValue(DecodeScalar(d, bs)) <==> AllZero(bs)
  {
    if d.order == LittleOrder {
      LittleEndianZero(bs);
    } else {
      BigEndianZero(bs);
    }
  }

  /** `n` integer items are all 0 exactly when their n * width bytes are zero. */
  lemma {:induction false} ScalarsZero(d: Directive, n: nat, data: seq<byte>)
    requires (d.UnsignedInt? || d.SignedInt?) && d.width > 0
    requires |data| >= n * d.width
    ensures AllEmpty(UnpackScalars(d, n, data).values) <==> AllZero(data[..n * d.width])
  {
    if n > 0 {
      var w := d.width;
      assert n * w == w + (n - 1) * w;
      var head := DecodeScalar(d, data[..w]);
      var tail := UnpackScalars(d, n - 1, data[w..]).values;
      UnpackScalarsCons(d, n, data, []);
      assert UnpackScalars(d, n, data).values == [head] + tail;
      ScalarsZero(d, n - 1, data[w..]);
      DecodeZero(d, data[..w]);
      AllEmptyConcat([head], tail);
      AllZeroSplit(data, w, n * w);
    }
  }

  /** A string item is all NULs exactly when its bytes are: `a` keeps them, `Z` only drops NULs. */
  lemma TextZero(d: Directive, bs: seq<byte>)
    requires d.RawString? || d.NulPadded?
    ensures IsEmptyValue(Str(TrimEnd(bs, Stripped(d)))) <==> AllZero(bs)
  {
    var r := TrimEnd(bs, Stripped(d));
    if AllZero(bs) {
      assert forall k | 0 <= k < |r| :: r[k] == bs[k];
    }
  }

  /** One directive's values are empty exactly when the bytes it reads are zero. */
  lemma OneZero(t: Token, data: seq<byte>)
    requires ZeroTestable(t)
    requires |data| >= Need(TokenDirective(t), ItemCount(t))
    ensures var d := TokenDirective(t);
            AllEmpty(UnpackOne(d, ItemCount(t), data).value.values) <==> AllZero(data[..Need(d, ItemCount(t))])
  {
    var d := TokenDirective(t);
    var n := ItemCount(t);
    if d.IsScalar() {
      ScalarsZero(d, n, data);
    } else {
      assert d.RawString? || d.NulPadded?;
      assert Min(n, |data|) == n && Need(d, n) == n;
      TextZero(d, data[..n]);
      var v := Str(TrimEnd(data[..n], Stripped(d)));
      assert UnpackOne(d, n, data).value.values == [v];
      assert AllEmpty([v]) <==> IsEmptyValue([v][0]);
    }
  }

  /**
   * For formats of integers, `a` and `Z`, the values read from enough data
   * are all empty exactly when the bytes read are all zero.
   */
  lemma {:induction false} UnpackZero(toks: seq<Token>, data: seq<byte>)
    requires forall i | 0 <= i < |toks| :: ZeroTestable(toks[i])
    requires AllKnown(toks) && |data| >= NeedAll(toks)
    ensures UnpackAll(toks, data).Ok?
    ensures AllEmpty(UnpackAll(toks, data).value) <==> AllZero(data[..NeedAll(toks)])
  {
    if |toks| > 0 {
      AllKnownCons(toks);
      NeedAllCons(toks);
      var need := Need(TokenDirective(toks[0]), ItemCount(toks[0]));
      assert forall j | 1 <= j < |toks| :: toks[j] == toks[1..][j - 1];
      UnpackZero(toks[1..], data[need..]);
      UnpackZeroStep(toks, data);
    }
  }

  /** The step of UnpackZero: the first token's values, then the rest's by hypothesis. */
  lemma UnpackZeroStep(toks: seq<Token>, data: seq<byte>)
    requires |toks| > 0 && ZeroTestable(toks[0])
    requires AllKnown(toks) && |data| >= NeedAll(toks)
    requires var need := Need(TokenDirective(toks[0]), ItemCount(toks[0]));
             && |data| >= need
             && UnpackAll(toks[1..], data[need..]).Ok?
             && (AllEmpty(UnpackAll(toks[1..], data[need..]).value) <==> AllZero(data[need..][..NeedAll(toks[1..])]))
    ensures UnpackAll(toks, data).Ok?
    ensures AllEmpty(UnpackAll(toks, data).value) <==> AllZero(data[..NeedAll(toks)])
  {
    AllKnownCons(toks);
    var t := toks[0];
    var d, n := TokenDirective(t), ItemCount(t);
    var need := Need(d, n);
    NeedAllCons(toks);
    OneZero(t, data);
    var one := UnpackOne(d, n, data).value;
    var rest := UnpackAll(toks[1..], data[need..]).value;
    UnpackAllCons(toks, data, one, rest);
    AllEmptyConcat(one.values, rest);
    var m := NeedAll(toks);
    assert m - need == NeedAll(toks[1..]);
    AllZeroSplit(data, need, m);
    IffAnd(AllEmpty(one.values + rest), AllEmpty(one.values), AllEmpty(rest),
           AllZero(data[..m]), AllZero(data[..need]), AllZero(data[need..][..m - need]));
  }

  /** Propositional glue: two conjunctions of equivalent parts are equivalent. */
  lemma IffAnd(p: bool, p1: bool, p2: bool, q: bool, q1: bool, q2: bool)
    requires p == (p1 && p2) && q == (q1 && q2) && p1 == q1 && p2 == q2
    ensures p == q
  {
  }

  /**
   * `empty?` on a record read from a string: for formats of integers, `a`
   * and `Z`, it holds exactly when every byte the format reads is zero.
   */
  lemma EmptyIffZero(t: StructType, data: seq<byte>)
    requires forall i | 0 <= i < |Scan(t.format)| :: ZeroTestable(Scan(t.format)[i])
    requires AllKnown(Scan(t.format)) && ArityAll(Scan(t.format)) <= |t.members|
    requires |data| >= NeedAll(Scan(t.format))
    ensures Read(t, Text(data), None).Ok?
    ensures IsEmpty(Read(t, Text(data), None).value.rec) <==> AllZero(data[..NeedAll(Scan(t.format))])
  {
    var toks := Scan(t.format);
    UnpackZero(toks, data);
    var vals := UnpackAll(toks, data).value;
    UnpackArity(toks, data);
    ReadText(t, data, vals);
    AllEmptyConcat(vals, Nils(|t.members| - |vals|));
  }

  /** A record built with no arguments is empty. */
  lemma FreshRecordEmpty(t: StructType)
    ensures Initialize(t, Positional([])).Ok?
    ensures IsEmpty(Initialize(t, Positional([])).value)
  {
  }

  // ---------------------------------------------------------------- structs from a hash format

  /** Items add up over concatenation. */
  lemma {:induction false} ArityAllConcat(a: seq<Token>, b: seq<Token>)
    requires AllKnown(a) && AllKnown(b)
    ensures AllKnown(a + b)
    ensures ArityAll(a + b) == ArityAll(a) + ArityAll(b)
  {
    AllKnownConcat(a, b);
    if |a| > 0 {
      AllKnownCons(a);
      assert (a + b)[1..] == a[1..] + b;
      ArityAllConcat(a[1..], b);
    } else {
      assert a + b == b;
    }
  }

  /** A token that is not a skip and reads one item unpacks to one value. */
  lemma ValueTokenArity(c: Token)
    requires Known(c) && c.letter != 'x'
    requires ItemCount(c) == 1 || !TokenDirective(c).IsScalar()
    ensures AllKnown([c]) && ArityAll([c]) == 1
  {
    assert [c][0] == c;
  }

  /** A skip token unpacks to no value. */
  lemma GapArity(g: Token)
    requires Known(g) && g.letter == 'x'
    ensures AllKnown([g]) && ArityAll([g]) == 0
  {
    assert [g][0] == g;
  }

  /**
   * No hex letter and no byte-order mark, so every piece reads exactly the
   * bytes the layout advances over.
   */
  predicate PlainPieces(toks: seq<Token>) {
    forall i | 0 <= i < |toks| :: !IsHexLetter(toks[i].letter) && toks[i].mark.None?
  }

  lemma PlainPiecesConcat(a: seq<Token>, b: seq<Token>)
    requires PlainPieces(a) && PlainPieces(b)
    ensures PlainPieces(a + b)
  {
    assert forall i | 0 <= i < |a + b| :: (a + b)[i] == if i < |a| then a[i] else b[i - |a|];
  }

  /** An optional skip followed by one value piece unpacks to exactly one value. */
  lemma PiecesArity(toks: seq<Token>)
    requires 1 <= |toks| <= 2 && (|toks| == 2 ==> toks[0].letter == 'x')
    requires forall i | 0 <= i < |toks| :: toks[i].mark.None?
    requires var c := toks[|toks| - 1];
             && c.letter != 'x'
             && (c.letter == 'a' || (|c.digits| == 0 && c.letter in HashFmt.AliasedCodes))
    ensures AllKnown(toks) && ArityAll(toks) == 1 && PlainPieces(toks)
  {
    var c := toks[|toks| - 1];
    if c.letter != 'a' {
      HashFmt.AliasedCodeSpec(c.letter);
    }
    ValueTokenArity(c);
    if |toks| == 2 {
      GapArity(toks[0]);
      assert toks == [toks[0]] + [c];
      ArityAllConcat([toks[0]], [c]);
    } else {
      assert toks == [c];
    }
  }

  /** The format pieces one field contributes unpack to exactly one value. */
  lemma FieldArity(fname: string, d: HashFmt.Desc, at: nat, structName: Option<string>)
    requires HashFmt.ParseField(fname, d, at, structName).Ok?
    ensures var step := HashFmt.ParseField(fname, d, at, structName).value;
            AllKnown(step.toks) && ArityAll(step.toks) == 1 && PlainPieces(step.toks)
  {
    HashFmt.StepTokens(fname, d, at, structName);
    PiecesArity(HashFmt.ParseField(fname, d, at, structName).value.toks);
  }

  /** A field walk's format pieces unpack to one value per field. */
  lemma {:induction false} FieldsArity(fs: seq<(string, HashFmt.Desc)>, at: nat, structName: Option<string>)
    requires HashFmt.ParseFields(fs, at, structName).Ok?
    ensures var acc := HashFmt.ParseFields(fs, at, structName).value;
            AllKnown(acc.toks) && ArityAll(acc.toks) == |fs| && PlainPieces(acc.toks)
  {
    if |fs| > 0 {
      var step := HashFmt.ParseField(fs[0].0, fs[0].1, at, structName).value;
      var rest := HashFmt.ParseFields(fs[1..], End(step.info), structName).value;
      FieldArity(fs[0].0, fs[0].1, at, structName);
      FieldsArity(fs[1..], End(step.info), structName);
      ArityAllConcat(step.toks, rest.toks);
      PlainPiecesConcat(step.toks, rest.toks);
    }
  }

  /**
   * A struct type built from a hash format reads one value per member: its
   * format's items number exactly its members.
   */
  lemma HashFormatArity(fs: seq<(string, HashFmt.Desc)>, size: Option<nat>, name: Option<string>)
    requires HashFmt.ParseHashFormat(fs, size, name).Ok?
    ensures var st := HashFmt.ParseHashFormat(fs, size, name).value;
            AllKnown(Scan(st.format)) && ArityAll(Scan(st.format)) == |st.members| && PlainPieces(Scan(st.format))
  {
    var acc := HashFmt.ParseFields(fs, 0, name).value;
    HashFmt.ParseFieldsLayout(fs, 0, name);
    ScanRenderAll(acc.toks, "");
    FieldsArity(fs, 0, name);
  }

  /**
   * When a format's items number exactly the members, reading fills every
   * member from the data, and packing that record then reading it back gives
   * it again, with nothing short.
   */
  lemma FullReadPackRead(t: StructType, data: seq<byte>)
    requires AllKnown(Scan(t.format)) && ArityAll(Scan(t.format)) == |t.members|
    requires |data| >= NeedAll(Scan(t.format))
    ensures var r := Read(t, Text(data), None);
            && r.Ok?
            && r.value.rec.values == UnpackAll(Scan(t.format), data).value
            && Pack(r.value.rec).Ok?
            && Read(t, Text(Pack(r.value.rec).value), None).Ok?
            && Read(t, Text(Pack(r.value.rec).value), None).value.rec == r.value.rec
  {
    var toks := Scan(t.format);
    ReadPackRead(t, data);
    UnpackArity(toks, data);
    var vals := UnpackAll(toks, data).value;
    ReadText(t, data, vals);
    assert vals + Nils(0) == vals;
  }

  /** A format that lays out within `size` bytes reads no more than that. */
  lemma NeedWithin(fmt: string, size: nat)
    requires ParsePackFormat(fmt).Ok? && ParsePackFormat(fmt).value.total <= size
    requires PlainPieces(Scan(fmt))
    ensures AllKnown(Scan(fmt)) && NeedAll(Scan(fmt)) <= size
  {
    ParseTokensSpec(Scan(fmt), 0);
    NeedAllIsTotalAdvance(Scan(fmt));
    NormalizeUnmarked(Scan(fmt));
  }

  /** A struct type built from a hash format needs no more data than its size. */
  lemma HashFormatNeed(fs: seq<(string, HashFmt.Desc)>, size: Option<nat>, name: Option<string>)
    requires HashFmt.ParseHashFormat(fs, size, name).Ok?
    ensures var st := HashFmt.ParseHashFormat(fs, size, name).value;
            AllKnown(Scan(st.format)) && NeedAll(Scan(st.format)) <= st.size
  {
    var st := HashFmt.ParseHashFormat(fs, size, name).value;
    HashFmt.HashFormatLayout(fs, size, name);
    HashFormatArity(fs, size, name);
    NeedWithin(st.format, st.size);
  }

  /**
   * Reading a struct type built from a hash format from at least SIZE bytes
   * fills every member, and pack inverts that read.
   */
  lemma HashReadPackRead(fs: seq<(string, HashFmt.Desc)>, size: Option<nat>, name: Option<string>, data: seq<byte>)
    requires HashFmt.ParseHashFormat(fs, size, name).Ok?
    requires |data| >= HashFmt.ParseHashFormat(fs, size, name).value.size
    ensures var st := HashFmt.ParseHashFormat(fs, size, name).value;
            var r := Read(st, Text(data), None);
            && r.Ok?
            && r.value.rec.values == UnpackAll(Scan(st.format), data).value
            && Pack(r.value.rec).Ok?
            && Read(st, Text(Pack(r.value.rec).value), None).Ok?
            && Read(st, Text(Pack(r.value.rec).value), None).value.rec == r.value.rec
  {
    HashFormatArity(fs, size, name);
    HashFormatNeed(fs, size, name);
    FullReadPackRead(HashFmt.ParseHashFormat(fs, size, name).value, data);
  }
}

=== FILE: layout.dfy ===
/** Field layout records and the struct type they make up. */
module Layout {

  import opened Results
  import opened FmtSpec

  /** A field's class: a FMTSPEC value class, or the struct type of a nested field. */
  datatype Klass = Scalar(cls: ValueClass) | Nested(t: StructType)

  /** How a field's raw bytes are re-read: not at all, as `count` items of a letter, or as a nested struct. */
  datatype ElemFmt = NoFmt | Elements(letter: char, count: nat) | StructFmt(t: StructType)

  /** FieldInfo: class, byte size, byte offset, element count and element format. */
  datatype FieldInfo = FieldInfo(klass: Klass, size: nat, offset: nat, count: Option<nat>, fmt: ElemFmt)

  /** A record type: its pack format, member names, field layout and byte size. */
  datatype StructType = StructType(format: string, members: seq<string>, fields: seq<FieldInfo>, size: nat)

  function End(f: FieldInfo): nat {
    f.offset + f.size
  }

  /** The fields lie inside [lo, hi), in ascending order, and no two of them share a byte. */
  predicate Tiled(fs: seq<FieldInfo>, lo: nat, hi: nat) {
    && (forall i | 0 <= i < |fs| :: lo <= fs[i].offset && End(fs[i]) <= hi)
    && (forall i, j | 0 <= i < j < |fs| :: End(fs[i]) <= fs[j].offset)
  }

  /** Byte `b` lies inside the field. */
  predicate Covers(f: FieldInfo, b: int) {
    f.offset <= b < End(f)
  }

  /** A tiled layout has non-decreasing offsets and pairwise disjoint byte ranges. */
  lemma TiledDisjoint(fs: seq<FieldInfo>, lo: nat, hi: nat)
    requires Tiled(fs, lo, hi)
    ensures forall i, j | 0 <= i < j < |fs| :: fs[i].offset <= fs[j].offset
    ensures forall i, j, b | 0 <= i < |fs| && 0 <= j < |fs| && i != j ::
              !(Covers(fs[i], b) && Covers(fs[j], b))
  {
  }

  lemma TiledConcat(a: seq<FieldInfo>, b: seq<FieldInfo>, lo: nat, mid: nat, hi: nat)
    requires lo <= mid <= hi && Tiled(a, lo, mid) && Tiled(b, mid, hi)
    ensures Tiled(a + b, lo, hi)
  {
    var ab := a + b;
    assert forall i | 0 <= i < |ab| :: ab[i] == if i < |a| then a[i] else b[i - |a|];
    forall i, j | 0 <= i < j < |ab|
      ensures End(ab[i]) <= ab[j].offset
    {
      if j < |a| {
        assert ab[i] == a[i] && ab[j] == a[j];
      } else if i < |a| {
        assert ab[i] == a[i] && ab[j] == b[j - |a|];
      } else {
        assert ab[i] == b[i - |a|] && ab[j] == b[j - |a|];
      }
    }
  }
}

=== FILE: pack_fmt.dfy ===
/**
 * The pack-format layout engine: a format string becomes a list of
 * FieldInfo records with byte offsets, plus the total byte size.
 */
module PackFmt {

  import opened Results
  import opened Errors
  import opened FmtSpec
  import opened Tokenizer
  import opened Layout

  datatype PackLayout = PackLayout(fields: seq<FieldInfo>, total: nat)

  /** Letters whose count is a byte extent: strings and skip. */
  predicate IsExtent(c: char) {
    c == 'A' || c == 'a' || c == 'x' || c == 'Z'
  }

  /** Letters whose count is a number of hex digits. */
  predicate IsHexLetter(c: char) {
    c == 'H' || c == 'h'
  }

  predicate Known(t: Token) {
    Lookup(t.letter).Some?
  }

  predicate AllKnown(toks: seq<Token>) {
    forall i {:trigger Known(toks[i])} | 0 <= i < |toks| :: Known(toks[i])
  }

  /** How far one token moves the cursor. */
  function Advance(t: Token): nat
    requires Known(t)
  {
    var n := Count(t);
    if IsExtent(t.letter) then n
    else if IsHexLetter(t.letter) then n / 2
    else n * Lookup(t.letter).value.width
  }

  /** The sum of all tokens' advances. */
  function TotalAdvance(toks: seq<Token>): nat
    requires AllKnown(toks)
  {
    if |toks| == 0 then 0 else Advance(toks[0]) + TotalAdvance(toks[1..])
  }

  /** `n` consecutive scalar fields of width `w` starting at `at`. */
  function Repeat(cls: ValueClass, w: nat, n: nat, at: nat): (fs: seq<FieldInfo>)
    ensures |fs| == n
  {
    seq(n, k requires 0 <= k => FieldInfo(Scalar(cls), w, at + k * w, None, NoFmt))
  }

  /** Repeated scalars sit back to back: field k covers [at + k*w, at + (k+1)*w). */
  lemma RepeatTiled(cls: ValueClass, w: nat, n: nat, at: nat)
    ensures Tiled(Repeat(cls, w, n, at), at, at + n * w)
  {
    var fs := Repeat(cls, w, n, at);
    forall i, j | 0 <= i < j < n
      ensures End(fs[i]) <= fs[j].offset
    {
      StepLe(w, i, j);
    }
    forall k | 0 <= k < n
      ensures End(fs[k]) <= at + n * w
    {
      StepLe(w, k, n);
    }
  }

  lemma {:induction false} StepLe(w: nat, a: nat, b: nat)
    requires a < b
    ensures a * w + w <= b * w
  {
    if a + 1 < b {
      StepLe(w, a, b - 1);
      assert (b - 1) * w + w == b * w;
    } else {
      assert (a + 1) * w == a * w + w;
    }
  }

  /** The fields one token emits when the cursor is at `at`. */
  function Emit(t: Token, at: nat): (fs: seq<FieldInfo>)
    requires Known(t)
  {
    var spec := Lookup(t.letter).value;
    var n := Count(t);
    if IsExtent(t.letter) then
      if spec.klass.Some? then [FieldInfo(Scalar(spec.klass.value), spec.width * n, at, None, NoFmt)] else []
    else if IsHexLetter(t.letter) then
      [FieldInfo(Scalar(spec.klass.value), spec.width * n / 2, at, None, NoFmt)]
    else
      assert spec.klass.Some?;
      Repeat(spec.klass.value, spec.width, n, at)
  }

  /** A token's fields lie inside the bytes it advances over. */
  lemma EmitTiled(t: Token, at: nat)
    requires Known(t)
    ensures Tiled(Emit(t, at), at, at + Advance(t))
  {
    if !IsExtent(t.letter) && !IsHexLetter(t.letter) {
      var spec := Lookup(t.letter).value;
      RepeatTiled(spec.klass.value, spec.width, Count(t), at);
    }
  }

  /** Index of the first token with an unknown letter, or |toks| when every letter is known. */
  function FirstUnknown(toks: seq<Token>): (i: nat)
    ensures i <= |toks|
    ensures forall j | 0 <= j < i :: Known(toks[j])
    ensures i < |toks| ==> !Known(toks[i])
  {
    if |toks| == 0 || !Known(toks[0]) then 0
    else
      var i := 1 + FirstUnknown(toks[1..]);
      assert forall j | 1 <= j < |toks| :: toks[j] == toks[1..][j - 1];
      i
  }

  lemma AllKnownCons(toks: seq<Token>)
    requires |toks| > 0
    ensures AllKnown(toks) <==> Known(toks[0]) && AllKnown(toks[1..])
  {
    assert forall j | 1 <= j < |toks| :: toks[j] == toks[1..][j - 1];
  }

  /** The fields of every token, each laid out where the previous one ended. */
  function EmitAll(toks: seq<Token>, at: nat): seq<FieldInfo>
    requires AllKnown(toks)
  {
    if |toks| == 0 then []
    else
      AllKnownCons(toks);
      Emit(toks[0], at) + EmitAll(toks[1..], at + Advance(toks[0]))
  }

  /** Lays the tokens out from cursor `at`, failing on the first unknown letter. */
  function ParseTokens(toks: seq<Token>, at: nat): Result<PackLayout, Error> {
    if |toks| == 0 then Ok(PackLayout([], at))
    else if !Known(toks[0]) then Err(UnknownFieldType(toks[0].letter))
    else
      match ParseTokens(toks[1..], at + Advance(toks[0]))
      case Err(e) => Err(e)
      case Ok(rest) =>
        Ok(PackLayout(Emit(toks[0], at) + rest.fields, rest.total))
  }

  /**
   * Layout succeeds exactly when every letter is known; the total is the
   * cursor plus every token's advance; a failure names the first unknown letter.
   */
  lemma {:induction false} ParseTokensSpec(toks: seq<Token>, at: nat)
    ensures var r := ParseTokens(toks, at);
            && (r.Ok? <==> AllKnown(toks))
            && (r.Ok? ==> r.value == PackLayout(EmitAll(toks, at), at + TotalAdvance(toks)))
            && (r.Err? ==> FirstUnknown(toks) < |toks| && r.error == UnknownFieldType(toks[FirstUnknown(toks)].letter))
  {
    if |toks| > 0 {
      AllKnownCons(toks);
      if Known(toks[0]) {
        ParseTokensSpec(toks[1..], at + Advance(toks[0]));
        if !AllKnown(toks[1..]) {
          assert toks[1..][FirstUnknown(toks[1..])] == toks[1 + FirstUnknown(toks[1..])];
        }
      }
    }
  }

  /** The layout invariant: fields ascend, never overlap, and end within the total. */
  lemma {:induction false} ParseTokensTiled(toks: seq<Token>, at: nat)
    requires AllKnown(toks)
    ensures var r := ParseTokens(toks, at);
            r.Ok? && Tiled(r.value.fields, at, r.value.total)
  {
    ParseTokensSpec(toks, at);
    if |toks| > 0 {
      AllKnownCons(toks);
      var next := at + Advance(toks[0]);
      ParseTokensTiled(toks[1..], next);
      EmitTiled(toks[0], at);
      var rest := ParseTokens(toks[1..], next).value;
      TiledConcat(Emit(toks[0], at), rest.fields, at, next, rest.total);
    }
  }

  /** parse_pack_format: the layout of a pack format string. */
  function ParsePackFormat(fmt: string): Result<PackLayout, Error> {
    ParseTokens(Scan(fmt), 0)
  }

  /** Normalizing keeps every letter, so it keeps which tokens are known. */
  lemma NormalizeKnown(toks: seq<Token>)
    ensures AllKnown(Normalize(toks)) <==> AllKnown(toks)
    ensures FirstUnknown(Normalize(toks)) == FirstUnknown(toks)
  {
    assert forall i | 0 <= i < |toks| :: Known(Normalize(toks)[i]) <==> Known(toks[i]);
  }

  /**
   * The layout of a format with each count written after a byte-order mark
   * counted, as Ruby's pack and unpack count it.
   */
  function ParseItemLayout(fmt: string): Result<PackLayout, Error> {
    ParseTokens(Normalize(Scan(fmt)), 0)
  }

  /** Without a count after any byte-order mark, both layouts are the same. */
  lemma ItemLayoutUnmarked(fmt: string)
    requires forall i | 0 <= i < |Scan(fmt)| :: !CountAfterMark(Scan(fmt)[i])
    ensures ParseItemLayout(fmt) == ParsePackFormat(fmt)
  {
    NormalizeUnmarked(Scan(fmt));
  }

  /** One step of the layout loop: the first token's fields, then the rest. */
  lemma ParseTokensStep(t: Token, rest: seq<Token>, at: nat)
    requires Known(t)
    ensures var r := ParseTokens(rest, at + Advance(t));
            ParseTokens([t] + rest, at) ==
              if r.Err? then Err(r.error) else Ok(PackLayout(Emit(t, at) + r.value.fields, r.value.total))
  {
    assert ([t] + rest)[0] == t;
    assert ([t] + rest)[1..] == rest;
  }

  /** A failure in `b` is the failure of `a + b` when every letter of `a` is known. */
  lemma {:induction false} ParseTokensConcatErr(a: seq<Token>, b: seq<Token>, at: nat)
    requires AllKnown(a)
    requires ParseTokens(b, at + TotalAdvance(a)).Err?
    ensures ParseTokens(a + b, at) == ParseTokens(b, at + TotalAdvance(a))
  {
    if |a| == 0 {
      assert a + b == b;
    } else {
      var t := a[0];
      AllKnownCons(a);
      assert a + b == [t] + (a[1..] + b);
      ParseTokensConcatErr(a[1..], b, at + Advance(t));
      ParseTokensStep(t, a[1..] + b, at);
    }
  }

  lemma AllKnownConcat(a: seq<Token>, b: seq<Token>)
    requires AllKnown(a) && AllKnown(b)
    ensures AllKnown(a + b)
  {
    assert forall i | 0 <= i < |a + b| :: (a + b)[i] == if i < |a| then a[i] else b[i - |a|];
  }

  /** Advances add up over concatenation. */
  lemma {:induction false} TotalAdvanceConcat(a: seq<Token>, b: seq<Token>)
    requires AllKnown(a) && AllKnown(b)
    ensures AllKnown(a + b)
    ensures TotalAdvance(a + b) == TotalAdvance(a) + TotalAdvance(b)
  {
    AllKnownConcat(a, b);
    if |a| > 0 {
      AllKnownCons(a);
      assert (a + b)[1..] == a[1..] + b;
      TotalAdvanceConcat(a[1..], b);
    } else {
      assert a + b == b;
    }
  }

  /** Fields add up over concatenation: `b`'s start where `a`'s advance ends. */
  lemma {:induction false} EmitAllConcat(a: seq<Token>, b: seq<Token>, at: nat)
    requires AllKnown(a) && AllKnown(b)
    ensures AllKnown(a + b)
    ensures EmitAll(a + b, at) == EmitAll(a, at) + EmitAll(b, at + TotalAdvance(a))
  {
    AllKnownConcat(a, b);
    if |a| > 0 {
      AllKnownCons(a);
      EmitAllConcat(a[1..], b, at + Advance(a[0]));
      EmitAllConcatStep(a, b, at);
    } else {
      assert a + b == b;
    }
  }

  /** The inductive step of EmitAllConcat: from the tail of `a` to the whole of it. */
  lemma EmitAllConcatStep(a: seq<Token>, b: seq<Token>, at: nat)
    requires AllKnown(a) && AllKnown(b) && |a| > 0
    requires AllKnown(a[1..]) && AllKnown(a[1..] + b) && AllKnown(a + b)
    requires var next := at + Advance(a[0]);
             EmitAll(a[1..] + b, next) == EmitAll(a[1..], next) + EmitAll(b, next + TotalAdvance(a[1..]))
    ensures EmitAll(a + b, at) == EmitAll(a, at) + EmitAll(b, at + TotalAdvance(a))
  {
    var next := at + Advance(a[0]);
    TotalAdvanceCons(a);
    EmitAllConsAppend(a, b, at);
    EmitAllCons(a, at);
    AppendStep(EmitAll(a + b, at), Emit(a[0], at), EmitAll(a[1..] + b, next),
               EmitAll(a[1..], next), EmitAll(b, at + TotalAdvance(a)), EmitAll(a, at));
  }

  lemma EmitAllConsAppend(a: seq<Token>, b: seq<Token>, at: nat)
    requires AllKnown(a + b) && |a| > 0
    ensures Known(a[0]) && AllKnown(a[1..] + b)
    ensures EmitAll(a + b, at) == Emit(a[0], at) + EmitAll(a[1..] + b, at + Advance(a[0]))
  {
    ConcatTail(a, b);
    EmitAllCons(a + b, at);
  }

  /** Pure sequence algebra: an element-free form of EmitAllConcat's step. */
  lemma AppendStep<T>(whole: seq<T>, e: seq<T>, rest: seq<T>, x: seq<T>, y: seq<T>, front: seq<T>)
    requires whole == e + rest && rest == x + y && front == e + x
    ensures whole == front + y
  {
  }

  lemma TotalAdvanceCons(toks: seq<Token>)
    requires AllKnown(toks) && |toks| > 0
    ensures AllKnown(toks[1..])
    ensures TotalAdvance(toks) == Advance(toks[0]) + TotalAdvance(toks[1..])
  {
    AllKnownCons(toks);
  }

  /** One step of EmitAll: the first token's fields, then the rest's. */
  lemma EmitAllCons(toks: seq<Token>, at: nat)
    requires AllKnown(toks) && |toks| > 0
    ensures AllKnown(toks[1..])
    ensures EmitAll(toks, at) == Emit(toks[0], at) + EmitAll(toks[1..], at + Advance(toks[0]))
  {
    AllKnownCons(toks);
  }

  lemma ConcatTail<T>(a: seq<T>, b: seq<T>)
    requires |a| > 0
    ensures (a + b)[0] == a[0] && (a + b)[1..] == a[1..] + b
  {
  }

  lemma ConcatAssoc<T>(x: seq<T>, y: seq<T>, z: seq<T>)
    ensures x + (y + z) == (x + y) + z
  {
  }

  /** Laying out `a + b` lays out `a`, then `b` from where `a` ended. */
  lemma ParseTokensConcatOk(a: seq<Token>, b: seq<Token>, at: nat)
    requires AllKnown(a)
    requires ParseTokens(b, at + TotalAdvance(a)).Ok?
    ensures var first := ParseTokens(a, at);
            var second := ParseTokens(b, at + TotalAdvance(a)).value;
            && first.Ok?
            && ParseTokens(a + b, at) == Ok(PackLayout(first.value.fields + second.fields, second.total))
  {
    var mid := at + TotalAdvance(a);
    ParseTokensSpec(b, mid);
    EmitAllConcat(a, b, at);
    TotalAdvanceConcat(a, b);
    ParseTokensOk(a, at);
    ParseTokensOk(b, mid);
    ParseTokensOk(a + b, at);
    LayoutGlue(ParseTokens(a + b, at), ParseTokens(a, at), ParseTokens(b, mid),
               EmitAll(a + b, at), EmitAll(a, at), EmitAll(b, mid),
               TotalAdvance(a + b), TotalAdvance(a), TotalAdvance(b), at);
  }

  /** The success half of ParseTokensSpec, in the shape the concatenation proofs use. */
  lemma ParseTokensOk(toks: seq<Token>, at: nat)
    requires AllKnown(toks)
    ensures ParseTokens(toks, at) == Ok(PackLayout(EmitAll(toks, at), at + TotalAdvance(toks)))
  {
    ParseTokensSpec(toks, at);
  }

  /** Record-level glue for ParseTokensConcatOk, free of the layout functions. */
  lemma LayoutGlue(rab: Result<PackLayout, Error>, ra: Result<PackLayout, Error>, rb: Result<PackLayout, Error>,
                   eab: seq<FieldInfo>, ea: seq<FieldInfo>, eb: seq<FieldInfo>, tab: nat, ta: nat, tb: nat, at: nat)
    requires rab == Ok(PackLayout(eab, at + tab)) && ra == Ok(PackLayout(ea, at + ta))
    requires rb == Ok(PackLayout(eb, at + ta + tb)) && eab == ea + eb && tab == ta + tb
    ensures ra.Ok? && rab == Ok(PackLayout(ra.value.fields + rb.value.fields, rb.value.total))
  {
  }

  lemma OneToken(t: Token, at: nat)
    requires Known(t)
    ensures ParseTokens([t], at) == Ok(PackLayout(Emit(t, at), at + Advance(t)))
  {
    assert [t][1..] == [];
    assert Emit(t, at) + [] == Emit(t, at);
  }

  /** The fields and advance of a single token, by kind of letter. */
  lemma EmitByKind(t: Token, at: nat)
    requires Known(t)
    ensures var n := Count(t);
            var w := Lookup(t.letter).value.width;
            var fs := Emit(t, at);
            && (t.letter == 'x' ==> fs == [] && Advance(t) == n)
            && (t.letter in "AaZ" ==> fs == [FieldInfo(Scalar(StringClass), n, at, None, NoFmt)] && Advance(t) == n)
            && (IsHexLetter(t.letter) ==> fs == [FieldInfo(Scalar(StringClass), n / 2, at, None, NoFmt)] && Advance(t) == n / 2)
            && (!IsExtent(t.letter) && !IsHexLetter(t.letter) ==>
                  && |fs| == n
                  && Advance(t) == n * w
                  && forall k | 0 <= k < n :: fs[k] == FieldInfo(Scalar(Lookup(t.letter).value.klass.value), w, at + k * w, None, NoFmt))
  {
  }
}

=== FILE: record_scenarios.dfy ===
/** Records built, read and packed, and their emptiness, from the library's documented behaviour. */
module RecordScenarios {

  import opened Results
  import opened Bytes
  import opened Errors
  import opened FmtSpec
  import opened Tokenizer
  import opened Layout
  import opened PackFmt
  import opened Codec
  import opened IOStruct
  import opened Scenarios

  // ---------------------------------------------------------------- zero-length strings

  const ZeroLength: StructType := StructType("C a0 C", ["a", "b", "c"], [IntField(1, 0), StrField(0, 1), IntField(1, 1)], 2)

  /** `C a0 C` with members a, b, c is two bytes long. */
  lemma ZeroLengthType()
    ensures FromPackFormat("C a0 C", ["a", "b", "c"]) == Ok(ZeroLength)
  {
    ScanZeroLength();
    ItemLayoutUnmarked("C a0 C");
    LayoutZeroLength();
  }

  /**
   * The older size sum gives `C a0 C` three bytes: it counts `a0` as one
   * byte, where the layout engine (and Ruby's unpack) take none.
   */
  lemma OldSizeZeroLength()
    ensures OldSize("C a0 C") == Ok(Some(3))
  {
    ScanZeroLength();
    OneDigitCount('a', '0', None);
    var toks := [Plain('C'), Token('a', "0", None), Plain('C')];
    assert toks[1..] == [Token('a', "0", None), Plain('C')];
    assert toks[1..][1..] == [Plain('C')];
    assert OldSizeOf([Plain('C')]) == Ok(Some(1));
    assert OldSizeOf(toks[1..]) == Ok(Some(2));
  }

  /** The two rules part ways on `C a0 C`: three bytes against two. */
  lemma OldSizeOverstates()
    ensures OldSize("C a0 C") == Ok(Some(3))
    ensures FromPackFormat("C a0 C", ["a", "b", "c"]).Ok?
    ensures FromPackFormat("C a0 C", ["a", "b", "c"]).value.size == 2
  {
    OldSizeZeroLength();
    ZeroLengthType();
  }

  /** One little-endian unsigned item of `w` bytes reads the first `w` bytes. */
  lemma UnpackUnsigned(w: nat, data: seq<byte>)
    requires 0 < w <= |data|
    ensures UnpackOne(UnsignedInt(w, LittleOrder), 1, data) == Ok(Unpacked([Int(LittleEndian(data[..w]))], w))
  {
    var d := UnsignedInt(w, LittleOrder);
    assert UnpackScalars(d, 0, data[w..]) == Unpacked([], 0);
    assert [DecodeScalar(d, data[..w])] + [] == [Int(LittleEndian(data[..w]))];
  }

  lemma LittleEndianFour(a: byte, b: byte, c: byte, d: byte)
    ensures LittleEndian([a, b, c, d]) == a as int + 256 * b as int + 65536 * c as int + 16777216 * d as int
  {
    var s: seq<byte> := [a, b, c, d];
    assert s[1..] == [b, c, d] && [b, c, d][1..] == [c, d];
    LittleEndianTwo(c, d);
    assert LittleEndian([b, c, d]) == b as int + 256 * LittleEndian([c, d]);
  }

  lemma LittleEndianTwo(a: byte, b: byte)
    ensures LittleEndian([a, b]) == a as int + 256 * b as int
  {
    var s: seq<byte> := [a, b];
    assert s[1..] == [b] && [b][1..] == [];
  }

  /** `C` reads the first byte as it is. */
  lemma UnpackByte(data: seq<byte>)
    requires |data| >= 1
    ensures UnpackOne(UnsignedInt(1, LittleOrder), 1, data) == Ok(Unpacked([Int(data[0] as int)], 1))
  {
    UnpackUnsigned(1, data);
    assert data[..1][1..] == [];
  }

  const ZeroLengthTokens: seq<Token> := [Plain('C'), Token('a', "0", None), Plain('C')]

  lemma ZeroLengthScan()
    ensures Scan(ZeroLength.format) == ZeroLengthTokens
  {
    ScanZeroLength();
  }

  lemma ZeroLengthDirectives()
    ensures AllKnown(ZeroLengthTokens)
    ensures TokenDirective(Plain('C')) == UnsignedInt(1, LittleOrder) && ItemCount(Plain('C')) == 1
    ensures TokenDirective(Token('a', "0", None)) == RawString && ItemCount(Token('a', "0", None)) == 0
    ensures ArityAll(ZeroLengthTokens) == 3
  {
    OneDigitCount('a', '0', None);
    var toks := ZeroLengthTokens;
    assert toks[1..][1..][1..] == [];
  }

  const ZeroLengthValues: seq<Value> := [Int(1), Str([]), Int(2)]

  /** `C a0 C` over two bytes: each byte as an integer, an empty string between them. */
  lemma UnpackZeroLength(x: byte, y: byte)
    ensures UnpackAll(ZeroLengthTokens, [x, y]) == Ok([Int(x as int), Str([]), Int(y as int)])
  {
    var toks := ZeroLengthTokens;
    ZeroLengthDirectives();
    var data: seq<byte> := [x, y];
    var tail := data[1..];
    UnpackByte(tail);
    assert toks[1..][1..] == [Plain('C')] && [Plain('C')][1..] == [];
    assert tail[1..] == [];
    UnpackAllCons([Plain('C')], tail, Unpacked([Int(y as int)], 1), []);
    assert [Int(y as int)] + [] == [Int(y as int)];
    assert UnpackOne(RawString, 0, tail) == Ok(Unpacked([Str([])], 0));
    assert tail[0..] == tail;
    UnpackAllCons(toks[1..], tail, Unpacked([Str([])], 0), [Int(y as int)]);
    assert [Str([])] + [Int(y as int)] == [Str([]), Int(y as int)];
    UnpackByte(data);
    assert data[1..] == tail;
    UnpackAllCons(toks, data, Unpacked([Int(x as int)], 1), [Str([]), Int(y as int)]);
    assert [Int(x as int)] + [Str([]), Int(y as int)] == [Int(x as int), Str([]), Int(y as int)];
  }

  lemma ZeroLengthUnpack()
    ensures UnpackAll(ZeroLengthTokens, [1, 2]) == Ok(ZeroLengthValues)
  {
    UnpackZeroLength(1, 2);
  }

  /** Reading `C a0 C` from the bytes 01 02 gives a = 1, b = "", c = 2, and the read is not short. */
  lemma ZeroLengthRead()
    ensures Read(ZeroLength, Text([1, 2]), None)
            == Ok(ReadOutcome(Record(ZeroLength, ZeroLengthValues), false, Text([1, 2])))
  {
    ZeroLengthReadBytes(1, 2);
  }

  /** The same for any two bytes x y: a = x, b = "", c = y. */
  lemma ZeroLengthReadBytes(x: byte, y: byte)
    ensures Read(ZeroLength, Text([x, y]), None)
            == Ok(ReadOutcome(Record(ZeroLength, [Int(x as int), Str([]), Int(y as int)]), false, Text([x, y])))
  {
    var vals := [Int(x as int), Str([]), Int(y as int)];
    ZeroLengthScan();
    UnpackZeroLength(x, y);
    ReadText(ZeroLength, [x, y], vals);
    assert vals + Nils(0) == vals;
  }

  /** Packing that record gives back the two bytes. */
  lemma ZeroLengthPack()
    ensures Pack(Record(ZeroLength, ZeroLengthValues)) == Ok([1, 2])
  {
    ZeroLengthScan();
    ZeroLengthDirectives();
    EmitAllZeroLength();
    assert AllLossless(ZeroLengthTokens);
    ZeroLengthType();
    PackReadExact("C a0 C", ["a", "b", "c"], [1, 2]);
    ZeroLengthType();
    ZeroLengthRead();
  }

  /** Reading from a stream of 01 02 01 02 takes SIZE = 2 bytes: the position ends at 2. */
  lemma ZeroLengthStream()
    ensures Read(ZeroLength, Reader([1, 2, 1, 2], 0), None).Ok?
    ensures Read(ZeroLength, Reader([1, 2, 1, 2], 0), None).value.after == Reader([1, 2, 1, 2], 2)
  {
    ZeroLengthFromReader([1, 2, 1, 2]);
  }

  /** Any reader with two bytes or more: reading `C a0 C` moves its position by two. */
  lemma ZeroLengthFromReader(bs: seq<byte>)
    requires |bs| >= 2
    ensures Read(ZeroLength, Reader(bs, 0), None).Ok?
    ensures Read(ZeroLength, Reader(bs, 0), None).value.after == Reader(bs, 2)
  {
    ZeroLengthScan();
    ZeroLengthDirectives();
    assert forall i | 0 <= i < |ZeroLengthTokens| :: ZeroLengthTokens[i].letter != 'x';
    ReadTolerant(ZeroLength, Reader(bs, 0), None);
    assert ZeroLength.size == 2;
    ReadFromReader(ZeroLength, bs, 0, None);
  }

  // ---------------------------------------------------------------- skipping

  const SkipTokens: seq<Token> := [Token('x', "4", None), Plain('L')]

  /** `x4L` over eight bytes: the first four are passed over, the last four read as one integer. */
  lemma UnpackSkip(data: seq<byte>)
    requires |data| == 8
    ensures UnpackAll(SkipTokens, data) == Ok([Int(LittleEndian(data[4..]))])
  {
    var toks := SkipTokens;
    OneDigitCount('x', '4', None);
    assert TokenDirective(toks[0]) == Skip && ItemCount(toks[0]) == 4;
    assert TokenDirective(toks[1]) == UnsignedInt(4, LittleOrder) && ItemCount(toks[1]) == 1;
    var tail := data[4..];
    UnpackUnsigned(4, tail);
    assert tail[..4] == tail;
    assert toks[1..] == [Plain('L')] && [Plain('L')][1..] == [] && tail[4..] == [];
    UnpackAllCons(toks[1..], tail, Unpacked([Int(LittleEndian(tail))], 4), []);
    assert [Int(LittleEndian(tail))] + [] == [Int(LittleEndian(tail))];
    UnpackAllCons(toks, data, Unpacked([], 4), [Int(LittleEndian(tail))]);
    assert [] + [Int(LittleEndian(tail))] == [Int(LittleEndian(tail))];
  }

  const SkipType: StructType := StructType("x4L", ["y"], [IntField(4, 4)], 8)

  lemma SkipTypeBuilt()
    ensures FromPackFormat("x4L", ["y"]) == Ok(SkipType)
    ensures Scan(SkipType.format) == SkipTokens
  {
    ScanSkip();
    ItemLayoutUnmarked("x4L");
    LayoutSkip();
  }

  /** 12345 and 56789 as two little-endian 32-bit integers. */
  const TwoLongs: seq<byte> := [57, 48, 0, 0, 213, 221, 0, 0]

  /** `x4L` over the bytes of 12345 and 56789 skips the first and reads y = 56789. */
  lemma SkipRead()
    ensures Read(SkipType, Text(TwoLongs), None).Ok?
    ensures Read(SkipType, Text(TwoLongs), None).value.rec.values == [Int(56789)]
  {
    SkipTypeBuilt();
    UnpackSkip(TwoLongs);
    assert TwoLongs[4..] == [213, 221, 0, 0];
    LittleEndianFour(213, 221, 0, 0);
    ReadText(SkipType, TwoLongs, [Int(56789)]);
    assert [Int(56789)] + Nils(0) == [Int(56789)];
  }

  // ---------------------------------------------------------------- keyword construction and pack

  const LscTokens: seq<Token> := [Plain('L'), Plain('S'), Plain('C')]

  lemma ScanLsc()
    ensures Scan("L S C") == LscTokens
  {
    assert Scan("C") == [Plain('C')];
    assert Scan(" C") == Scan("C");
    assert Scan("S C") == [Plain('S')] + Scan(" C");
    assert Scan(" S C") == Scan("S C");
  }

  lemma LscDirectives()
    ensures AllKnown(LscTokens)
    ensures TokenDirective(Plain('L')) == UnsignedInt(4, LittleOrder)
    ensures TokenDirective(Plain('S')) == UnsignedInt(2, LittleOrder)
    ensures TokenDirective(Plain('C')) == UnsignedInt(1, LittleOrder)
    ensures ArityAll(LscTokens) == 3 && TotalAdvance(LscTokens) == 7 && AllLossless(LscTokens)
  {
    var toks := LscTokens;
    assert toks[1..] == [Plain('S'), Plain('C')] && toks[1..][1..] == [Plain('C')] && [Plain('C')][1..] == [];
  }

  /** `L S C` over seven bytes: a 4-byte, a 2-byte and a 1-byte integer, little-endian. */
  lemma UnpackLsc(data: seq<byte>)
    requires |data| == 7
    ensures UnpackAll(LscTokens, data)
            == Ok([Int(LittleEndian(data[..4])), Int(LittleEndian(data[4..6])), Int(data[6] as int)])
  {
    var toks := LscTokens;
    LscDirectives();
    var t1 := data[4..];
    var t2 := t1[2..];
    assert t2 == [data[6]] && t1[..2] == data[4..6];
    UnpackByte(t2);
    assert toks[1..] == [Plain('S'), Plain('C')] && toks[1..][1..] == [Plain('C')] && [Plain('C')][1..] == [];
    assert t2[1..] == [];
    UnpackAllCons([Plain('C')], t2, Unpacked([Int(data[6] as int)], 1), []);
    assert [Int(data[6] as int)] + [] == [Int(data[6] as int)];
    UnpackUnsigned(2, t1);
    UnpackAllCons(toks[1..], t1, Unpacked([Int(LittleEndian(data[4..6]))], 2), [Int(data[6] as int)]);
    UnpackUnsigned(4, data);
    UnpackAllCons(toks, data, Unpacked([Int(LittleEndian(data[..4]))], 4),
                  [Int(LittleEndian(data[4..6]))] + [Int(data[6] as int)]);
    assert [Int(LittleEndian(data[..4]))] + ([Int(LittleEndian(data[4..6]))] + [Int(data[6] as int)])
        == [Int(LittleEndian(data[..4])), Int(LittleEndian(data[4..6])), Int(data[6] as int)];
  }

  /** [123, 456, 78].pack('L S C'). */
  const LscData: seq<byte> := [123, 0, 0, 0, 200, 1, 78]

  /** `L S C` over seven given bytes, with the little-endian sums written out. */
  lemma UnpackLscBytes(a: byte, b: byte, c: byte, d: byte, e: byte, f: byte, g: byte)
    ensures UnpackAll(LscTokens, [a, b, c, d, e, f, g])
            == Ok([Int(a as int + 256 * b as int + 65536 * c as int + 16777216 * d as int),
                   Int(e as int + 256 * f as int), Int(g as int)])
  {
    var data: seq<byte> := [a, b, c, d, e, f, g];
    UnpackLsc(data);
    assert data[..4] == [a, b, c, d];
    assert data[4..6] == [e, f];
    LittleEndianFour(a, b, c, d);
    LittleEndianTwo(e, f);
  }

  lemma LscValues()
    ensures UnpackAll(LscTokens, LscData) == Ok([Int(123), Int(456), Int(78)])
  {
    UnpackLscBytes(123, 0, 0, 0, 200, 1, 78);
  }

  lemma LscType()
    ensures FromPackFormat("L S C", ["a", "b", "c"]).Ok?
    ensures var t := FromPackFormat("L S C", ["a", "b", "c"]).value;
            t.format == "L S C" && t.members == ["a", "b", "c"] && t.size == 7
  {
    ScanLsc();
    LscDirectives();
    NormalizeUnmarked(LscTokens);
    FromPackFormatSpec("L S C", ["a", "b", "c"]);
  }

  /** Reading the packed bytes of 123, 456 and 78 gives those values, and packing them gives the bytes back. */
  lemma LscRoundTrip()
    ensures FromPackFormat("L S C", ["a", "b", "c"]).Ok?
    ensures var t := FromPackFormat("L S C", ["a", "b", "c"]).value;
            var r := Read(t, Text(LscData), None);
            && r.Ok? && r.value.rec.values == [Int(123), Int(456), Int(78)]
            && Pack(r.value.rec) == Ok(LscData)
  {
    LscType();
    ScanLsc();
    LscDirectives();
    PackReadExact("L S C", ["a", "b", "c"], LscData);
    var t := FromPackFormat("L S C", ["a", "b", "c"]).value;
    LscValues();
    ReadText(t, LscData, [Int(123), Int(456), Int(78)]);
    assert [Int(123), Int(456), Int(78)] + Nils(0) == [Int(123), Int(456), Int(78)];
  }

  const WideData: seq<byte> := [0x78, 0x56, 0x34, 0x12, 0xCD, 0xAB, 0xEF]
  const WideValues: seq<Value> := [Int(0x1234_5678), Int(0xABCD), Int(0xEF)]

  lemma WideUnpack()
    ensures UnpackAll(LscTokens, WideData) == Ok(WideValues)
  {
    UnpackLscBytes(0x78, 0x56, 0x34, 0x12, 0xCD, 0xAB, 0xEF);
  }

  /** The record of 0x12345678, 0xABCD and 0xEF read back from its little-endian bytes. */
  lemma WideRead()
    ensures FromPackFormat("L S C", ["a", "b", "c"]).Ok?
    ensures var t := FromPackFormat("L S C", ["a", "b", "c"]).value;
            var r := Read(t, Text(WideData), None);
            && r.Ok? && r.value.rec == Record(t, WideValues)
            && Pack(r.value.rec) == Ok(WideData)
  {
    LscType();
    ScanLsc();
    LscDirectives();
    PackReadExact("L S C", ["a", "b", "c"], WideData);
    var t := FromPackFormat("L S C", ["a", "b", "c"]).value;
    WideUnpack();
    ReadText(t, WideData, WideValues);
    assert WideValues + Nils(0) == WideValues;
  }

  /** A record built by name from a: 0x12345678, b: 0xABCD, c: 0xEF packs to those integers' little-endian bytes. */
  lemma PackScenario()
    ensures FromPackFormat("L S C", ["a", "b", "c"]).Ok?
    ensures var t := FromPackFormat("L S C", ["a", "b", "c"]).value;
            var r := Initialize(t, Keywords([("a", Int(0x1234_5678)), ("b", Int(0xABCD)), ("c", Int(0xEF))]));
            r.Ok? && Pack(r.value) == Ok([0x78, 0x56, 0x34, 0x12, 0xCD, 0xAB, 0xEF])
  {
    WideRead();
    var t := FromPackFormat("L S C", ["a", "b", "c"]).value;
    LscType();
    WideByName(t);
  }

  lemma WideByName(t: StructType)
    requires t.members == ["a", "b", "c"]
    ensures Initialize(t, Keywords([("a", Int(0x1234_5678)), ("b", Int(0xABCD)), ("c", Int(0xEF))]))
            == Ok(Record(t, WideValues))
  {
    var pairs := [("a", Int(0x1234_5678)), ("b", Int(0xABCD)), ("c", Int(0xEF))];
    KeywordInit(t, pairs);
    assert pairs[0].0 in t.members && pairs[1].0 in t.members && pairs[2].0 in t.members;
    assert LastGiven(pairs, "a") == Some(WideValues[0]);
    assert LastGiven(pairs, "b") == Some(WideValues[1]);
    assert LastGiven(pairs, "c") == Some(WideValues[2]);
    var r := Initialize(t, Keywords(pairs));
    assert r.value.values == WideValues;
  }

  // ---------------------------------------------------------------- construction and empty?

  /** Hash-style construction on 'L S C' sets a and c and leaves b nil. */
  lemma KeywordScenario(t: StructType)
    requires t.members == ["a", "b", "c"]
    ensures Initialize(t, Keywords([("a", Int(100)), ("c", Int(50))])) == Ok(Record(t, [Int(100), Nil, Int(50)]))
  {
    var pairs := [("a", Int(100)), ("c", Int(50))];
    KeywordInit(t, pairs);
    var r := Initialize(t, Keywords(pairs));
    assert pairs[0].0 in t.members && pairs[1].0 in t.members;
    assert LastGiven(pairs, "a") == Some(Int(100));
    assert LastGiven(pairs, "b") == None;
    assert LastGiven(pairs, "c") == Some(Int(50));
    assert r.value.values == [Int(100), Nil, Int(50)];
  }

  /** A key that names no member is refused. */
  lemma UnknownKeyScenario(t: StructType)
    requires t.members == ["a", "b", "c"]
    ensures Initialize(t, Keywords([("a", Int(1)), ("d", Int(2))])) == Err(UnknownMember("d"))
  {
    var pairs := [("a", Int(1)), ("d", Int(2))];
    var rec := Record(t, Nils(3));
    assert pairs[..1] == [("a", Int(1))] && pairs[..1][..0] == [];
    assert MemberIndex(t.members, "a") == Some(0);
    assert Assign(rec, pairs[..1]).Ok?;
    assert "d" !in t.members;
  }

  /** On 'L S': zeros and nils are empty, a 1 is not. */
  lemma EmptyScenarios(t: StructType)
    requires t.members == ["a", "b"]
    ensures var r := Initialize(t, Keywords([("a", Int(0)), ("b", Int(0))]));
            r.Ok? && IsEmpty(r.value)
    ensures var r := Initialize(t, Positional([]));
            r.Ok? && IsEmpty(r.value)
    ensures var r := Initialize(t, Keywords([("a", Int(1)), ("b", Int(0))]));
            r.Ok? && !IsEmpty(r.value)
  {
    var zeros := [("a", Int(0)), ("b", Int(0))];
    var one := [("a", Int(1)), ("b", Int(0))];
    KeywordInit(t, zeros);
    KeywordInit(t, one);
    assert zeros[0].0 in t.members && zeros[1].0 in t.members;
    assert LastGiven(zeros, "a") == Some(Int(0)) && LastGiven(zeros, "b") == Some(Int(0));
    assert LastGiven(one, "a") == Some(Int(1));
    var r := Initialize(t, Keywords(one));
    assert r.value.values[0] == Int(1);
  }

  /** On 'a4': four NULs are empty, "test" is not. */
  lemma EmptyStringScenarios(t: StructType)
    requires t.members == ["name"]
    ensures var r := Initialize(t, Keywords([("name", Str([0, 0, 0, 0]))]));
            r.Ok? && IsEmpty(r.value)
    ensures var r := Initialize(t, Keywords([("name", Str([116, 101, 115, 116]))]));
            r.Ok? && !IsEmpty(r.value)
  {
    var r := Initialize(t, Keywords([("name", Str([116, 101, 115, 116]))]));
    assert r.value.values[0] == Str([116, 101, 115, 116]);
    assert r.value.values[0].bytes[0] != NUL;
  }

  /** Reading six bytes with 'L S' gives an empty record exactly when the six bytes are zero. */
  lemma ReadEmptyLS(t: StructType, data: seq<byte>)
    requires t.format == "L S" && t.members == ["a", "b"] && |data| >= 6
    ensures Read(t, Text(data), None).Ok?
    ensures IsEmpty(Read(t, Text(data), None).value.rec) <==> AllZero(data[..6])
  {
    ScanLS();
    var toks := [Plain('L'), Plain('S')];
    assert AllKnown(toks) && ArityAll(toks) == 2 && NeedAll(toks) == 6 by {
      ValueTokenArity(Plain('S'));
      ValueTokenArity(Plain('L'));
      ArityAllConcat([Plain('L')], [Plain('S')]);
      assert [Plain('L')] + [Plain('S')] == toks;
    }
    EmptyIffZero(t, data);
  }

  lemma ScanLS()
    ensures Scan("L S") == [Plain('L'), Plain('S')]
  {
  }

  // ---------------------------------------------------------------- byte order

  /**
   * What the byte-order examples check of a one-member struct type on `fmt`:
   * packing `n` gives `data`, reading `data` gives member x = n, and packing
   * that record gives `data` again.
   */
  predicate ReadsAndPacks(fmt: string, n: int, data: seq<byte>) {
    && FromPackFormat(fmt, ["x"]).Ok?
    && PackAll(Scan(fmt), [Int(n)]) == Ok(data)
    && var r := Read(FromPackFormat(fmt, ["x"]).value, Text(data), None);
       r.Ok? && r.value.rec.values == [Int(n)] && Pack(r.value.rec) == Ok(data)
  }

  /** One unsigned item reads its bytes as their value and packs that value back to them. */
  lemma UnsignedOne(d: Directive, data: seq<byte>, n: nat)
    requires d.UnsignedInt? && d.width > 0 && |data| == d.width
    requires ReadUnsigned(d.order, data) == n
    ensures UnpackOne(d, 1, data) == Ok(Unpacked([Int(n)], d.width))
    ensures PackOne(d, 1, [Int(n)]) == Ok(Packed(data, 1))
  {
    UnsignedRead(d, data, n);
    UnsignedWrite(d, data, n);
  }

  lemma UnsignedRead(d: Directive, data: seq<byte>, n: nat)
    requires d.UnsignedInt? && d.width > 0 && |data| == d.width
    requires ReadUnsigned(d.order, data) == n
    ensures UnpackScalars(d, 1, data) == Unpacked([Int(n)], d.width)
  {
    assert data[..d.width] == data;
    assert UnpackScalars(d, 0, data[d.width..]) == Unpacked([], 0);
  }

  lemma UnsignedWrite(d: Directive, data: seq<byte>, n: nat)
    requires d.UnsignedInt? && d.width > 0 && |data| == d.width
    requires ReadUnsigned(d.order, data) == n
    ensures PackScalars(d, 1, [Int(n)]) == Ok(data)
  {
    ModUnique(n, Pow256(d.width), 0, n);
    assert Wrap(n, d.width) == n;
    WriteReadUnsigned(d.order, data);
    assert EncodeScalar(d, Int(n)) == Ok(WriteUnsigned(d.order, n, d.width));
    assert [Int(n)][1..] == [];
    PackScalarsCons(d, 1, [Int(n)], data, []);
    assert data + [] == data;
  }

  /** The same for a whole format of one unsigned token. */
  lemma UnsignedToken(t: Token, data: seq<byte>, n: nat)
    requires Known(t) && ItemCount(t) == 1
    requires TokenDirective(t).UnsignedInt? && |data| == TokenDirective(t).width
    requires ReadUnsigned(TokenDirective(t).order, data) == n
    ensures UnpackAll([t], data) == Ok([Int(n)])
    ensures PackAll([t], [Int(n)]) == Ok(data)
  {
    UnsignedOne(TokenDirective(t), data, n);
    UnpackAllOne(t, data);
    PackAllOne(t, [Int(n)]);
  }

  /** A format of one unsigned item reads its bytes as their value in the item's order and packs that value back. */
  lemma UnsignedRecord(fmt: string, t: Token, data: seq<byte>, n: nat)
    requires Scan(fmt) == [t] && Known(t) && ItemCount(t) == 1
    requires TokenDirective(t).UnsignedInt? && |data| == TokenDirective(t).width
    requires ReadUnsigned(TokenDirective(t).order, data) == n
    ensures ReadsAndPacks(fmt, n, data)
  {
    FromPackFormatSpec(fmt, ["x"]);
    var st := FromPackFormat(fmt, ["x"]).value;
    UnsignedToken(t, data, n);
    ReadText(st, data, [Int(n)]);
    assert [Int(n)] + Nils(0) == [Int(n)];
  }

  /** 12345 in two and four big-endian bytes. */
  lemma BigEndian12345()
    ensures ReadUnsigned(BigOrder, [48, 57]) == 12345
    ensures ReadUnsigned(BigOrder, [0, 0, 48, 57]) == 12345
  {
    var one: seq<byte> := [0];
    assert one[..0] == [] && BigEndian(one) == 0;
    var two: seq<byte> := [0, 0];
    assert two[..1] == one && BigEndian(two) == 0;
    var three: seq<byte> := [0, 0, 48];
    assert three[..2] == two && BigEndian(three) == 48;
    var four: seq<byte> := [0, 0, 48, 57];
    assert four[..3] == three && BigEndian(four) == 12345;
    var short: seq<byte> := [48, 57];
    assert short[..1] == [48] && [48][..0] == [];
  }

  /** 12345 in two and four little-endian bytes. */
  lemma LittleEndian12345()
    ensures ReadUnsigned(LittleOrder, [57, 48]) == 12345
    ensures ReadUnsigned(LittleOrder, [57, 48, 0, 0]) == 12345
  {
    var four: seq<byte> := [57, 48, 0, 0];
    assert four[1..] == [48, 0, 0] && four[1..][1..] == [0, 0] && four[1..][1..][1..] == [0];
    var two: seq<byte> := [57, 48];
    assert two[1..] == [48];
  }

  lemma BigN()
    ensures ReadsAndPacks("n", 12345, [48, 57])
  {
    BigEndian12345();
    ScanSingle(Plain('n'));
    UnsignedRecord("n", Plain('n'), [48, 57], 12345);
  }

  lemma BigNN()
    ensures ReadsAndPacks("N", 12345, [0, 0, 48, 57])
  {
    BigEndian12345();
    ScanSingle(Plain('N'));
    UnsignedRecord("N", Plain('N'), [0, 0, 48, 57], 12345);
  }

  lemma Marked(c: char, o: ByteOrder, fmt: string, data: seq<byte>)
    requires c in "SLI" && fmt == [c] + OrderText(o)
    requires |data| == Lookup(c).value.width && ReadUnsigned(o, data) == 12345
    ensures ReadsAndPacks(fmt, 12345, data)
  {
    var t := Token(c, "", Some(Mark(o, "")));
    assert Render(t) == fmt;
    ScanSingle(t);
    UnsignedRecord(fmt, t, data, 12345);
  }


  lemma LittleV()
    ensures ReadsAndPacks("v", 12345, [57, 48])
  {
    LittleEndian12345();
    ScanSingle(Plain('v'));
    UnsignedRecord("v", Plain('v'), [57, 48], 12345);
  }

  lemma LittleVV()
    ensures ReadsAndPacks("V", 12345, [57, 48, 0, 0])
  {
    LittleEndian12345();
    ScanSingle(Plain('V'));
    UnsignedRecord("V", Plain('V'), [57, 48, 0, 0], 12345);
  }


  lemma BigS()
    ensures ReadsAndPacks("S>", 12345, [48, 57])
  {
    BigEndian12345();
    Marked('S', BigOrder, "S>", [48, 57]);
  }

  lemma BigL()
    ensures ReadsAndPacks("L>", 12345, [0, 0, 48, 57])
  {
    BigEndian12345();
    Marked('L', BigOrder, "L>", [0, 0, 48, 57]);
  }

  lemma BigI()
    ensures ReadsAndPacks("I>", 12345, [0, 0, 48, 57])
  {
    BigEndian12345();
    Marked('I', BigOrder, "I>", [0, 0, 48, 57]);
  }

  lemma LittleS()
    ensures ReadsAndPacks("S<", 12345, [57, 48])
  {
    LittleEndian12345();
    Marked('S', LittleOrder, "S<", [57, 48]);
  }

  lemma LittleL()
    ensures ReadsAndPacks("L<", 12345, [57, 48, 0, 0])
  {
    LittleEndian12345();
    Marked('L', LittleOrder, "L<", [57, 48, 0, 0]);
  }

  lemma LittleI()
    ensures ReadsAndPacks("I<", 12345, [57, 48, 0, 0])
  {
    LittleEndian12345();
    Marked('I', LittleOrder, "I<", [57, 48, 0, 0]);
  }

  // ---------------------------------------------------------------- nil members

  const NameTokens: seq<Token> := [Token('a', "4", None), Plain('L')]

  lemma ScanName()
    ensures Scan("a4 L") == NameTokens
  {
    var a4 := Token('a', "4", None);
    assert Scan(" L") == [Plain('L')];
    assert "a4 L" == Render(a4) + " L";
    ScanRenderOne(a4, " L");
  }

  lemma FiveLittleEndian()
    ensures ReadUnsigned(LittleOrder, [5, 0, 0, 0]) == 5
  {
    var four: seq<byte> := [5, 0, 0, 0];
    assert four[1..] == [0, 0, 0] && four[1..][1..] == [0, 0] && four[1..][1..][1..] == [0];
  }

  /** Packing a nil name and 5 with `a4 L`: four NULs, then 5 as a little-endian long. */
  lemma PackNilName()
    ensures PackAll(NameTokens, [Nil, Int(5)]) == Ok([0, 0, 0, 0, 5, 0, 0, 0])
  {
    var a4 := Token('a', "4", None);
    OneDigitCount('a', '4', None);
    assert TokenDirective(a4) == RawString && ItemCount(a4) == 4;
    NilPadded();
    FiveLittleEndian();
    assert TokenDirective(Plain('L')) == UnsignedInt(4, LittleOrder);
    UnsignedToken(Plain('L'), [5, 0, 0, 0], 5);
    assert NameTokens[1..] == [Plain('L')] && [Nil, Int(5)][1..] == [Int(5)];
    PackAllCons(NameTokens, [Nil, Int(5)], Packed([0, 0, 0, 0], 1), [5, 0, 0, 0]);
    var nuls: seq<byte> := [0, 0, 0, 0];
    assert nuls + [5, 0, 0, 0] == [0, 0, 0, 0, 5, 0, 0, 0];
  }

  lemma NilPadded()
    ensures PackOne(RawString, 4, [Nil, Int(5)]) == Ok(Packed([0, 0, 0, 0], 1))
  {
    var one := PackOne(RawString, 4, [Nil, Int(5)]).value;
    assert one.bytes == [0, 0, 0, 0];
  }

  /**
   * A record built by name on `a4 L` with only n given leaves name nil, and
   * packs it as four NULs rather than failing.
   */
  lemma NilNamePacks(t: StructType)
    requires t.format == "a4 L" && t.members == ["name", "n"]
    ensures var r := Initialize(t, Keywords([("n", Int(5))]));
            && r.Ok? && r.value.values == [Nil, Int(5)]
            && Pack(r.value) == Ok([0, 0, 0, 0, 5, 0, 0, 0])
  {
    var pairs := [("n", Int(5))];
    KeywordInit(t, pairs);
    assert pairs[0].0 in t.members;
    assert LastGiven(pairs, "name") == None;
    assert LastGiven(pairs, "n") == Some(Int(5));
    var r := Initialize(t, Keywords(pairs));
    assert r.value.values == [Nil, Int(5)];
    ScanName();
    PackNilName();
  }

  // ---------------------------------------------------------------- a count after a byte-order mark

  /** `S>2`: two big-endian shorts, their count written after the mark. */
  const MarkedPair: Token := Token('S', "", Some(Mark(BigOrder, "2")))

  lemma MarkedPairFacts()
    ensures Scan("S>2") == [MarkedPair]
    ensures Known(MarkedPair) && Count(MarkedPair) == 1 && ItemCount(MarkedPair) == 2
    ensures TokenDirective(MarkedPair) == UnsignedInt(2, BigOrder)
    ensures Normalized(MarkedPair) == Token('S', "2", Some(Mark(BigOrder, "")))
  {
    assert Render(MarkedPair) == "S>2";
    ScanSingle(MarkedPair);
    OneDigitCount('S', '2', Some(Mark(BigOrder, "")));
  }

  /** 1 and 2 as big-endian shorts. */
  const PairData: seq<byte> := [0, 1, 0, 2]

  lemma UnpackPair()
    ensures UnpackAll([MarkedPair], PairData) == Ok([Int(1), Int(2)])
  {
    MarkedPairFacts();
    var d := UnsignedInt(2, BigOrder);
    var tail := PairData[2..];
    assert tail[..2] == [0, 2] && tail[2..] == [] && PairData[..2] == [0, 1];
    assert [0, 1][..1] == [0] && [0, 2][..1] == [0] && [0][..0] == [];
    assert UnpackScalars(d, 0, tail[2..]) == Unpacked([], 0);
    assert UnpackScalars(d, 1, tail).values == [Int(2)];
    assert UnpackScalars(d, 2, PairData).values == [Int(1), Int(2)];
    UnpackAllOne(MarkedPair, PairData);
  }

  /**
   * The layout engine as written passes over the `2` after `S>`: it gives
   * `S>2` one 2-byte field, where unpack reads two shorts from four bytes.
   */
  lemma MarkCountSkipped()
    ensures ParsePackFormat("S>2") == Ok(PackLayout([IntField(2, 0)], 2))
    ensures AllKnown(Scan("S>2")) && NeedAll(Scan("S>2")) == 4
    ensures UnpackAll(Scan("S>2"), PairData) == Ok([Int(1), Int(2)])
  {
    MarkedPairLayout();
    MarkedPairFacts();
    MarkedPairNeed();
    UnpackPair();
  }

  lemma MarkedPairNeed()
    ensures AllKnown([MarkedPair]) && NeedAll([MarkedPair]) == 4
  {
    MarkedPairFacts();
    NeedAllCons([MarkedPair]);
    assert [MarkedPair][1..] == [];
  }

  lemma MarkedPairLayout()
    ensures ParsePackFormat("S>2") == Ok(PackLayout([IntField(2, 0)], 2))
  {
    MarkedPairFacts();
    EmitAllOne(MarkedPair, 0);
    SingleScalar(MarkedPair, 0);
    ParseTokensSpec([MarkedPair], 0);
  }

  /**
   * With the count after the mark counted, a struct type on `S>2` has two
   * 2-byte fields and is four bytes long; reading four bytes fills both
   * members, and packing gives the bytes back.
   */
  lemma MarkCountLaidOut()
    ensures FromPackFormat("S>2", ["a", "b"]).Ok?
    ensures var t := FromPackFormat("S>2", ["a", "b"]).value;
            && t.size == 4 && t.fields == [IntField(2, 0), IntField(2, 2)]
            && var r := Read(t, Text(PairData), None);
               r.Ok? && r.value.rec.values == [Int(1), Int(2)] && !r.value.short
               && Pack(r.value.rec) == Ok(PairData)
  {
    MarkedPairFacts();
    var n := Normalized(MarkedPair);
    FromPackFormatSpec("S>2", ["a", "b"]);
    assert Normalize([MarkedPair]) == [n];
    EmitAllOne(n, 0);
    assert Emit(n, 0) == Repeat(IntegerClass, 2, 2, 0);
    assert Repeat(IntegerClass, 2, 2, 0) == [IntField(2, 0), IntField(2, 2)];
    var t := FromPackFormat("S>2", ["a", "b"]).value;
    assert ArityAll([MarkedPair]) == 2 by {
      assert [MarkedPair][1..] == [];
    }
    assert AllLossless([MarkedPair]);
    PackReadExact("S>2", ["a", "b"], PairData);
    UnpackPair();
    ReadText(t, PairData, [Int(1), Int(2)]);
    assert [Int(1), Int(2)] + Nils(0) == [Int(1), Int(2)];
  }
}

=== FILE: results.dfy ===
/**
 * Ruby's nil and Ruby's exceptions, as values: `Option` for what may be nil,
 * `Result` for what may raise. `Result` supports `:-`, so a raise in a callee
 * propagates as it does in the library.
 */
module Results {

  datatype Option<T> = None | Some(value: T) {

    /** The value, or `default` when it is nil (Ruby's `x || default`). */
    function GetOr(default: T): T {
      match this
      case Some(v) => v
      case None => default
    }
  }

  /** The outcome of an operation that the library can raise from. */
  datatype Result<T, E> = Ok(value: T) | Err(error: E) {

    predicate IsFailure() {
      Err?
    }

    function PropagateFailure<U>(): Result<U, E>
      requires Err?
    {
      Err(error)
    }

    function Extract(): T
      requires Ok?
    {
      value
    }
  }
}

=== FILE: scenarios.dfy ===
/** Concrete formats from the library's documented behaviour, worked through the model. */
module Scenarios {

  import opened Results
  import opened Errors
  import opened Bytes
  import opened FmtSpec
  import opened Tokenizer
  import opened Layout
  import opened PackFmt
  import opened Codec

  function IntField(size: nat, offset: nat): FieldInfo {
    FieldInfo(Scalar(IntegerClass), size, offset, None, NoFmt)
  }

  function StrField(size: nat, offset: nat): FieldInfo {
    FieldInfo(Scalar(StringClass), size, offset, None, NoFmt)
  }

  function Plain(c: char): Token {
    Token(c, "", None)
  }

  lemma ScanCSL()
    ensures Scan("C S L") == [Plain('C'), Plain('S'), Plain('L')]
  {
    assert Scan("L") == [Plain('L')];
    assert Scan(" L") == Scan("L");
    assert Scan("S L") == [Plain('S')] + Scan(" L");
    assert Scan(" S L") == Scan("S L");
  }

  lemma EmitAllCSL()
    ensures AllKnown([Plain('C'), Plain('S'), Plain('L')])
    ensures EmitAll([Plain('C'), Plain('S'), Plain('L')], 0) == [IntField(1, 0), IntField(2, 1), IntField(4, 3)]
    ensures TotalAdvance([Plain('C'), Plain('S'), Plain('L')]) == 7
  {
    var toks := [Plain('C'), Plain('S'), Plain('L')];
    assert AllKnown(toks);
    SingleScalar(toks[0], 0);
    SingleScalar(toks[1], 1);
    SingleScalar(toks[2], 3);
    assert toks[1..] == [Plain('S'), Plain('L')];
    assert toks[1..][1..] == [Plain('L')];
    assert [Plain('L')][1..] == [];
  }

  /** `C S L`: offsets 0, 1, 3 and seven bytes in all. */
  lemma LayoutCSL()
    ensures ParsePackFormat("C S L") == Ok(PackLayout([IntField(1, 0), IntField(2, 1), IntField(4, 3)], 7))
  {
    ScanCSL();
    EmitAllCSL();
    ParseTokensSpec([Plain('C'), Plain('S'), Plain('L')], 0);
  }

  /** A scalar letter without a count emits one field of its width at the cursor. */
  lemma SingleScalar(t: Token, at: nat)
    requires Known(t) && |t.digits| == 0 && !IsExtent(t.letter) && !IsHexLetter(t.letter)
    ensures var spec := Lookup(t.letter).value;
            Emit(t, at) == [FieldInfo(Scalar(spec.klass.value), spec.width, at, None, NoFmt)]
  {
    EmitByKind(t, at);
  }

  /** A one-digit count is that digit's value. */
  lemma OneDigitCount(c: char, d: char, m: Option<Mark>)
    requires IsDigit(d)
    ensures Count(Token(c, [d], m)) == DigitValue(d)
  {
    var ds: DigitString := [d];
    assert ds[..0] == [];
    assert DecimalValue(ds) == 10 * DecimalValue(ds[..0]) + DigitValue(ds[0]);
  }

  lemma EmitAllOne(t: Token, at: nat)
    requires Known(t)
    ensures AllKnown([t]) && EmitAll([t], at) == Emit(t, at) && TotalAdvance([t]) == Advance(t)
  {
    assert [t][1..] == [];
  }

  lemma EmitSkipped(t: Token, at: nat)
    requires t.letter == 'x'
    ensures Known(t) && Emit(t, at) == [] && Advance(t) == Count(t)
  {
  }

  lemma ScanSkip()
    ensures Scan("x4L") == [Token('x', "4", None), Plain('L')]
  {
    assert "x4L" == Render(Token('x', "4", None)) + Render(Plain('L'));
    assert Render(Plain('L')) == Render(Plain('L')) + "";
    ScanRenderOne(Plain('L'), "");
    ScanRenderOne(Token('x', "4", None), Render(Plain('L')));
  }

  lemma EmitAllSkip()
    ensures AllKnown([Token('x', "4", None), Plain('L')])
    ensures EmitAll([Token('x', "4", None), Plain('L')], 0) == [IntField(4, 4)]
    ensures TotalAdvance([Token('x', "4", None), Plain('L')]) == 8
  {
    var toks := [Token('x', "4", None), Plain('L')];
    OneDigitCount('x', '4', None);
    assert AllKnown(toks);
    EmitSkipped(toks[0], 0);
    SingleScalar(toks[1], 4);
    assert toks[1..] == [Plain('L')] && [Plain('L')][1..] == [];
  }

  /** `x4L`: the skip emits nothing, so the `L` sits at offset 4. */
  lemma LayoutSkip()
    ensures ParsePackFormat("x4L") == Ok(PackLayout([IntField(4, 4)], 8))
  {
    ScanSkip();
    EmitAllSkip();
    ParseTokensSpec([Token('x', "4", None), Plain('L')], 0);
  }

  lemma ScanZeroLengthTail()
    ensures Scan(" a0 C") == [Token('a', "0", None), Plain('C')]
  {
    var a0 := Token('a', "0", None);
    assert " a0 C" == " " + (Render(a0) + " C");
    ScanSpaceC();
    ScanRenderOne(a0, " C");
    ScanSkipsNonLetters(" ", Render(a0) + " C");
  }

  lemma ScanSpaceC()
    ensures Scan(" C") == [Plain('C')]
  {
    assert " C" == " " + (Render(Plain('C')) + "");
    ScanRenderOne(Plain('C'), "");
    ScanSkipsNonLetters(" ", Render(Plain('C')));
  }

  lemma ScanZeroLength()
    ensures Scan("C a0 C") == [Plain('C'), Token('a', "0", None), Plain('C')]
  {
    assert "C a0 C" == Render(Plain('C')) + " a0 C";
    ScanZeroLengthTail();
    ScanRenderOne(Plain('C'), " a0 C");
  }

  lemma EmitAllZeroLength()
    ensures AllKnown([Plain('C'), Token('a', "0", None), Plain('C')])
    ensures EmitAll([Plain('C'), Token('a', "0", None), Plain('C')], 0) == [IntField(1, 0), StrField(0, 1), IntField(1, 1)]
    ensures TotalAdvance([Plain('C'), Token('a', "0", None), Plain('C')]) == 2
  {
    var toks := [Plain('C'), Token('a', "0", None), Plain('C')];
    OneDigitCount('a', '0', None);
    assert AllKnown(toks);
    SingleScalar(toks[0], 0);
    SingleScalar(toks[2], 1);
    assert Emit(toks[1], 1) == [StrField(0, 1)];
    assert toks[1..] == [toks[1], toks[2]] && toks[1..][1..] == [toks[2]] && [toks[2]][1..] == [];
  }

  /** `C a0 C`: a zero-length string adds a field of no bytes and nothing to the total. */
  lemma LayoutZeroLength()
    ensures ParsePackFormat("C a0 C") == Ok(PackLayout([IntField(1, 0), StrField(0, 1), IntField(1, 1)], 2))
  {
    ScanZeroLength();
    EmitAllZeroLength();
    ParseTokensSpec([Plain('C'), Token('a', "0", None), Plain('C')], 0);
  }

  /** `H8`: eight hex digits cover four bytes. */
  lemma LayoutHex()
    ensures ParsePackFormat("H8") == Ok(PackLayout([StrField(4, 0)], 4))
  {
    var toks := [Token('H', "8", None)];
    assert Scan("H8") == toks by {
      assert "H8" == Render(toks[0]) + "";
      ScanRenderOne(toks[0], "");
    }
    OneDigitCount('H', '8', None);
    EmitAllOne(toks[0], 0);
    ParseTokensSpec(toks, 0);
  }

  lemma LayoutBigS()
    ensures ParsePackFormat("S>") == Ok(PackLayout([IntField(2, 0)], 2))
  {
    var big := Token('S', "", Some(Mark(BigOrder, "")));
    assert Scan("S>") == [big] by {
      assert "S>" == Render(big) + "";
      ScanRenderOne(big, "");
    }
    EmitAllOne(big, 0);
    SingleScalar(big, 0);
    ParseTokensSpec([big], 0);
  }

  lemma LayoutN()
    ensures ParsePackFormat("n") == Ok(PackLayout([IntField(2, 0)], 2))
  {
    assert Scan("n") == [Plain('n')] by {
      assert "n" == Render(Plain('n')) + "";
      ScanRenderOne(Plain('n'), "");
    }
    EmitAllOne(Plain('n'), 0);
    SingleScalar(Plain('n'), 0);
    ParseTokensSpec([Plain('n')], 0);
  }

  /** `S>` and `n` lay out alike: the byte-order mark changes nothing in the layout. */
  lemma LayoutByteOrderMark()
    ensures ParsePackFormat("S>") == ParsePackFormat("n") == Ok(PackLayout([IntField(2, 0)], 2))
  {
    LayoutBigS();
    LayoutN();
  }

  /** An unknown letter fails naming the letter. */
  lemma LayoutUnknown()
    ensures ParsePackFormat("K") == Err(UnknownFieldType('K'))
  {
    assert Scan("K") == [Plain('K')];
  }

  // ---------------------------------------------------------------- codec

  lemma UnpackAllOne(t: Token, data: seq<byte>)
    requires Known(t) && UnpackOne(TokenDirective(t), ItemCount(t), data).Ok?
    ensures UnpackAll([t], data) == Ok(UnpackOne(TokenDirective(t), ItemCount(t), data).value.values)
  {
    var one := UnpackOne(TokenDirective(t), ItemCount(t), data).value;
    assert [t][1..] == [];
    UnpackAllCons([t], data, one, []);
    assert one.values + [] == one.values;
  }

  lemma PackAllOne(t: Token, vals: seq<Value>)
    requires Known(t) && PackOne(TokenDirective(t), ItemCount(t), vals).Ok?
    ensures PackAll([t], vals) == Ok(PackOne(TokenDirective(t), ItemCount(t), vals).value.bytes)
  {
    var one := PackOne(TokenDirective(t), ItemCount(t), vals).value;
    assert [t][1..] == [];
    PackAllCons([t], vals, one, []);
    assert one.bytes + [] == one.bytes;
  }

  lemma ScanSingle(t: Token)
    requires Renderable(t)
    ensures Scan(Render(t)) == [t]
  {
    assert Render(t) + "" == Render(t);
    ScanRenderOne(t, "");
  }

  /** `s` over 00 80 is the least 16-bit value. */
  lemma UnpackMinShort()
    ensures UnpackAll(Scan("s"), [0, 128]) == Ok([Int(-32768)])
  {
    var t := Plain('s');
    assert Render(t) == "s";
    ScanSingle(t);
    var d := TokenDirective(t);
    assert d == SignedInt(2, LittleOrder);
    var data: seq<byte> := [0, 128];
    assert LittleEndian(data) == 32768 by {
      assert data[1..][1..] == [];
    }
    assert Pow256(2) == 65536;
    assert data[..2] == data && data[2..] == [];
    assert UnpackScalars(d, 1, data).values == [Int(-32768)];
    UnpackAllOne(t, data);
  }

  const Digits1234: seq<byte> := [49, 50, 51, 52]

  lemma HexHighDigits()
    ensures UnpackHex(true, Digits1234, 8) == [51, 49, 51, 50, 51, 51, 51, 52]
  {
    var r := UnpackHex(true, Digits1234, 8);
    assert r[0] == 51 && r[1] == 49 && r[2] == 51 && r[3] == 50;
    assert r[4] == 51 && r[5] == 51 && r[6] == 51 && r[7] == 52;
  }

  lemma ScanHexHigh()
    ensures Scan("H8") == [Token('H', "8", None)]
    ensures Known(Token('H', "8", None)) && TokenDirective(Token('H', "8", None)) == HexHigh
    ensures Count(Token('H', "8", None)) == 8
  {
    var t := Token('H', "8", None);
    assert Render(t) == "H8";
    ScanSingle(t);
    OneDigitCount('H', '8', None);
  }

  /** `H8` over the bytes of "1234" reads "31323334", high nibble first, and packs back to "1234". */
  lemma HexHighScenario()
    ensures UnpackAll(Scan("H8"), Digits1234) == Ok([Str([51, 49, 51, 50, 51, 51, 51, 52])])
    ensures PackAll(Scan("H8"), [Str([51, 49, 51, 50, 51, 51, 51, 52])]) == Ok(Digits1234)
  {
    var t := Token('H', "8", None);
    ScanHexHigh();
    HexHighDigits();
    UnpackOneHex(HexHigh, 8, Digits1234);
    assert Digits1234[..4] == Digits1234;
    UnpackAllOne(t, Digits1234);
    PackOneStr(HexHigh, 8, [51, 49, 51, 50, 51, 51, 51, 52], []);
    assert [Str([51, 49, 51, 50, 51, 51, 51, 52])] + [] == [Str([51, 49, 51, 50, 51, 51, 51, 52])];
    PackUnpackHex(true, Digits1234);
    PackAllOne(t, [Str([51, 49, 51, 50, 51, 51, 51, 52])]);
  }

  lemma HexLowDigits()
    ensures UnpackHex(false, Digits1234, 8) == [49, 51, 50, 51, 51, 51, 52, 51]
  {
    var r := UnpackHex(false, Digits1234, 8);
    assert r[0] == 49 && r[1] == 51 && r[2] == 50 && r[3] == 51;
    assert r[4] == 51 && r[5] == 51 && r[6] == 52 && r[7] == 51;
  }

  lemma ScanHexLow()
    ensures Scan("h8") == [Token('h', "8", None)]
    ensures Known(Token('h', "8", None)) && TokenDirective(Token('h', "8", None)) == HexLow
    ensures Count(Token('h', "8", None)) == 8
  {
    var t := Token('h', "8", None);
    assert Render(t) == "h8";
    ScanSingle(t);
    OneDigitCount('h', '8', None);
  }

  /** `h8` over the bytes of "1234" reads "13233343", low nibble first, and packs back to "1234". */
  lemma HexLowScenario()
    ensures UnpackAll(Scan("h8"), Digits1234) == Ok([Str([49, 51, 50, 51, 51, 51, 52, 51])])
    ensures PackAll(Scan("h8"), [Str([49, 51, 50, 51, 51, 51, 52, 51])]) == Ok(Digits1234)
  {
    var t := Token('h', "8", None);
    ScanHexLow();
    HexLowDigits();
    UnpackOneHex(HexLow, 8, Digits1234);
    assert Digits1234[..4] == Digits1234;
    UnpackAllOne(t, Digits1234);
    PackOneStr(HexLow, 8, [49, 51, 50, 51, 51, 51, 52, 51], []);
    assert [Str([49, 51, 50, 51, 51, 51, 52, 51])] + [] == [Str([49, 51, 50, 51, 51, 51, 52, 51])];
    PackUnpackHex(false, Digits1234);
    PackAllOne(t, [Str([49, 51, 50, 51, 51, 51, 52, 51])]);
  }

  const Hello: seq<byte> := [104, 101, 108, 108, 111]

  /** `A8` drops the trailing spaces of "hello   ". */
  lemma SpacePaddedScenario()
    ensures UnpackOne(SpacePadded, 8, Hello + [32, 32, 32]) == Ok(Unpacked([Str(Hello)], 8))
  {
    var data := Hello + [32, 32, 32];
    UnpackOneText(SpacePadded, 8, data);
    assert data[..8] == data;
    TrimSuffix(Hello, [32, 32, 32], {NUL, SPACE});
  }

  /** `Z8` drops the trailing NULs of "hello\0\0\0". */
  lemma NulPaddedScenario()
    ensures UnpackOne(NulPadded, 8, Hello + [0, 0, 0]) == Ok(Unpacked([Str(Hello)], 8))
  {
    var data := Hello + [0, 0, 0];
    UnpackOneText(NulPadded, 8, data);
    assert data[..8] == data;
    TrimSuffix(Hello, [0, 0, 0], {NUL});
  }

  /** `a8` keeps every byte of "hello\0\0\0". */
  lemma RawScenario()
    ensures UnpackOne(RawString, 8, Hello + [0, 0, 0]) == Ok(Unpacked([Str(Hello + [0, 0, 0])], 8))
  {
    var data := Hello + [0, 0, 0];
    UnpackOneText(RawString, 8, data);
    assert data[..8] == data;
  }

  /** 12345 is 30 39 in network order and 39 30 in VAX order. */
  lemma ByteOrderScenario()
    ensures EncodeScalar(UnsignedInt(2, BigOrder), Int(12345)) == Ok([48, 57])
    ensures EncodeScalar(UnsignedInt(2, LittleOrder), Int(12345)) == Ok([57, 48])
  {
    assert Pow256(2) == 65536;
    assert Wrap(12345, 2) == 12345;
    assert 12345 / 256 == 48 && 12345 % 256 == 57;
    assert BigEndianBytes(12345, 2) == BigEndianBytes(48, 1) + [57];
    assert BigEndianBytes(48, 1) == BigEndianBytes(0, 0) + [48];
    assert LittleEndianBytes(12345, 2) == [57] + LittleEndianBytes(48, 1);
    assert LittleEndianBytes(48, 1) == [48] + LittleEndianBytes(0, 0);
    assert WriteUnsigned(BigOrder, 12345, 2) == [48, 57];
    assert WriteUnsigned(LittleOrder, 12345, 2) == [57, 48];
    assert EncodeScalar(UnsignedInt(2, BigOrder), Int(12345)) == Ok(WriteUnsigned(BigOrder, Wrap(12345, 2), 2));
    assert EncodeScalar(UnsignedInt(2, LittleOrder), Int(12345)) == Ok(WriteUnsigned(LittleOrder, Wrap(12345, 2), 2));
  }
}

=== FILE: struct_scenarios.dfy ===
/** Field maps and records from the library's documented behaviour, worked through the model. */
module StructScenarios {

  import opened Results
  import opened Errors
  import opened FmtSpec
  import opened Tokenizer
  import opened Layout
  import opened HashFmt

  // ---------------------------------------------------------------- C type names

  lemma IntegerTypeSizes()
    ensures GetTypeSize("int") == Some(4)
    ensures GetTypeSize("char") == Some(1)
    ensures GetTypeSize("short") == Some(2)
  {
  }

  lemma WideTypeSizes()
    ensures GetTypeSize("long long") == Some(8)
    ensures GetTypeSize("double") == Some(8)
    ensures GetTypeSize("float") == Some(4)
  {
  }

  lemma UnknownTypeSize()
    ensures GetTypeSize("unknown") == None
  {
  }

  // ---------------------------------------------------------------- field maps

  const IntX: (string, Desc) := ("x", Named("int"))
  const IntY: (string, Desc) := ("y", Named("int"))
  const IntZ: (string, Desc) := ("z", Options(None, None, Named("int")))

  function Plain(c: char): Token {
    Token(c, "", None)
  }

  function Whole(width: nat, offset: nat): FieldInfo {
    FieldInfo(Scalar(IntegerClass), width, offset, Some(1), NoFmt)
  }

  function Int(offset: nat): FieldInfo {
    Whole(4, offset)
  }

  /** A catalogued name with no count lays out as its bare letter at the cursor. */
  lemma NamedStep(fname: string, d: Desc, code: char, at: nat, structName: Option<string>)
    requires DescOffset(d).None? && DescCount(d) == 1 && DescType(d).Named?
    requires AliasCode(DescType(d).name) == Some(code)
    ensures Lookup(code).Some? && Lookup(code).value.klass.Some?
    ensures var spec := Lookup(code).value;
            ParseField(fname, d, at, structName)
            == Ok(FieldStep([Plain(code)], FieldInfo(Scalar(spec.klass.value), spec.width, at, Some(1), NoFmt)))
  {
    AliasCodeListed(DescType(d).name);
    AliasedCodeKnown(code);
    assert [] + [Plain(code)] == [Plain(code)];
  }

  /** One step of the field walk: the first field's step, then the rest from where it ends. */
  lemma FieldsCons(fs: seq<(string, Desc)>, at: nat, structName: Option<string>, step: FieldStep, rest: Acc)
    requires |fs| > 0
    requires ParseField(fs[0].0, fs[0].1, at, structName) == Ok(step)
    requires ParseFields(fs[1..], End(step.info), structName) == Ok(rest)
    ensures ParseFields(fs, at, structName)
            == Ok(Acc(rest.offset, step.toks + rest.toks, [fs[0].0] + rest.names, [step.info] + rest.fields))
  {
  }

  lemma FieldsOne(f: (string, Desc), at: nat, structName: Option<string>, step: FieldStep)
    requires ParseField(f.0, f.1, at, structName) == Ok(step)
    ensures ParseFields([f], at, structName) == Ok(Acc(End(step.info), step.toks, [f.0], [step.info]))
  {
    assert [f][1..] == [];
    FieldsCons([f], at, structName, step, Acc(End(step.info), [], [], []));
    assert step.toks + [] == step.toks && [f.0] + [] == [f.0] && [step.info] + [] == [step.info];
  }

  lemma IntAlias()
    ensures AliasCode("int") == Some('i') && Lookup('i') == Some(Spec(4, Some(IntegerClass)))
  {
  }

  /** A lone `int` field at `at`. */
  lemma IntStep(f: (string, Desc), at: nat, structName: Option<string>)
    requires f.1 == Named("int") || f.1 == Options(None, None, Named("int"))
    ensures ParseField(f.0, f.1, at, structName) == Ok(FieldStep([Plain('i')], Int(at)))
  {
    IntAlias();
    NamedStep(f.0, f.1, 'i', at, structName);
  }

  lemma PointTail(name: Option<string>)
    ensures ParseFields([IntY, IntZ], 4, name)
            == Ok(Acc(12, [Plain('i'), Plain('i')], ["y", "z"], [Int(4), Int(8)]))
  {
    IntStep(IntZ, 8, name);
    FieldsOne(IntZ, 8, name, FieldStep([Plain('i')], Int(8)));
    IntStep(IntY, 4, name);
    assert [IntY, IntZ][1..] == [IntZ];
    FieldsCons([IntY, IntZ], 4, name, FieldStep([Plain('i')], Int(4)), Acc(12, [Plain('i')], ["z"], [Int(8)]));
    assert [Plain('i')] + [Plain('i')] == [Plain('i'), Plain('i')];
    assert [[IntY, IntZ][0].0] + ["z"] == ["y", "z"];
    assert [Int(4)] + [Int(8)] == [Int(4), Int(8)];
  }

  lemma PointFields(name: Option<string>)
    ensures ParseFields([IntX, IntY, IntZ], 0, name)
            == Ok(Acc(12, [Plain('i'), Plain('i'), Plain('i')], ["x", "y", "z"], [Int(0), Int(4), Int(8)]))
  {
    PointTail(name);
    IntStep(IntX, 0, name);
    assert [IntX, IntY, IntZ][1..] == [IntY, IntZ];
    FieldsCons([IntX, IntY, IntZ], 0, name, FieldStep([Plain('i')], Int(0)),
               Acc(12, [Plain('i'), Plain('i')], ["y", "z"], [Int(4), Int(8)]));
    assert [Plain('i')] + [Plain('i'), Plain('i')] == [Plain('i'), Plain('i'), Plain('i')];
    assert [[IntX, IntY, IntZ][0].0] + ["y", "z"] == ["x", "y", "z"];
    assert [Int(0)] + [Int(4), Int(8)] == [Int(0), Int(4), Int(8)];
  }

  lemma PointFormat()
    ensures RenderAll([Plain('i'), Plain('i'), Plain('i')], "") == "iii"
  {
    JoinCons(Plain('i'), []);
    JoinCons(Plain('i'), [Plain('i')]);
    assert [Plain('i')] + [Plain('i')] == [Plain('i'), Plain('i')];
    JoinCons(Plain('i'), [Plain('i'), Plain('i')]);
    assert [Plain('i')] + [Plain('i'), Plain('i')] == [Plain('i'), Plain('i'), Plain('i')];
  }

  /** Three ints side by side: twelve bytes, `iii`, members x, y, z. */
  lemma PointStruct()
    ensures ParseHashFormat([IntX, IntY, IntZ], None, Some("Point"))
            == Ok(StructType("iii", ["x", "y", "z"], [Int(0), Int(4), Int(8)], 12))
  {
    PointFields(Some("Point"));
    PointFormat();
  }

  /** A forced size of 0x100 replaces the twelve-byte extent. */
  lemma PointForcedLarger()
    ensures ParseHashFormat([IntX, IntY, IntZ], Some(0x100), None)
            == Ok(StructType("iii", ["x", "y", "z"], [Int(0), Int(4), Int(8)], 0x100))
  {
    PointFields(None);
    PointFormat();
  }

  /** A forced size of 4 cannot hold three ints. */
  lemma PointForcedSmaller()
    ensures ParseHashFormat([IntX, IntY, IntZ], Some(4), None) == Err(SizeExceedsForced(12, 4))
  {
    PointFields(None);
  }

  // ---------------------------------------------------------------- explicit offsets

  const OffZ: (string, Desc) := ("z", Options(Some(0x10), None, Named("int")))

  lemma ShowEight()
    ensures ShowNat(8) == "8"
  {
  }

  /** `z` at 0x10 after two ints: an eight-byte skip, then the int. */
  lemma OffsetStep(name: Option<string>)
    ensures ParseField("z", OffZ.1, 8, name) == Ok(FieldStep([Token('x', "8", None), Plain('i')], Int(16)))
  {
    IntAlias();
    ShowEight();
    assert [Token('x', "8", None)] + [Plain('i')] == [Token('x', "8", None), Plain('i')];
  }

  lemma OffsetTail(name: Option<string>)
    ensures ParseFields([IntY, OffZ], 4, name)
            == Ok(Acc(20, [Plain('i'), Token('x', "8", None), Plain('i')], ["y", "z"], [Int(4), Int(16)]))
  {
    OffsetStep(name);
    FieldsOne(OffZ, 8, name, FieldStep([Token('x', "8", None), Plain('i')], Int(16)));
    IntStep(IntY, 4, name);
    assert [IntY, OffZ][1..] == [OffZ];
    FieldsCons([IntY, OffZ], 4, name, FieldStep([Plain('i')], Int(4)),
               Acc(20, [Token('x', "8", None), Plain('i')], ["z"], [Int(16)]));
    assert [Plain('i')] + [Token('x', "8", None), Plain('i')] == [Plain('i'), Token('x', "8", None), Plain('i')];
    assert [[IntY, OffZ][0].0] + ["z"] == ["y", "z"];
    assert [Int(4)] + [Int(16)] == [Int(4), Int(16)];
  }

  lemma OffsetFields(name: Option<string>)
    ensures ParseFields([IntX, IntY, OffZ], 0, name)
            == Ok(Acc(20, [Plain('i'), Plain('i'), Token('x', "8", None), Plain('i')], ["x", "y", "z"], [Int(0), Int(4), Int(16)]))
  {
    OffsetTail(name);
    IntStep(IntX, 0, name);
    assert [IntX, IntY, OffZ][1..] == [IntY, OffZ];
    FieldsCons([IntX, IntY, OffZ], 0, name, FieldStep([Plain('i')], Int(0)),
               Acc(20, [Plain('i'), Token('x', "8", None), Plain('i')], ["y", "z"], [Int(4), Int(16)]));
    assert [Plain('i')] + [Plain('i'), Token('x', "8", None), Plain('i')]
        == [Plain('i'), Plain('i'), Token('x', "8", None), Plain('i')];
    assert [[IntX, IntY, OffZ][0].0] + ["y", "z"] == ["x", "y", "z"];
    assert [Int(0)] + [Int(4), Int(16)] == [Int(0), Int(4), Int(16)];
  }

  /** Joining pieces with nothing between them, one piece at a time. */
  lemma JoinCons(t: Token, rest: seq<Token>)
    ensures RenderAll([t] + rest, "") == Render(t) + RenderAll(rest, "")
  {
    assert ([t] + rest)[1..] == rest;
  }

  lemma OffsetFormat()
    ensures RenderAll([Plain('i'), Plain('i'), Token('x', "8", None), Plain('i')], "") == "iix8i"
  {
    JoinCons(Plain('i'), []);
    assert RenderAll([Plain('i')], "") == "i";
    JoinCons(Token('x', "8", None), [Plain('i')]);
    assert RenderAll([Token('x', "8", None), Plain('i')], "") == "x8i";
    JoinCons(Plain('i'), [Token('x', "8", None), Plain('i')]);
    assert RenderAll([Plain('i'), Token('x', "8", None), Plain('i')], "") == "ix8i";
    JoinCons(Plain('i'), [Plain('i'), Token('x', "8", None), Plain('i')]);
  }

  /** `z` at 0x10: the struct is 0x14 bytes and its format skips the gap, `iix8i`. */
  lemma OffsetStruct()
    ensures ParseHashFormat([IntX, IntY, OffZ], None, Some("Point"))
            == Ok(StructType("iix8i", ["x", "y", "z"], [Int(0), Int(4), Int(16)], 0x14))
  {
    OffsetFields(Some("Point"));
    OffsetFormat();
  }

  /** Two fields both at offset 0: the second overlaps the first. */
  lemma OverlapRejected()
    ensures ParseHashFormat([("x", Options(Some(0), None, Named("int"))), ("y", Options(Some(0), None, Named("char")))],
                            None, Some("Point"))
            == Err(OverlapsPreviousField(Some("Point"), "y"))
  {
    var fs := [("x", Options(Some(0), None, Named("int"))), ("y", Options(Some(0), None, Named("char")))];
    IntAlias();
    assert ParseField("x", fs[0].1, 0, Some("Point")).Ok?;
    assert fs[1..] == [fs[1]];
    assert ParseField("y", fs[1].1, 4, Some("Point")) == Err(OverlapsPreviousField(Some("Point"), "y"));
  }

  // ---------------------------------------------------------------- rejected descriptors

  lemma UnknownTypeRejected()
    ensures ParseHashFormat([("x", Named("unknown_type"))], None, None) == Err(UnknownAlias("x", "unknown_type"))
  {
    assert AliasCode("unknown_type") == None;
    assert ParseField("x", Named("unknown_type"), 0, None) == Err(UnknownAlias("x", "unknown_type"));
  }

  /** A number where a type is expected (an Integer) is not a field descriptor. */
  lemma IntegerDescRejected()
    ensures ParseHashFormat([("x", Other("Integer"))], None, None) == Err(UnexpectedFieldDescType("x", "Integer"))
  {
    assert ParseField("x", Other("Integer"), 0, None) == Err(UnexpectedFieldDescType("x", "Integer"));
  }

  // ---------------------------------------------------------------- arrays and nesting

  const IntArr: (string, Desc) := ("a", Options(None, Some(3), Named("int")))

  lemma ShowTwelve()
    ensures ShowNat(12) == "12"
  {
    assert ShowNat(1) == "1";
  }

  /** `a: {type: int, count: 3}` at 4: twelve bytes read as one `a12` piece. */
  lemma ArrayStep(name: Option<string>)
    ensures ParseField("a", IntArr.1, 4, name)
            == Ok(FieldStep([Token('a', "12", None)], FieldInfo(Scalar(IntegerClass), 12, 4, Some(3), Elements('i', 3))))
  {
    IntAlias();
    ShowTwelve();
    assert [] + [Token('a', "12", None)] == [Token('a', "12", None)];
  }

  lemma ArrayTail(name: Option<string>)
    ensures ParseFields([IntArr, IntY], 4, name)
            == Ok(Acc(20, [Token('a', "12", None), Plain('i')], ["a", "y"],
                      [FieldInfo(Scalar(IntegerClass), 12, 4, Some(3), Elements('i', 3)), Int(16)]))
  {
    var arr := FieldInfo(Scalar(IntegerClass), 12, 4, Some(3), Elements('i', 3));
    IntStep(IntY, 16, name);
    FieldsOne(IntY, 16, name, FieldStep([Plain('i')], Int(16)));
    ArrayStep(name);
    assert [IntArr, IntY][1..] == [IntY];
    FieldsCons([IntArr, IntY], 4, name, FieldStep([Token('a', "12", None)], arr), Acc(20, [Plain('i')], ["y"], [Int(16)]));
    assert [Token('a', "12", None)] + [Plain('i')] == [Token('a', "12", None), Plain('i')];
    assert [[IntArr, IntY][0].0] + ["y"] == ["a", "y"];
    assert [arr] + [Int(16)] == [arr, Int(16)];
  }

  lemma ArrayFields(name: Option<string>)
    ensures ParseFields([IntX, IntArr, IntY], 0, name)
            == Ok(Acc(20, [Plain('i'), Token('a', "12", None), Plain('i')], ["x", "a", "y"],
                      [Int(0), FieldInfo(Scalar(IntegerClass), 12, 4, Some(3), Elements('i', 3)), Int(16)]))
  {
    var fs := [IntX, IntArr, IntY];
    assert fs[1..] == [IntArr, IntY];
    ArrayTail(name);
    var tail := ParseFields(fs[1..], 4, name).value;
    IntStep(IntX, 0, name);
    FieldsCons(fs, 0, name, FieldStep([Plain('i')], Int(0)), tail);
    assert [Plain('i')] + tail.toks == [Plain('i'), Token('a', "12", None), Plain('i')];
    assert [fs[0].0] + tail.names == ["x", "a", "y"];
    assert [Int(0)] + tail.fields == [Int(0), tail.fields[0], tail.fields[1]];
  }

  lemma ArrayFormat()
    ensures RenderAll([Plain('i'), Token('a', "12", None), Plain('i')], "") == "ia12i"
  {
    JoinCons(Plain('i'), []);
    JoinCons(Token('a', "12", None), [Plain('i')]);
    assert [Token('a', "12", None)] + [Plain('i')] == [Token('a', "12", None), Plain('i')];
    JoinCons(Plain('i'), [Token('a', "12", None), Plain('i')]);
    assert [Plain('i')] + [Token('a', "12", None), Plain('i')] == [Plain('i'), Token('a', "12", None), Plain('i')];
  }

  /** An int, three ints as one array field, an int: twenty bytes, format `ia12i`. */
  lemma ArrayStruct()
    ensures ParseHashFormat([IntX, IntArr, IntY], None, None)
            == Ok(StructType("ia12i", ["x", "a", "y"],
                             [Int(0), FieldInfo(Scalar(IntegerClass), 12, 4, Some(3), Elements('i', 3)), Int(16)], 20))
  {
    ArrayFields(None);
    ArrayFormat();
  }

  /** The two-int point used as a nested type. */
  const Pair: StructType := StructType("ii", ["x", "y"], [Int(0), Int(4)], 8)

  lemma PairStruct()
    ensures ParseHashFormat([IntX, IntY], None, None) == Ok(Pair)
  {
    IntStep(IntY, 4, None);
    FieldsOne(IntY, 4, None, FieldStep([Plain('i')], Int(4)));
    IntStep(IntX, 0, None);
    assert [IntX, IntY][1..] == [IntY];
    FieldsCons([IntX, IntY], 0, None, FieldStep([Plain('i')], Int(0)), Acc(8, [Plain('i')], ["y"], [Int(4)]));
    assert [Plain('i')] + [Plain('i')] == [Plain('i'), Plain('i')];
    assert [[IntX, IntY][0].0] + ["y"] == ["x", "y"];
    assert [Int(0)] + [Int(4)] == [Int(0), Int(4)];
    JoinCons(Plain('i'), []);
    JoinCons(Plain('i'), [Plain('i')]);
    assert RenderAll([Plain('i'), Plain('i')], "") == "ii";
  }

  function Nest(count: nat, offset: nat): FieldInfo {
    FieldInfo(Nested(Pair), 8 * count, offset, Some(count), StructFmt(Pair))
  }

  /** A struct-class field of `n` records at the cursor: one `a` piece over their bytes. */
  lemma NestedStep(fname: string, d: Desc, t: StructType, n: nat, at: nat, structName: Option<string>)
    requires (d == StructClass(t) && n == 1) || d == Options(None, Some(n), StructClass(t))
    ensures ParseField(fname, d, at, structName)
            == Ok(FieldStep([Token('a', ShowNat(t.size * n), None)], FieldInfo(Nested(t), t.size * n, at, Some(n), StructFmt(t))))
  {
    assert [] + [Token('a', ShowNat(t.size * n), None)] == [Token('a', ShowNat(t.size * n), None)];
  }

  const TopLeft: (string, Desc) := ("topLeft", StructClass(Pair))
  const BottomRight: (string, Desc) := ("bottomRight", StructClass(Pair))

  lemma RectFields()
    ensures ParseFields([TopLeft, BottomRight], 0, Some("Rect"))
            == Ok(Acc(16, [Token('a', "8", None), Token('a', "8", None)], ["topLeft", "bottomRight"], [Nest(1, 0), Nest(1, 8)]))
  {
    var fs := [TopLeft, BottomRight];
    ShowEight();
    NestedStep(BottomRight.0, BottomRight.1, Pair, 1, 8, Some("Rect"));
    FieldsOne(BottomRight, 8, Some("Rect"), FieldStep([Token('a', "8", None)], Nest(1, 8)));
    NestedStep(TopLeft.0, TopLeft.1, Pair, 1, 0, Some("Rect"));
    assert fs[1..] == [BottomRight];
    FieldsCons(fs, 0, Some("Rect"), FieldStep([Token('a', "8", None)], Nest(1, 0)),
               Acc(16, [Token('a', "8", None)], ["bottomRight"], [Nest(1, 8)]));
    assert [Token('a', "8", None)] + [Token('a', "8", None)] == [Token('a', "8", None), Token('a', "8", None)];
    assert [fs[0].0] + ["bottomRight"] == ["topLeft", "bottomRight"];
    assert [Nest(1, 0)] + [Nest(1, 8)] == [Nest(1, 0), Nest(1, 8)];
  }

  /** Two points side by side: sixteen bytes, each read as an eight-byte string. */
  lemma RectStruct()
    ensures ParseHashFormat([TopLeft, BottomRight], None, Some("Rect"))
            == Ok(StructType("a8a8", ["topLeft", "bottomRight"], [Nest(1, 0), Nest(1, 8)], 16))
  {
    RectFields();
    assert Render(Token('a', "8", None)) == "a8";
    JoinCons(Token('a', "8", None), []);
    assert RenderAll([Token('a', "8", None)], "") == "a8";
    JoinCons(Token('a', "8", None), [Token('a', "8", None)]);
    assert [Token('a', "8", None)] + [Token('a', "8", None)] == [Token('a', "8", None), Token('a', "8", None)];
    assert RenderAll([Token('a', "8", None), Token('a', "8", None)], "") == "a8a8";
  }

  const Points: (string, Desc) := ("points", Options(None, Some(3), StructClass(Pair)))
  const NumPoints: (string, Desc) := ("num_points", Named("int"))

  lemma ShowTwentyFour()
    ensures ShowNat(24) == "24"
  {
    assert ShowNat(2) == "2";
  }

  lemma PolygonFields()
    ensures ParseFields([NumPoints, Points], 0, None)
            == Ok(Acc(28, [Plain('i'), Token('a', "24", None)], ["num_points", "points"], [Int(0), Nest(3, 4)]))
  {
    var fs := [NumPoints, Points];
    ShowTwentyFour();
    NestedStep(Points.0, Points.1, Pair, 3, 4, None);
    FieldsOne(Points, 4, None, FieldStep([Token('a', "24", None)], Nest(3, 4)));
    IntStep(NumPoints, 0, None);
    assert fs[1..] == [Points];
    FieldsCons(fs, 0, None, FieldStep([Plain('i')], Int(0)), Acc(28, [Token('a', "24", None)], ["points"], [Nest(3, 4)]));
    assert [Plain('i')] + [Token('a', "24", None)] == [Plain('i'), Token('a', "24", None)];
    assert [fs[0].0] + ["points"] == ["num_points", "points"];
    assert [Int(0)] + [Nest(3, 4)] == [Int(0), Nest(3, 4)];
  }

  /** A count and three points: 4 + 8 * 3 bytes, the points read as one 24-byte string. */
  lemma PolygonStruct()
    ensures ParseHashFormat([NumPoints, Points], None, None)
            == Ok(StructType("ia24", ["num_points", "points"], [Int(0), Nest(3, 4)], 28))
  {
    PolygonFields();
    assert Render(Token('a', "24", None)) == "a24";
    JoinCons(Token('a', "24", None), []);
    assert RenderAll([Token('a', "24", None)], "") == "a24";
    JoinCons(Plain('i'), [Token('a', "24", None)]);
    assert [Plain('i')] + [Token('a', "24", None)] == [Plain('i'), Token('a', "24", None)];
    assert RenderAll([Plain('i'), Token('a', "24", None)], "") == "ia24";
  }

  // ---------------------------------------------------------------- C type aliases

  lemma SumFour(fields: seq<FieldInfo>)
    requires |fields| == 4
    ensures SumSizes(fields) == fields[0].size + fields[1].size + fields[2].size + fields[3].size
  {
    assert SumSizes(fields[3..]) == fields[3].size by {
      assert fields[3..][1..] == [];
    }
    assert fields[2..][1..] == fields[3..];
    assert SumSizes(fields[2..]) == fields[2].size + SumSizes(fields[3..]);
    assert fields[1..][1..] == fields[2..];
    assert SumSizes(fields[1..]) == fields[1].size + SumSizes(fields[2..]);
  }

  /** Names of a field map's C types, laid out with no offsets and a count of one each. */
  function Typed(names: seq<string>, types: seq<string>): seq<(string, Desc)>
    requires |names| == |types|
  {
    seq(|names|, i requires 0 <= i < |names| => (names[i], Named(types[i])))
  }

  /** Four fields back to back from a map of known C types: the struct size is their sum. */
  lemma FourTypedSize(types: seq<string>, w: seq<nat>)
    requires |types| == |w| == 4
    requires forall i | 0 <= i < 4 :: GetTypeSize(types[i]) == Some(w[i])
    ensures var r := ParseHashFormat(Typed(["a", "b", "c", "d"], types), None, None);
            r.Ok? && r.value.size == w[0] + w[1] + w[2] + w[3]
  {
    var fs := Typed(["a", "b", "c", "d"], types);
    assert forall i | 0 <= i < 4 :: fs[i].1 == Named(types[i]);
    DefaultPlacement(fs, 0, None);
    ParseFieldsSizes(fs, 0, None);
    var acc := ParseFields(fs, 0, None).value;
    assert forall i | 0 <= i < 4 :: acc.fields[i].size == w[i];
    SumFour(acc.fields);
    assert acc.offset == w[0] + w[1] + w[2] + w[3];
  }

  lemma UintWidths()
    ensures GetTypeSize("uint8_t") == Some(1) && GetTypeSize("uint16_t") == Some(2)
    ensures GetTypeSize("uint32_t") == Some(4) && GetTypeSize("uint64_t") == Some(8)
  {
  }

  lemma IntWidths()
    ensures GetTypeSize("int8_t") == Some(1) && GetTypeSize("int16_t") == Some(2)
    ensures GetTypeSize("int32_t") == Some(4) && GetTypeSize("int64_t") == Some(8)
  {
  }

  /** uint8_t, uint16_t, uint32_t and uint64_t take 1 + 2 + 4 + 8 bytes. */
  lemma UintStruct()
    ensures var r := ParseHashFormat(Typed(["a", "b", "c", "d"], ["uint8_t", "uint16_t", "uint32_t", "uint64_t"]), None, None);
            r.Ok? && r.value.size == 15
  {
    UintWidths();
    FourTypedSize(["uint8_t", "uint16_t", "uint32_t", "uint64_t"], [1, 2, 4, 8]);
  }

  /** int8_t, int16_t, int32_t and int64_t take 1 + 2 + 4 + 8 bytes. */
  lemma IntStruct()
    ensures var r := ParseHashFormat(Typed(["a", "b", "c", "d"], ["int8_t", "int16_t", "int32_t", "int64_t"]), None, None);
            r.Ok? && r.value.size == 15
  {
    IntWidths();
    FourTypedSize(["int8_t", "int16_t", "int32_t", "int64_t"], [1, 2, 4, 8]);
  }

  /** `_BYTE` is an unsigned byte: one field, one byte, format `C`. */
  lemma ByteStruct()
    ensures ParseHashFormat([("a", Named("_BYTE"))], None, None)
            == Ok(StructType("C", ["a"], [Whole(1, 0)], 1))
  {
    assert AliasCode("_BYTE") == Some('C');
    NamedStep("a", Named("_BYTE"), 'C', 0, None);
    FieldsOne(("a", Named("_BYTE")), 0, None, FieldStep([Plain('C')], Whole(1, 0)));
    JoinCons(Plain('C'), []);
    assert RenderAll([Plain('C')], "") == "C";
  }
}

=== FILE: tokenizer.dfy ===
/**
 * The tokenizer shared by every format string: a token is one ASCII letter
 * followed by an optional run of decimal digits, or by a byte-order mark and
 * the digits after it; every other character is passed over.
 */
module Tokenizer {

  import opened Results
  import opened FmtSpec

  predicate IsLetter(c: char) {
    'a' <= c <= 'z' || 'A' <= c <= 'Z'
  }

  predicate IsDigit(c: char) {
    '0' <= c <= '9'
  }

  type DigitString = s: string | forall i | 0 <= i < |s| :: IsDigit(s[i])

  /**
   * A byte-order mark `<` or `>` written right after a letter, and the digit
   * run after the mark. The layout's pattern passes over both; Ruby's pack
   * and unpack read the mark as the item's byte order and those digits as
   * its count.
   */
  datatype Mark = Mark(order: ByteOrder, digits: DigitString)

  /**
   * One match of the scanner: the letter, the digit run right after it, and
   * the mark that follows a letter written without digits.
   */
  datatype Token = Token(letter: char, digits: DigitString, mark: Option<Mark>)

  function DigitValue(c: char): nat
    requires IsDigit(c)
  {
    c as int - '0' as int
  }

  function DigitChar(k: nat): (c: char)
    requires k < 10
    ensures IsDigit(c) && DigitValue(c) == k
  {
    (48 + k) as char
  }

  /** Ruby's `to_i` on a digit run. */
  function DecimalValue(ds: DigitString): nat {
    if |ds| == 0 then 0 else 10 * DecimalValue(ds[..|ds| - 1]) + DigitValue(ds[|ds| - 1])
  }

  /** Decimal rendering of `n`, as Ruby's string interpolation writes it. */
  function ShowNat(n: nat): (r: DigitString)
    ensures |r| > 0
    ensures DecimalValue(r) == n
  {
    if n < 10 then [DigitChar(n)]
    else
      var r := ShowNat(n / 10) + [DigitChar(n % 10)];
      assert r[..|r| - 1] == ShowNat(n / 10);
      r
  }

  /** The repeat count the layout gives a token: its digits' value, or 1 when it has none. */
  function Count(t: Token): nat {
    if |t.digits| == 0 then 1 else DecimalValue(t.digits)
  }

  /** The byte order a token's mark asks for, if it has one. */
  function Order(t: Token): Option<ByteOrder> {
    if t.mark.Some? then Some(t.mark.value.order) else None
  }

  /** The token's count sits after its mark, where the layout's pattern does not look. */
  predicate CountAfterMark(t: Token) {
    t.mark.Some? && |t.mark.value.digits| > 0
  }

  /** The repeat count Ruby's pack and unpack give a token: digits after a mark count too. */
  function ItemCount(t: Token): nat {
    if CountAfterMark(t) then DecimalValue(t.mark.value.digits) else Count(t)
  }

  /** The token with a count written after its mark moved in front of the mark. */
  function Normalized(t: Token): (r: Token)
    ensures r.letter == t.letter && Order(r) == Order(t)
    ensures Count(r) == ItemCount(r) == ItemCount(t)
    ensures !CountAfterMark(t) ==> r == t
  {
    if CountAfterMark(t) then Token(t.letter, t.mark.value.digits, Some(Mark(t.mark.value.order, ""))) else t
  }

  /** Every token normalized. */
  function Normalize(toks: seq<Token>): (r: seq<Token>)
    ensures |r| == |toks| && forall i | 0 <= i < |toks| :: r[i] == Normalized(toks[i])
  {
    seq(|toks|, i requires 0 <= i < |toks| => Normalized(toks[i]))
  }

  lemma NormalizeCons(toks: seq<Token>)
    requires |toks| > 0
    ensures Normalize(toks)[0] == Normalized(toks[0]) && Normalize(toks)[1..] == Normalize(toks[1..])
  {
  }

  /** Normalizing changes nothing when no count follows a mark. */
  lemma NormalizeUnmarked(toks: seq<Token>)
    requires forall i | 0 <= i < |toks| :: !CountAfterMark(toks[i])
    ensures Normalize(toks) == toks
  {
  }

  /** The longest prefix of `s` made of digits. */
  function LeadingDigits(s: string): (r: DigitString)
    ensures r <= s
    ensures |r| < |s| ==> !IsDigit(s[|r|])
  {
    if |s| > 0 && IsDigit(s[0]) then
      var r := [s[0]] + LeadingDigits(s[1..]);
      r
    else []
  }

  function ModifierAt(s: string): Option<ByteOrder> {
    if |s| > 0 && s[0] == '>' then Some(BigOrder)
    else if |s| > 0 && s[0] == '<' then Some(LittleOrder)
    else None
  }

  /**
   * All matches of the token pattern in `s`, left to right, each with the
   * mark and digits that follow a letter written without digits.
   */
  function Scan(s: string): seq<Token>
    decreases |s|
  {
    if |s| == 0 then []
    else if IsLetter(s[0]) then
      var ds := LeadingDigits(s[1..]);
      var rest := s[1 + |ds|..];
      var order := if |ds| == 0 then ModifierAt(rest) else None;
      if order.Some? then
        var mds := LeadingDigits(rest[1..]);
        [Token(s[0], ds, Some(Mark(order.value, mds)))] + Scan(rest[1 + |mds|..])
      else [Token(s[0], ds, None)] + Scan(rest)
    else Scan(s[1..])
  }

  function OrderText(o: ByteOrder): string {
    if o == BigOrder then ">" else "<"
  }

  function MarkText(m: Option<Mark>): string {
    if m.Some? then OrderText(m.value.order) + m.value.digits else ""
  }

  /** The text of one token as a format string writes it. */
  function Render(t: Token): string {
    [t.letter] + MarkText(t.mark) + t.digits
  }

  /** Tokens written one after another, each followed by `sep`. */
  function RenderAll(toks: seq<Token>, sep: string): string {
    if |toks| == 0 then "" else Render(toks[0]) + sep + RenderAll(toks[1..], sep)
  }

  predicate Renderable(t: Token) {
    IsLetter(t.letter) && (t.mark.Some? ==> |t.digits| == 0)
  }

  /** Characters that can stand between tokens without joining either. */
  predicate IsSeparator(sep: string) {
    forall i | 0 <= i < |sep| :: !IsLetter(sep[i]) && !IsDigit(sep[i]) && sep[i] != '<' && sep[i] != '>'
  }

  /** Text without letters before a format contributes no tokens. */
  lemma {:induction false} ScanSkipsNonLetters(pre: string, s: string)
    requires forall i | 0 <= i < |pre| :: !IsLetter(pre[i])
    ensures Scan(pre + s) == Scan(s)
  {
    if |pre| > 0 {
      var full := pre + s;
      assert full[0] == pre[0] && !IsLetter(full[0]);
      assert full[1..] == pre[1..] + s;
      assert Scan(full) == Scan(full[1..]);
      ScanSkipsNonLetters(pre[1..], s);
    } else {
      assert pre + s == s;
    }
  }

  lemma LeadingDigitsOfDigits(ds: DigitString, s: string)
    requires |s| > 0 ==> !IsDigit(s[0])
    ensures LeadingDigits(ds + s) == ds
  {
    if |ds| > 0 {
      assert (ds + s)[1..] == ds[1..] + s;
      LeadingDigitsOfDigits(ds[1..], s);
    }
  }

  /** One step of the scanner at a letter a byte-order mark follows. */
  lemma ScanMarked(s: string)
    requires |s| > 1 && IsLetter(s[0]) && ModifierAt(s[1..]).Some?
    ensures var mds := LeadingDigits(s[2..]);
            Scan(s) == [Token(s[0], "", Some(Mark(ModifierAt(s[1..]).value, mds)))] + Scan(s[2 + |mds|..])
  {
    assert LeadingDigits(s[1..]) == [];
    assert s[1..][1..] == s[2..];
  }

  lemma MarkedTextShape(c: char, o: ByteOrder, ds: DigitString, s: string)
    ensures var full := [c] + OrderText(o) + ds + s;
            && |full| > 1 && full[0] == c && ModifierAt(full[1..]) == Some(o)
            && full[2..] == ds + s
  {
    var full := [c] + OrderText(o) + ds + s;
    assert full == [c] + (OrderText(o) + (ds + s));
  }

  lemma ScanMarkedText(c: char, o: ByteOrder, ds: DigitString, s: string)
    requires IsLetter(c)
    requires |s| > 0 ==> !IsDigit(s[0])
    ensures Scan([c] + OrderText(o) + ds + s) == [Token(c, "", Some(Mark(o, ds)))] + Scan(s)
  {
    var full := [c] + OrderText(o) + ds + s;
    MarkedTextShape(c, o, ds, s);
    LeadingDigitsOfDigits(ds, s);
    ScanMarked(full);
    assert (ds + s)[|ds|..] == s;
  }

  lemma ScanRenderMarked(t: Token, s: string)
    requires Renderable(t) && t.mark.Some?
    requires |s| > 0 ==> !IsDigit(s[0])
    ensures Scan(Render(t) + s) == [t] + Scan(s)
  {
    RenderMarked(t);
    ScanMarkedText(t.letter, t.mark.value.order, t.mark.value.digits, s);
  }

  lemma RenderMarked(t: Token)
    requires t.mark.Some? && |t.digits| == 0
    ensures Render(t) == [t.letter] + OrderText(t.mark.value.order) + t.mark.value.digits
  {
  }

  lemma ScanRenderPlain(t: Token, s: string)
    requires Renderable(t) && t.mark.None?
    requires |s| > 0 ==> !IsDigit(s[0]) && s[0] != '<' && s[0] != '>'
    ensures Scan(Render(t) + s) == [t] + Scan(s)
  {
    var full := Render(t) + s;
    PlainTokenText(t, s);
    ScanLetter(full);
  }

  lemma PlainTokenText(t: Token, s: string)
    requires Renderable(t) && t.mark.None?
    requires |s| > 0 ==> !IsDigit(s[0])
    ensures var full := Render(t) + s;
            && |full| > 0 && full[0] == t.letter
            && LeadingDigits(full[1..]) == t.digits
            && full[1 + |t.digits|..] == s
  {
    var full := Render(t) + s;
    assert full == [t.letter] + (t.digits + s) by {
      assert MarkText(t.mark) == "";
    }
    assert full[1..] == t.digits + s;
    LeadingDigitsOfDigits(t.digits, s);
  }

  /** One step of the scanner at a letter no mark follows. */
  lemma ScanLetter(s: string)
    requires |s| > 0 && IsLetter(s[0])
    ensures var ds := LeadingDigits(s[1..]);
            var rest := s[1 + |ds|..];
            (|ds| > 0 || ModifierAt(rest).None?) ==> Scan(s) == [Token(s[0], ds, None)] + Scan(rest)
  {
  }

  lemma ScanRenderOne(t: Token, s: string)
    requires Renderable(t)
    requires |s| > 0 ==> !IsDigit(s[0]) && s[0] != '<' && s[0] != '>'
    ensures Scan(Render(t) + s) == [t] + Scan(s)
  {
    if t.mark.Some? {
      ScanRenderMarked(t, s);
    } else {
      ScanRenderPlain(t, s);
    }
  }

  /** Writing tokens out and scanning the text gives the tokens back. */
  lemma {:induction false} ScanRenderAll(toks: seq<Token>, sep: string)
    requires forall i | 0 <= i < |toks| :: Renderable(toks[i])
    requires IsSeparator(sep)
    ensures Scan(RenderAll(toks, sep)) == toks
  {
    if |toks| > 0 {
      var rest := RenderAll(toks[1..], sep);
      ScanRenderAll(toks[1..], sep);
      assert RenderAll(toks, sep) == Render(toks[0]) + (sep + rest);
      assert |rest| > 0 ==> rest[0] == toks[1].letter;
      ScanRenderOne(toks[0], sep + rest);
      ScanSkipsNonLetters(sep, rest);
      assert toks == [toks[0]] + toks[1..];
    }
  }
}
